=== FILE: README.md ===
# mmrrdikub trading journal — a Dafny model of its core

mmrrdikub is a crypto trading journal. A browser front-end (Next.js) sizes
positions from a ladder of take-profit and stop-loss rungs, scores the
setup out of 100 and five stars, and shows the journal with search, paging,
a win rate and a CSV export. A Go back-end (Fiber) stores trades, registers
and logs in users, and has handlers that reset passwords with a six-digit
code sent by mail and relay a chat to two AI services. The server's entry
point mounts only registration, login and the trade routes (the latter
behind the token check), so the reset, chat and AI-insight handlers are
modelled as functions although no route reaches them. This project models the decision
logic of both halves as pure Dafny functions over immutable datatypes and
proves what the code promises about it:

- the two sizing engines:
  - the browser's, in `TradeCalculations`: weighted ladder distance, risk
    budget, margin cap, P&L and reward-to-risk;
  - the server's, in `PositionCalculator`: price-weighted average stop,
    ordered validator, fee-adjusted divisor;
- the calculator form (`CalculatorForm`): fee table, ladder editing, the
  100-point score and the save handler;
- the trade handlers (`TradeHandlers`): create checks and defaults, the
  star rule, update field selection, list defaults;
- the journal view (`Dashboard`): exit-price preview, sort toggle, search,
  paging, win rate, pie shares, CSV rows;
- the AI helpers (`AiHandlers`), authentication (`Auth`, `Middleware`), the
  password-reset back-end (`ForgotPassword`) and page (`ResetFlow`), the
  chat back-end (`Chat`) and widget (`ChatWidget`), the server set-up
  (`ApiServer`), the number formatters (`Format`, `PriceTicker`), the
  class-name joiner (`ClassNames`), the language context (`Language`) and
  the sign-up page (`RegisterPage`).

Conventions of the model:

- Money, prices and percentages are `real`. Where the code branches on
  NaN, a JavaScript number is the datatype `Format.JsNumber` (NaN, finite,
  ±Infinity).
- Time is an `int` number of seconds.
- Go's `len` counts UTF-8 bytes and JavaScript's `.length` counts UTF-16
  code units. `Text.Utf8Length` and `Text.Utf16Length` model each one
  explicitly.
- Go's and JavaScript's whitespace sets differ. They are the two
  predicates `Text.IsGoSpace` and `Text.IsJsSpace`.
- Anything the code obtains from outside becomes a parameter. This covers
  the database row found, a random draw, the outcome of a mail or HTTP
  call, the bcrypt comparison, JWT verification, the environment, and the
  library renderers (`toFixed`, `toLocaleString`, `toExponential`,
  `String(n)`, `toLowerCase`, date printing).

`Wrappers`, `Text` and `Sequences` hold the shared helpers. These are
`Option`/`Result`, splitting, joining, trimming, string lengths and
subsequences.

## Model

| member | source | states |
|---|---|---|
| TradeCalculations.WeightedDistance | frontend/app/utils/tradeCalculations.ts:63-98 | 0 for a non-positive entry, an empty ladder, or a ladder with no counted weight; otherwise the sum over counted rungs |
| TradeCalculations.CalculateWeightedDistance | frontend/app/utils/tradeCalculations.ts:69-97 | the loop as written computes exactly the reference sum `WeightedDistance` |
| TradeCalculations.AddLevel | frontend/app/utils/tradeCalculations.ts:75-93 | one loop step adds the rung's contribution and, when the rung counts, its weight; a skipped rung adds nothing |
| TradeCalculations.LevelDistance | frontend/app/utils/tradeCalculations.ts:78-87 | the side/target branches give the side-adjusted distance, which is positive exactly when the price lies beyond entry in the rung's direction |
| TradeCalculations.DistanceSign | frontend/app/utils/tradeCalculations.ts:79-90 | a rung's distance is positive iff a long target or short stop is above entry, or a long stop or short target is below it |
| TradeCalculations.SkippedRungContributesNothing | frontend/app/utils/tradeCalculations.ts:75-93 | inserting a rung with unset, non-positive price, zero weight or non-positive distance leaves the result unchanged |
| TradeCalculations.LoneRung | frontend/app/utils/tradeCalculations.ts:90-97 | a lone counted rung of weight w gives distance × w/100: the sum is not divided by the total weight |
| TradeCalculations.NoRenormalisation | frontend/app/utils/tradeCalculations.ts:96-97 | a single long stop 2 % below entry carrying 50 % gives 1 %, not the 2 % the "normalized" comment suggests |
| TradeCalculations.DistanceSideSymmetry | frontend/app/utils/tradeCalculations.ts:79-86 | LONG target = SHORT stop = (price−entry)/entry×100 and LONG stop = SHORT target = (entry−price)/entry×100 |
| TradeCalculations.WeightedSideSymmetry | frontend/app/utils/tradeCalculations.ts:63-98 | a LONG ladder's targets weigh like the same ladder read as SHORT stops, and vice versa |
| TradeCalculations.SumsSideSymmetry | frontend/app/utils/tradeCalculations.ts:74-94 | both running sums agree between a LONG ladder and the same ladder on the opposite side with the other role |
| TradeCalculations.WeightedSumAppend | frontend/app/utils/tradeCalculations.ts:74-94 | the sums over two ladders put end to end are the sums of each |
| TradeCalculations.NonNegativeWeightsSums | frontend/app/utils/tradeCalculations.ts:89-97 | with non-negative weights both sums are non-negative, and each is positive iff some rung counts |
| TradeCalculations.PositiveIffSomeRungCounts | frontend/app/utils/tradeCalculations.ts:69-97 | with non-negative weights the result is ≥ 0, and > 0 iff entry is positive and at least one rung counts |
| TradeCalculations.UncappedSize | frontend/app/utils/tradeCalculations.ts:150-154 | the size times (stop fraction + round-trip fee fraction) equals the risk amount |
| TradeCalculations.Outcome | frontend/app/utils/tradeCalculations.ts:180-200 | quantity × entry = size; gross win and loss at the weighted distances; the fee on both sides; net figures; R:R × net loss = net win, or 0 when the net loss is not positive |
| TradeCalculations.SizedMetrics | frontend/app/utils/tradeCalculations.ts:134-212 | the margin cap fixes the size and margin and invalidates the result; margin ≤ portfolio; valid iff uncapped with a positive target distance; net = gross ∓ fee |
| TradeCalculations.CalculateTradeMetrics | frontend/app/utils/tradeCalculations.ts:104-213 | non-positive portfolio or entry gives the all-zero invalid record with its error; no stop distance gives zeros except the risk amount; a valid record has both distances positive and no error |
| TradeCalculations.RiskContainment | frontend/app/utils/tradeCalculations.ts:150-154 | when not capped, loss at the stop plus fees equals the risk budget exactly |
| TradeCalculations.MarginCap | frontend/app/utils/tradeCalculations.ts:160-175 | with leverage > 0 the cap is hit iff the uncapped size exceeds portfolio × leverage, and the final size is their minimum |
| TradeCalculations.CappedScenario | frontend/app/utils/tradeCalculations.ts:166-187 | a capped position is invalid, and its loss at the stop no longer equals the risk budget |
| TradeCalculations.UncappedSizeMonotoneInRisk | frontend/app/utils/tradeCalculations.ts:134-154 | a higher risk percentage never gives a smaller uncapped position |
| TradeCalculations.FormatRR | frontend/app/utils/tradeCalculations.ts:218-221 | "0:0" iff the ratio is ≤ 0; otherwise "1:" and the ratio to two decimals |
| PositionCalculator.WeightedAvgSL | backend/internal/services/calculator.go:92-109 | 0 when the weights sum to 0; otherwise average × Σweight = Σprice·weight |
| PositionCalculator.CalculateWeightedSL | backend/internal/services/calculator.go:92-109 | the accumulation loop computes exactly `WeightedAvgSL` |
| PositionCalculator.PriceWeightSumBounds | backend/internal/services/calculator.go:97-100 | with non-negative weights and prices in [lo, hi], Σprice·weight lies between lo·Σweight and hi·Σweight |
| PositionCalculator.WeightedAvgSLBetween | backend/internal/services/calculator_test.go:88-113 | with positive weights the average stop lies between the lowest and highest stop price |
| PositionCalculator.FirstBadStop | backend/internal/services/calculator.go:135-146 | no error iff every stop has a positive price and weight; otherwise one of the two stop errors |
| PositionCalculator.FirstBadStopOrder | backend/internal/services/calculator.go:135-141 | the first invalid stop decides the error, its price checked before its weight |
| PositionCalculator.ValidateInput | backend/internal/services/calculator.go:113-159 | balance, risk in (0,100], entry, non-empty stops, each stop, leverage ≥ 0, fee ≥ 0, first failure wins; accepted iff `Acceptable` |
| PositionCalculator.CalculatePositionSize | backend/internal/services/calculator.go:36-87 | invalid input gives the validator's error; on valid input the zero-distance error iff the divisor is 0; otherwise quantity × divisor = risk amount, USD = quantity × entry, fee = USD × rate × 2 |
| PositionCalculator.ZeroDivisorIff | backend/internal/services/calculator.go:52-66 | on accepted input the divisor-zero error happens iff entry equals the average stop and the fee is 0 |
| PositionCalculator.AvgPositive | backend/internal/services/calculator.go:92-109 | positive prices and weights give a positive average stop |
| PositionCalculator.LeverageIgnored | backend/internal/services/calculator.go:36-87 | leverage is validated but unused: any two non-negative leverages give the same result |
| PositionCalculator.SingleStopExample | backend/internal/services/calculator_test.go:19-86 | balance 1000, risk 1 %, entry 100, stop 99: quantity 10/(1 + 199·fee) |
| PositionCalculator.FeeFreeExample | backend/internal/services/calculator_test.go:19-47 | the same example without fee gives 10 units worth 1000 |
| PositionCalculator.SplitStopExample | backend/internal/services/calculator_test.go:88-113 | stops 99 and 98 at 0.5 each average to 98.5 |
| PositionCalculator.PositiveFeeShrinksExample | backend/internal/services/calculator_test.go:49-86 | any positive fee makes the example strictly smaller than 1000 USD |
| CalculatorForm.FindFrom | frontend/app/components/Calculator.tsx:279 | a found exchange carries the name looked up |
| CalculatorForm.FindFromSpec | frontend/app/components/Calculator.tsx:279 | nothing is found iff no entry has the name; otherwise the first entry that has it |
| CalculatorForm.FeeRate | frontend/app/components/Calculator.tsx:278-281 | "Custom" uses the custom fee; an exchange of the table gets its taker fee; a name missing from the table gets 0.05 |
| CalculatorForm.FeeRateValues | frontend/app/components/Calculator.tsx:187-196 | any other fee is a listed taker fee or the 0.05 fallback |
| CalculatorForm.ListedFees | frontend/app/components/Calculator.tsx:187-196 | every exchange of the table other than "Custom" charges its own taker fee, which is positive |
| CalculatorForm.CustomFeeOnlyForCustom | frontend/app/components/Calculator.tsx:278-281 | two custom-fee values give the same fee iff "Custom" is not selected or the values are equal |
| CalculatorForm.EngineInputs | frontend/app/components/Calculator.tsx:318-328 | the engine gets the selected fee and the form's ladders |
| CalculatorForm.DistancePercent | frontend/app/components/Calculator.tsx:299-310 | 0 without entry or price; otherwise the engine's side-adjusted distance |
| CalculatorForm.DisplayedDistanceOfCountedRung | frontend/app/components/Calculator.tsx:299-310 | every rung the engine counts shows a positive distance |
| CalculatorForm.AddLevel | frontend/app/components/Calculator.tsx:450-457 | no-op at a total ≥ 100; otherwise appends one price-0 rung that brings the total to exactly 100, earlier rungs kept |
| CalculatorForm.RemoveLevel | frontend/app/components/Calculator.tsx:459-466 | no-op on a one-rung ladder; otherwise drops the id, keeps the others in order, and a lone survivor takes 100 % |
| CalculatorForm.ReasonPoints | frontend/app/components/Calculator.tsx:389-398 | 15 for a listed reason, 12 for custom text, 0 otherwise, each as an iff |
| CalculatorForm.LadderWarnings | frontend/app/components/Calculator.tsx:401-408 | no ladder warning iff both totals are 100 |
| CalculatorForm.TotalPoints | frontend/app/components/Calculator.tsx:337-408 | the total lies in [0,100] and is 100 iff every criterion is at its best bucket |
| CalculatorForm.CriteriaMonotone | frontend/app/components/Calculator.tsx:337-386 | a better R:R never lowers its points; higher risk or leverage never raises theirs |
| CalculatorForm.SetupScoreBuckets | frontend/app/components/Calculator.tsx:416 | `Math.round(total/100×5)` = ⌊(total+10)/20⌋, in [0,5] for totals in [0,100] |
| CalculatorForm.Recommend | frontend/app/components/Calculator.tsx:417-421 | "ready" iff no warning and ≥ 4 stars; "fix" iff not ready and ≤ 2 stars |
| CalculatorForm.Score | frontend/app/components/Calculator.tsx:332-447 | stars from the total; no warning iff every criterion clears its warning threshold and the margin is not capped |
| CalculatorForm.NoWarningNoFix | frontend/app/components/Calculator.tsx:337-421 | a setup with no warning has ≥ 62 points and ≥ 3 stars, so it is never told to fix the setup |
| CalculatorForm.LadderCriterion | frontend/app/components/Calculator.tsx:296-297 | the ladder criterion holds iff both totals are 100, portfolio and entry are positive, and the engine counts a rung on each side |
| CalculatorForm.Calculate | frontend/app/components/Calculator.tsx:316-447 | "ready to trade" needs sized metrics, no margin cap, R:R ≥ 1.5, both ladders at 100 %, risk ≤ 2, leverage ≤ 10, a reason and ≥ 70 points; an engine diagnostic always raises a warning; "fix" is only advised with a warning and ≤ 2 stars |
| CalculatorForm.ReadyToTradeCanBeSaved | frontend/app/components/Calculator.tsx:416-587 | with a fee that is not negative, a setup rated ready to trade has a positive size, so `canSave` holds and a signed-in user with a well-formed pair submits it |
| CalculatorForm.SlashIndex | frontend/app/components/Calculator.tsx:488 | the first '/' of the text, or none when there is no '/' |
| CalculatorForm.PairFormatDecidesPattern | frontend/app/components/Calculator.tsx:488-492 | splitting at the first '/' decides `^[A-Z0-9]{1,10}/[A-Z0-9]{1,10}$` exactly |
| CalculatorForm.HandleSave | frontend/app/components/Calculator.tsx:486-547 | pair error, then missing inputs, then the guest draft (before the totals), then submission iff `canSave` with a token; the draft holds every field but the custom fee, so restoring it onto the initial form gives the form back with the fee 0.05; the request carries the score, sizes and first prices |
| CalculatorForm.Restore | frontend/app/components/Calculator.tsx:256 | spreading a draft over the form keeps the form's custom fee, and the result's draft fields read back as the draft |
| CalculatorForm.CanSave | frontend/app/components/Calculator.tsx:587 | save is enabled iff the entry and the position size are positive and the ladder raises no warning (both totals 100) |
| CalculatorForm.DraftOf | frontend/app/components/Calculator.tsx:502-514 | restoring a draft onto any form gives the drafted form back with the custom fee of the form it was restored onto |
| CalculatorForm.RestoredDraftLosesCustomFee | frontend/app/components/Calculator.tsx:250-262 | a guest who chose "Custom" with a fee other than 0.05 comes back after sign-in computing with 0.05 instead |
| CalculatorForm.GuestDraftIgnoresTotals | frontend/app/components/Calculator.tsx:499-587 | a guest saves a draft even though `canSave` is false for totals ≠ 100; restored, the draft is the form with the fee 0.05 |
| TradeHandlers.SetupScore | backend/internal/handlers/trade.go:256-284 | always in [1,5]; ratio stars at risk ≤ 5, less one or two stars above 5 % or 10 %, floored at 1 |
| TradeHandlers.SetupScoreMonotone | backend/internal/handlers/trade.go:256-284 | non-decreasing in R:R and non-increasing in risk |
| TradeHandlers.SetupScoreFloor | backend/internal/handlers/trade.go:256-284 | the score is 1 iff R:R < 2 with risk > 10, or R:R < 1.5 with risk > 5 |
| TradeHandlers.CreateCheck | backend/internal/handlers/trade.go:146-189 | no user, missing fields, pair over 50 bytes, no '/', bad side, first failure wins; accepted iff all pass |
| TradeHandlers.CreateTrade | backend/internal/handlers/trade.go:144-250 | errors exactly as the checks say; a created trade is OPEN, leverage ≤ 0 becomes 1, times default to now, the score is computed only for score 0 and R:R > 0 |
| TradeHandlers.LoosePairAccepted | backend/internal/handlers/trade.go:178-189 | a lower-case pair like "btc/" is stored, since only a '/' is required |
| TradeHandlers.BuildPatch | backend/internal/handlers/trade.go:426-458 | each column is written iff its value is non-zero or non-empty; closing statuses stamp closed_at and exit_time with now unless given |
| TradeHandlers.ApplyPatch | backend/internal/handlers/trade.go:426-447 | only the patched columns change |
| TradeHandlers.UpdateTrade | backend/internal/handlers/trade.go:404-470 | identity fields are kept; pnl 0 keeps the stored pnl; a closing status always leaves both times set |
| TradeHandlers.ReclosingRestamps | backend/internal/handlers/trade.go:450-458 | a second WIN without times moves the close time to the second call |
| TradeHandlers.ZeroPnlCannotBeWritten | backend/internal/handlers/trade.go:430-432 | a pnl of exactly 0 cannot be stored over a non-zero one |
| TradeHandlers.WithDefaults | backend/internal/handlers/trade.go:304-312 | limit outside 1..100 becomes 50; empty sort column and direction become created_at and DESC; the rest is kept |
| TradeHandlers.WithDefaultsIdempotent | backend/internal/handlers/trade.go:304-312 | applying the defaults twice is applying them once |
| TradeHandlers.EmptyFilterSelectsOwnTrades | backend/internal/handlers/trade.go:316-327 | without status, pair or side filters exactly the user's own trades are selected |
| TradeHandlers.LikeMatch | backend/internal/handlers/trade.go:323 | SQL LIKE matching; a pattern without '%', '_' or backslash matches exactly the text equal to it |
| TradeHandlers.Selected | backend/internal/handlers/trade.go:316-327 | a selected trade belongs to the user, and has the filtered side and, unless the status filter is "" or "all", the filtered status |
| TradeHandlers.PercentMatchesAll | backend/internal/handlers/trade.go:323 | the LIKE pattern '%' matches every text |
| TradeHandlers.LiteralHead | backend/internal/handlers/trade.go:323 | a pattern starting with wildcard-free text matches iff that text is a prefix and the rest of the pattern matches the rest |
| TradeHandlers.SurroundedLiteralIsContains | backend/internal/handlers/trade.go:323 | `%q%` with a wildcard-free `q` matches exactly the texts containing `q` |
| TradeHandlers.LiteralPairFilterIsContains | backend/internal/handlers/trade.go:316-327 | a wildcard-free pair filter selects the user's trades whose folded pair contains the folded filter, with the status and side filters |
| TradeHandlers.PercentPairSelectsAll | backend/internal/handlers/trade.go:322-324 | the filter text is not escaped: a pair filter of '%' selects every trade of the user |
| TradeHandlers.UnderscoreMatchesSlash | backend/internal/handlers/trade.go:323 | '_' matches any character: the filter "BTC_USDT" selects "BTC/USDT" |
| Dashboard.ExitPreview | frontend/app/components/Dashboard.tsx:200-228 | P&L percent × entry = the directional move × 100, and pnl + fee = percent/100 × size; both 0 without exit or entry; status from the pre-fee pnl |
| Dashboard.StatusFollowsMove | frontend/app/components/Dashboard.tsx:216-227 | WIN, LOSS and BREAK_EVEN iff the move is favourable, adverse or nil |
| Dashboard.WinWithNegativeNet | frontend/app/components/Dashboard.tsx:216-227 | a WIN can store a negative pnl once the fee is taken off |
| Dashboard.HandleSort | frontend/app/components/Dashboard.tsx:162-167 | the clicked column is chosen; ascending iff it was already the column and descending |
| Dashboard.SortToggleInvolution | frontend/app/components/Dashboard.tsx:162-167 | two clicks on the sorted column restore the configuration |
| Dashboard.Search | frontend/app/components/Dashboard.tsx:137-153 | a blank query keeps the list; otherwise an order-preserving subsequence of exactly the matching trades |
| Dashboard.Page | frontend/app/components/Dashboard.tsx:155-158 | at most ten items, starting with item 10p when it exists |
| Dashboard.TotalPages | frontend/app/components/Dashboard.tsx:160 | the least page count whose pages hold every item, ⌈n/10⌉ |
| Dashboard.PagesArePrefix | frontend/app/components/Dashboard.tsx:155-160 | the first k pages are the first 10k items: nothing lost or repeated |
| Dashboard.PagesCoverList | frontend/app/components/Dashboard.tsx:155-160 | all pages together are exactly the filtered list |
| Dashboard.WinRate | frontend/app/components/Dashboard.tsx:287-291 | in [0,100]; rate × decided = wins × 100; 0 without decided trades |
| Dashboard.Pie | frontend/app/components/Dashboard.tsx:293-301 | all three shares are 0 when there are no trades, and otherwise they are non-negative and sum to 100 |
| Dashboard.CsvRow | frontend/app/components/Dashboard.tsx:245-265 | 14 fields, as many as headers; reason and notes without ',', notes without a line break |
| Dashboard.CsvLineReadsBack | frontend/app/components/Dashboard.tsx:250-269 | when pair, side, status and the renderers have no ',', reading the line back by commas gives exactly the 14 fields |
| Dashboard.CommaInPairShiftsColumns | frontend/app/components/Dashboard.tsx:250-269 | the pair is not sanitised: "A,B/C" yields 15 fields and shifts every later column |
| AiHandlers.CalcRR | backend/internal/handlers/ai.go:264-275 | 0 for a non-positive price; LONG with entry > sl: rr × (entry−sl) = tp−entry; SHORT mirrored; every other case 0, so never a division by zero |
| AiHandlers.CalcRRMirror | backend/internal/handlers/ai.go:264-275 | mirroring stop and target through entry turns a LONG into a SHORT with the same ratio |
| AiHandlers.CalcRRPositive | backend/internal/handlers/ai.go:268-270 | sl < entry < tp gives a positive LONG ratio |
| AiHandlers.ReplyLanguage | backend/internal/handlers/ai.go:113-118 | "en" iff the header starts with "en"; else "zh" iff it starts with "zh"; else "th" |
| AiHandlers.ReplyLanguageExamples | backend/internal/handlers/ai.go:113-118 | the prefix test is case-sensitive: "EN" and "" read as Thai |
| AiHandlers.CleanInsight | backend/internal/handlers/ai.go:343-345 | the cleaned reply has no Go whitespace at either end |
| AiHandlers.CleanInsightUnwraps | backend/internal/handlers/ai.go:343-345 | a body between "```json" and "```", with whitespace padding, comes out as the body |
| AiHandlers.LeadingSpaceKeepsFence | backend/internal/handlers/ai.go:343-345 | fences are removed before trimming, so a leading space keeps the opening fence |
| Auth.Register | backend/internal/handlers/auth.go:85-122 | empty credentials, then a password under 6 bytes, then a taken name, then a failed hash (500), each as an iff; a new user stores the e-mail unchecked, the hash and no reset code |
| Auth.RegisterTwice | backend/internal/handlers/auth.go:98-104 | a name that registered once is refused as taken |
| Auth.RegisterIgnoresEmail | backend/internal/handlers/auth.go:85-122 | any e-mail, even an empty one, is accepted |
| Auth.TokenExpiry | backend/internal/handlers/auth.go:190-192 | a token expires 24 hours after it is issued |
| Auth.Login | backend/internal/handlers/auth.go:155-203 | empty credentials give 400; unknown name or wrong password give 401; success returns the user's id, name and expiry |
| Auth.LoginDoesNotRevealUsers | backend/internal/handlers/auth.go:167-185 | an unknown name and a wrong password get the identical answer |
| Auth.JwtSecret | backend/internal/handlers/auth.go:235-242 | the non-empty JWT_SECRET, else the built-in default; never empty |
| Middleware.BearerToken | backend/internal/handlers/middleware.go:25-30 | a returned token contains no space |
| Middleware.BearerTokenIff | backend/internal/handlers/middleware.go:25-30 | the token is t iff the header is "Bearer " + t with t space-free |
| Middleware.NotBearerForm | backend/internal/handlers/middleware.go:25-30 | any header not of that form is refused |
| Middleware.EmptyBearerTokenAccepted | backend/internal/handlers/middleware.go:25-30 | "Bearer " passes with an empty token |
| Middleware.BearerSchemeCaseSensitive | backend/internal/handlers/middleware.go:26 | "bearer abc" is refused |
| Middleware.BearerTokenWithSpaceRefused | backend/internal/handlers/middleware.go:25-26 | "Bearer a b" is refused |
| Middleware.BearerDoubleSpaceRefused | backend/internal/handlers/middleware.go:25-26 | "Bearer  abc" is refused |
| Middleware.Authenticate | backend/internal/handlers/middleware.go:18-49 | 401 for a missing header, a malformed one, or a token that fails verification, each as an iff; success hands the token on verbatim and keeps every other local |
| Middleware.CurrentUserId | backend/internal/handlers/middleware.go:54-61 | 0 when no unsigned id is stored |
| Middleware.CurrentUsername | backend/internal/handlers/middleware.go:63-69 | "" when no string name is stored |
| Middleware.AuthenticatedIdentity | backend/internal/handlers/middleware.go:44-69 | behind the guard the helpers return exactly the verified claims |
| Middleware.WellFormedHeaderPasses | backend/internal/handlers/middleware.go:18-49 | a well-formed header whose token verifies always gets through |
| ForgotPassword.PadDecimal | backend/internal/handlers/forgot_password.go:28 | `%06d` gives exactly six decimal digits |
| ForgotPassword.PadDecimalRoundTrip | backend/internal/handlers/forgot_password.go:22-29 | reading the printed code back gives the draw |
| ForgotPassword.PadDecimalInjective | backend/internal/handlers/forgot_password.go:22-29 | different draws print as different codes |
| ForgotPassword.GenerateOtp | backend/internal/handlers/forgot_password.go:22-29 | six digits denoting the draw, or failure exactly when the random source fails |
| ForgotPassword.RequestCode | backend/internal/handlers/forgot_password.go:103-141 | empty contact 400, unknown e-mail 404, draw or mail failure 500, each as an iff; a new code expiring in 5 minutes replaces any earlier one, even when the mail fails |
| ForgotPassword.VerifyCode | backend/internal/handlers/forgot_password.go:148-168 | no account, wrong or missing code, missing or past expiry, in that order; accepted iff the code matches and is live; nothing is written |
| ForgotPassword.ResetPassword | backend/internal/handlers/forgot_password.go:176-212 | a short password is refused before any lookup; then exactly verification's errors; success stores the hash and clears the code |
| ForgotPassword.RequestedCodeWindow | backend/internal/handlers/forgot_password.go:124-165 | the stored code is accepted up to and including its expiry second and expired after |
| ForgotPassword.MailFailureKeepsCodeLive | backend/internal/handlers/forgot_password.go:124-137 | a failed mail still leaves a live code stored |
| ForgotPassword.NewRequestReplacesCode | backend/internal/handlers/forgot_password.go:124-126 | a second request with another draw makes the first code wrong |
| ForgotPassword.ResetCodeSingleUse | backend/internal/handlers/forgot_password.go:204-206 | after a successful reset no code is accepted, so a code cannot be reused |
| ForgotPassword.ResetAgreesWithVerify | backend/internal/handlers/forgot_password.go:182-206 | with a long password and a working hasher, reset succeeds iff verification would |
| Chat.CheckChat | backend/internal/handlers/chat.go:48-59 | 401 without a user, 400 for no messages, accepted otherwise |
| Chat.PromptLanguage | backend/internal/handlers/chat.go:78-81 | the sent language, or "th" when none is sent; never empty |
| Chat.GeminiRole | backend/internal/handlers/chat.go:102-106 | no "assistant" comes out; every other role is kept; "model" comes out exactly for "assistant" and "model" |
| Chat.MessageContents | backend/internal/handlers/chat.go:102-111 | one content per message, in order, with the converted role and the same text |
| Chat.GeminiContents | backend/internal/handlers/chat.go:92-111 | prompt as "user", the fixed acknowledgement as "model", then the converted history: n+2 entries |
| Chat.PollinationsMessages | backend/internal/handlers/chat.go:189-194 | one system message, then the history unchanged |
| Chat.GeminiHasNoAssistantRole | backend/internal/handlers/chat.go:92-111 | no "assistant" role reaches the primary back-end |
| Chat.ListsCarrySameTexts | backend/internal/handlers/chat.go:92-194 | both back-end lists carry the same texts in the same order after their preamble |
| Chat.AssistantAndModelMerge | backend/internal/handlers/chat.go:102-106 | "assistant" and "model" in the history are indistinguishable to the primary back-end |
| Chat.GeminiCall | backend/internal/handlers/chat.go:151-182 | success iff a 200 with a text; a quota error iff status 429 |
| Chat.PollinationsCall | backend/internal/handlers/chat.go:186-229 | success iff a 200 with a text, which is trimmed of Go whitespace |
| Chat.Reply | backend/internal/handlers/chat.go:119-145 | the primary answer when it succeeds; the fallback service only without a key or after a 429; otherwise the fixed apology with source "fallback" |
| Chat.NonQuotaFailureSkipsPollinations | backend/internal/handlers/chat.go:126-138 | a non-429 failure goes straight to the apology |
| Chat.NoKeyIgnoresGemini | backend/internal/handlers/chat.go:119-128 | without a key the primary outcome is irrelevant |
| ApiServer.HandleError | backend/cmd/api/main.go:45-52 | a framework error's own code, else 500, with the error text |
| ApiServer.AnyDeploymentAllowed | backend/cmd/api/main.go:81-83 | every origin ending in ".vercel.app" or ".xyz" is allowed |
| ApiServer.OriginAllowed | backend/cmd/api/main.go:73-88 | the CORS origin test as an if-and-only-if: a missing origin and the three development origins are allowed, every other origin without a ".vercel.app" or ".xyz" suffix is refused, and an allowed origin without a dot is "" or a development origin |
| ApiServer.OtherOriginsDenied | backend/cmd/api/main.go:73-88 | an origin that is not empty, not a development origin and has neither allowed suffix is refused |
| ApiServer.EmptyOriginAllowed | backend/cmd/api/main.go:84-86 | a request with no Origin header is allowed |
| ApiServer.DevOriginsExact | backend/cmd/api/main.go:73-88 | the three development origins are allowed exactly, and other ports or a trailing slash are refused |
| Format.Abs | frontend/app/utils/format.ts:21 | `Math.abs` keeps NaN and is otherwise non-negative |
| Format.PriceDecimals | frontend/app/utils/format.ts:21-32 | 8 below 0.0001, 6 below 0.01, 4 below 1, else 2, each as an iff |
| Format.PriceDecimalsAntitone | frontend/app/utils/format.ts:21-32 | a larger price never gets more decimals |
| Format.FormatPrice | frontend/app/utils/format.ts:13-38 | "-" for missing or NaN, "0" for zero, else the locale text with the magnitude's decimals |
| Format.FormatPriceSignSymmetric | frontend/app/utils/format.ts:21-37 | a price and its negation get the same decimals |
| Format.FormatUsd | frontend/app/utils/format.ts:43-51 | "-" passes through; otherwise "$" or "-$" before the magnitude's price |
| Format.FormatUsdNegation | frontend/app/utils/format.ts:43-51 | a negative amount prints as "-" before the positive one |
| Format.FormatPercent | frontend/app/utils/format.ts:56-64 | "-" for missing or NaN; otherwise `toFixed(decimals)` followed by "%" |
| Format.QuantityStyleOf | frontend/app/utils/format.ts:77-87 | exponential below 1e-6, 8 decimals below 1, 4 below 1000, grouped above, each as an iff |
| Format.QuantityStyleMonotone | frontend/app/utils/format.ts:77-87 | larger quantities move to coarser styles |
| Format.FormatQuantity | frontend/app/utils/format.ts:69-88 | "-" for missing or NaN, "0" for zero, otherwise the style of the magnitude applied to the signed number |
| Format.CompactUnitOf | frontend/app/utils/format.ts:93-102 | for a finite x with magnitude a: billions iff a ≥ 10⁹, millions iff 10⁶ ≤ a < 10⁹, thousands iff 10³ ≤ a < 10⁶, units iff a < 1000; NaN in units, the infinities in billions |
| Format.FormatCompact | frontend/app/utils/format.ts:93-102 | from a magnitude of 10⁹ the value over 10⁹ and "B", from 10⁶ over 10⁶ and "M", from 10³ over 10³ and "K", else the value itself, each to two decimals |
| Format.CompactUnitMonotone | frontend/app/utils/format.ts:93-102 | a larger magnitude never gets a smaller unit, and x and −x get the same unit |
| Format.CompactScaledRange | frontend/app/utils/format.ts:93-102 | with a letter the shown magnitude is ≥ 1, and below billions it is < 1000 |
| Format.FormatPnl | frontend/app/utils/format.ts:107-121 | "-" gray when absent; green "+$" iff > 0; red "-$" iff < 0; "$0.00" gray for zero and NaN |
| Format.PnlMirror | frontend/app/utils/format.ts:107-121 | a gain and an equal loss differ only in sign and colour |
| Format.NaNPnlReadsZero | frontend/app/utils/format.ts:112-120 | NaN reads like zero |
| ClassNames.Pushed | frontend/app/lib/cn.ts:11-20 | each argument adds at most one piece, never an empty one |
| ClassNames.Classes | frontend/app/lib/cn.ts:8-23 | the collected pieces are all non-empty |
| ClassNames.JoinEmptyIff | frontend/app/lib/cn.ts:22 | the joined output is "" iff nothing was kept |
| ClassNames.CnIsFlatJoin | frontend/app/lib/cn.ts:8-23 | `cn` is the space-join of the words of all arguments, nested arrays flattened in order |
| ClassNames.SkipsValuesWithoutText | frontend/app/lib/cn.ts:11-13 | falsy values and `true` add nothing |
| ClassNames.WordsOfAppend | frontend/app/lib/cn.ts:10-21 | the words of concatenated arguments are the words of each, in order |
| ClassNames.CnExample | frontend/app/lib/cn.ts:8-23 | `cn("btn", false, ["active", null], "")` is "btn active" |
| Language.SeparateDictionaries | frontend/app/context/LanguageContext.tsx:283-522 | English, the nine own dictionaries and the twenty inherited ones are disjoint groups |
| Language.DictionaryFor | frontend/app/context/LanguageContext.tsx:519-522 | English and the twenty inherited codes select the English base; an own code selects its dictionary |
| Language.Translate | frontend/app/context/LanguageContext.tsx:554-556 | the current entry when non-empty, else the English one when non-empty, else the key |
| Language.TranslateNonEmpty | frontend/app/context/LanguageContext.tsx:554-556 | a non-empty key never translates to "" |
| Language.InheritedReadsLikeEnglish | frontend/app/context/LanguageContext.tsx:519-522 | an inherited language reads exactly like English |
| Language.UnknownCodeReadsEnglish | frontend/app/context/LanguageContext.tsx:554-556 | a code without a dictionary reads like English |
| Language.EveryListedLanguageHasDictionary | frontend/app/context/LanguageContext.tsx:519-522 | every one of the thirty listed codes has a dictionary |
| Language.InitialLanguage | frontend/app/context/LanguageContext.tsx:540-547 | the stored code when it is listed, else "th"; always a listed code |
| Language.SetLanguage | frontend/app/context/LanguageContext.tsx:549-552 | choosing a language makes it the current language at once and stores it |
| Language.ChosenLanguageSurvivesReload | frontend/app/context/LanguageContext.tsx:540-552 | a chosen listed language is the one restored at the next start |
| Language.Flag | frontend/app/context/LanguageContext.tsx:558 | the listed flag, or the Thai flag for an unlisted code |
| Language.StartupFlag | frontend/app/context/LanguageContext.tsx:540-558 | the flag at start-up is the listed flag of the stored language when it is supported, else the Thai flag |
| RegisterPage.EmailOkIffPattern | frontend/app/register/page.tsx:73-78 | the split-at-'@' check accepts exactly what `^[^\s@]+@[^\s@]+\.[^\s@]+$` matches |
| RegisterPage.EmailAccepted | frontend/app/register/page.tsx:73-78 | "me@x.io" is accepted |
| RegisterPage.EmailEmptyLabelAccepted | frontend/app/register/page.tsx:73-78 | "a@b..c" is accepted: an empty domain label passes |
| RegisterPage.EmailWithoutInnerDotRefused | frontend/app/register/page.tsx:73-78 | "a@b" and "a@.c" are refused |
| RegisterPage.EmailWithoutLocalPartRefused | frontend/app/register/page.tsx:73-78 | "@b.c" is refused |
| RegisterPage.Validate | frontend/app/register/page.tsx:66-92 | username under 3, bad e-mail, password under 6, mismatch, first failure wins, each as an iff; lengths in UTF-16 units |
| RegisterPage.EmptyConfirmationReachesHandler | frontend/app/register/page.tsx:88-92 | an empty confirmation leaves submit enabled and the handler refuses the mismatch |
| RegisterPage.PageChecksImplyEndpointChecks | frontend/app/register/page.tsx:66-92 | a form the page sends is never refused for empty credentials or a short password; it is refused as taken iff the name is taken, fails with the hashing error iff the name is free and hashing fails, and is registered otherwise |
| RegisterPage.SubmitDisabled | frontend/app/register/page.tsx:295 | submit is always disabled while loading; when not loading it is enabled for a matching or empty confirmation, and disabled only for a mismatch |
| RegisterPage.PageStricterThanEndpoint | frontend/app/register/page.tsx:81-85 | "ไทย12" is too short for the page (5 units) but long enough for the endpoint (11 bytes) |
| RegisterPage.AfterCall | frontend/app/register/page.tsx:94-125 | success iff registered; network error iff no response; otherwise the endpoint's error, else its message, else a generic text, never empty |
| RegisterPage.Submit | frontend/app/register/page.tsx:63-125 | no call iff validation fails; otherwise the request carries the form's fields |
| ResetFlow.ApiBase | frontend/app/forgot-password/page.tsx:29-31 | the configured base or localhost:8080, with one trailing "/api" removed, unchanged otherwise |
| ResetFlow.ApiBaseTrimsOnce | frontend/app/forgot-password/page.tsx:31 | only one "/api" is removed |
| ResetFlow.StepNumber | frontend/app/forgot-password/page.tsx:10 | the steps are numbered 1 to 4 |
| ResetFlow.AfterCall | frontend/app/forgot-password/page.tsx:37-46 | success gives the next state; failure shows the message and stops loading; a rejected fetch leaves loading on |
| ResetFlow.RequestCode | frontend/app/forgot-password/page.tsx:33-47 | no-op while counting down; otherwise success moves to step 2 with a 60-second countdown, not loading and no error; a failure stops loading and shows the server's message and changes nothing else; a rejected fetch leaves the page loading with the error cleared |
| ResetFlow.ResendCode | frontend/app/forgot-password/page.tsx:49-61 | never changes the step; no-op while counting down; otherwise success restarts the countdown, not loading and no error; a failure stops loading and shows the server's message and changes nothing else; a rejected fetch leaves the page loading |
| ResetFlow.VerifyCode | frontend/app/forgot-password/page.tsx:63-72 | the countdown is untouched; success moves to step 3, not loading and no error; a failure stops loading and shows the server's message and changes nothing else; a rejected fetch leaves the page loading |
| ResetFlow.ResetPassword | frontend/app/forgot-password/page.tsx:74-83 | the countdown is untouched; success moves to step 4, not loading and no error; a failure stops loading and shows the server's message and changes nothing else; a rejected fetch leaves the page loading |
| ResetFlow.Tick | frontend/app/forgot-password/page.tsx:20-26 | one tick lowers a positive countdown by one and changes nothing else |
| ResetFlow.GoBack | frontend/app/forgot-password/page.tsx:138 | "Go back" returns to step 1 and changes nothing else |
| ResetFlow.RunKeepsCountdownBounded | frontend/app/forgot-password/page.tsx:20-61 | in any run the countdown stays within 0..60 |
| ResetFlow.StepChangesOnlyOnSuccessOrBack | frontend/app/forgot-password/page.tsx:33-138 | a failed call or a tick never changes the step |
| ResetFlow.HappyPath | frontend/app/forgot-password/page.tsx:33-83 | three successful calls take a fresh page to step 4 |
| ResetFlow.RequestBlockedWhileCounting | frontend/app/forgot-password/page.tsx:35-50 | while counting down, request and resend change nothing |
| ResetFlow.ResendAllowedAfterCountdown | frontend/app/forgot-password/page.tsx:20-58 | after as many ticks as the countdown showed, a resend goes through again |
| ResetFlow.TicksCountDown | frontend/app/forgot-password/page.tsx:20-26 | n ticks lower the countdown by n, stopping at 0, and keep the step |
| ChatWidget.InitialMessages | frontend/app/components/AiChat.tsx:13-19 | one non-empty assistant message: the translated greeting when it is non-empty, otherwise the built-in greeting |
| ChatWidget.SelectedHeight | frontend/app/components/AiChat.tsx:232-236 | the number of lines clamped to 1..4 |
| ChatWidget.SelectedHeightMonotone | frontend/app/components/AiChat.tsx:232-236 | the empty input shows one row, and adding a line never lowers the height |
| ChatWidget.AnswerMessage | frontend/app/components/AiChat.tsx:50-68 | the reply on success; the server-trouble text otherwise; the login or connection text when the call fails |
| ChatWidget.TextToSend | frontend/app/components/AiChat.tsx:35 | a non-empty forced text wins over the input |
| ChatWidget.HandleSend | frontend/app/components/AiChat.tsx:33-72 | nothing is sent iff the trimmed text is blank or a reply is pending; otherwise one trimmed user message is appended, the input cleared, then the answer appended |
| ChatWidget.SendKeepsHistory | frontend/app/components/AiChat.tsx:39-45 | earlier messages stay, in place |
| ChatWidget.SentMessageIsTrimmed | frontend/app/components/AiChat.tsx:36-45 | the sent user message has no whitespace at its ends |
| ChatWidget.ForcedTextWins | frontend/app/components/AiChat.tsx:35 | with a forced text the input box's content does not matter |
| ChatWidget.SentListPassesEndpointCheck | frontend/app/components/AiChat.tsx:39-48 | a list the widget sends always passes the endpoint's checks for a signed-in user |
| PriceTicker.AfterFetch | frontend/app/components/PriceTicker.tsx:75-104 | a failed fetch shows zero price and change with the error flag; a good one shows the parsed values |
| PriceTicker.TickerDecimals | frontend/app/components/PriceTicker.tsx:137-144 | none iff the price is 0; GOLD 2; others 0 from 1000, 2 from 1, else 4, each as an iff |
| PriceTicker.FormatPrice | frontend/app/components/PriceTicker.tsx:137-144 | "---" for 0, else the locale text with those decimals |
| PriceTicker.TickerDecimalsAntitone | frontend/app/components/PriceTicker.tsx:141-143 | for the crypto instruments a higher price never gets more decimals |
| PriceTicker.TickerNoFinerThanJournal | frontend/app/components/PriceTicker.tsx:137-144 | the ticker never shows more decimals than the journal's price formatter |
| PriceTicker.InitialTicker | frontend/app/components/PriceTicker.tsx:55-63 | before the first fetch an instrument is loading and not in error |
| PriceTicker.Render | frontend/app/components/PriceTicker.tsx:182-214 | "Loading..." iff loading; "Error" iff not loading and in error; otherwise "$" with the formatted price and the change label |
| PriceTicker.InitialShowsLoading | frontend/app/components/PriceTicker.tsx:55-63 | the strip opens with every instrument showing "Loading..." |
| PriceTicker.FailedFetchShowsError | frontend/app/components/PriceTicker.tsx:183-189 | an instrument whose fetch failed shows "Error", never a price |
| PriceTicker.FetchedShowsQuote | frontend/app/components/PriceTicker.tsx:183-195 | a successful fetch shows a quote, and a last price of 0 reads "$---" |
| PriceTicker.FormatChange | frontend/app/components/PriceTicker.tsx:198-211 | "+" and the rising colour iff the change is ≥ 0; two decimals and "%" |
| PriceTicker.ChangeSignsOpposite | frontend/app/components/PriceTicker.tsx:198-211 | a non-zero change and its negation get opposite prefixes |
| PriceTicker.NaNChangeFalls | frontend/app/components/PriceTicker.tsx:198-211 | an unparsable change shows as falling |

## Left out

- Network and AI calls are passed in as outcomes: the Gemini, Pollinations and news calls, the Binance price fetch, SMTP mail, and the axios client. The news and price caches in ai.go are left out because they exist for locking and wall-clock expiry.
- Persistence is left out. GORM queries, migrations, body parsing and failed saves are not modelled; the row a query finds is passed in.
- bcrypt and JWT signing and parsing are left out. The hash comparison and token verification are parameters, and the outcome of hashing a password is an `Option` parameter whose None is a hashing failure (bcrypt refuses passwords over 72 bytes, for one); which passwords fail is not modelled.
- Floating point and rounding are left out. Money is exact `real`. The `round` calls in calculator.go and every library renderer are parameters, so results are stated before rounding.
- PositionCalculator.CalculatePositionSize: states the values before the 2-, 6-, 2- and 4-decimal rounding at calculator.go:82-85.
- TradeCalculations.CalculateTradeMetrics: requires `Computable`, which excludes leverage 0 and a negative fee that exactly cancels the stop fraction. At leverage 0 the margin is size / 0: for a positive size that is Infinity, the cap applies and the code returns a finite record with size, quantity, fees and R:R all 0 and the capped flag set; for a zero or negative size the margin is NaN or -Infinity. With a cancelling fee the size itself is ±Infinity or NaN. The real-number model does not express these values. The only caller clamps leverage to 1..125 (Calculator.tsx:778), so the form never reaches leverage 0.
- TradeCalculations.SizedMetrics: states the margin-capped error message through its amount, not through the `toFixed` text.
- CalculatorForm.HandleSave: does not model the `notes` summary string built at Calculator.tsx:547, or the guest draft's storage and redirect. The draft's trip through JSON is taken as exact.
- The AI insight handler in ai.go is not modelled beyond `calcRR`, the reply language and the fence cleanup. That covers the prompt text, the ad-text stripping at ai.go:154-163 (a replacement can recreate an ad, so nothing clean is promised), and the history prompt.
- TradeHandlers: GetTrades' date-range filter, ordering clause and statistics queries are left out. They are database queries.
- Auth.Register: the `User` struct at auth.go:23-31 declares no reset-code fields, although forgot_password.go:125-126 uses them. The model gives `User` two `Option` fields for them, and a new user has neither.
- Language: the dictionaries' texts are a parameter, and the picker's order and tiers are not modelled.
- ResetFlow.AfterCall: after a rejected fetch the page stays in loading state. This is what the code does, since there is no catch or finally. A failed `res.json()` is treated like an absent message.
- ResetFlow: which form each step shows, and the button's disabled state while loading, are rendering concerns and are not modelled. Every handler is modelled as callable in every step.
- PriceTicker: the 30-second refresh interval and the response parsing are left out. A fetch is its outcome.
- Routing: main.go:123-135 mounts only `/api/register`, `/api/login` and the `/api/trades` group behind the token check; every other path gets the 404 handler. The forgot-password, chat and AI-insight handlers are modelled as functions but are not mounted, so the reset page's calls to `/api/auth/forgot-password/*` receive 404 from this server. The chat widget calls an `aiAPI` that utils/api.ts does not export. Chat.CheckChat and ChatWidget.SentListPassesEndpointCheck state what the handler would do if a route reached it.
- TradeHandlers.LikeMatch: a pattern ending in a lone backslash is an error in PostgreSQL. Here it is read as a literal backslash. The query always appends '%', so it never ends that way.
- Rendering, localStorage, timers other than the reset countdown, theme, Navbar and the login page's single non-empty check are not part of this model.

=== FILE: ai_handlers.dfy ===
/** The deterministic parts of the AI endpoints: the fallback
    reward-to-risk ratio, the reply language picked from Accept-Language,
    and the clean-up of a fenced JSON reply before it is parsed. */
module AiHandlers {
  import Text

  // ---------------------------------------------------------------------
  // Fallback ratio

  /** Reward over risk for a LONG with the stop below entry or a SHORT with
      the stop above it; 0 for any non-positive price and for every other
      combination, so no division by zero can occur. */
  function CalcRR(entry: real, sl: real, tp: real, side: string): (rr: real)
    ensures entry <= 0.0 || sl <= 0.0 || tp <= 0.0 ==> rr == 0.0
    ensures entry > 0.0 && sl > 0.0 && tp > 0.0 && side == "LONG" && entry > sl ==>
              rr * (entry - sl) == tp - entry
    ensures entry > 0.0 && sl > 0.0 && tp > 0.0 && side == "SHORT" && sl > entry ==>
              rr * (sl - entry) == entry - tp
    ensures !(side == "LONG" && entry > sl) && !(side == "SHORT" && sl > entry) ==> rr == 0.0
  {
    if entry <= 0.0 || sl <= 0.0 || tp <= 0.0 then 0.0
    else if side == "LONG" && entry > sl then (tp - entry) / (entry - sl)
    else if side == "SHORT" && sl > entry then (entry - tp) / (sl - entry)
    else 0.0
  }

  /** Mirroring the stop and the target through the entry turns a LONG into
      the SHORT with the same ratio. */
  lemma CalcRRMirror(entry: real, sl: real, tp: real)
    requires entry > 0.0 && sl > 0.0 && tp > 0.0
    requires 2.0 * entry - sl > 0.0 && 2.0 * entry - tp > 0.0
    ensures CalcRR(entry, sl, tp, "LONG") == CalcRR(entry, 2.0 * entry - sl, 2.0 * entry - tp, "SHORT")
  {
  }

  /** A target beyond entry in the trade's direction, with the stop on the
      other side, gives a positive ratio. */
  lemma CalcRRPositive(entry: real, sl: real, tp: real)
    requires 0.0 < sl < entry < tp
    ensures CalcRR(entry, sl, tp, "LONG") > 0.0
  {
    var rr := CalcRR(entry, sl, tp, "LONG");
    assert rr * (entry - sl) == tp - entry;
  }

  // ---------------------------------------------------------------------
  // Reply language

  /** "en" or "zh" when the header starts with that code (case-sensitive),
      "th" otherwise. */
  function ReplyLanguage(acceptLanguage: string): (lang: string)
    ensures lang == "en" <==> Text.StartsWith(acceptLanguage, "en")
    ensures lang == "zh" <==> !Text.StartsWith(acceptLanguage, "en") && Text.StartsWith(acceptLanguage, "zh")
    ensures lang == "th" <==> !Text.StartsWith(acceptLanguage, "en") && !Text.StartsWith(acceptLanguage, "zh")
  {
    if Text.StartsWith(acceptLanguage, "en") then "en"
    else if Text.StartsWith(acceptLanguage, "zh") then "zh"
    else "th"
  }

  lemma ReplyLanguageExamples()
    ensures ReplyLanguage("en-US,en;q=0.9") == "en"
    ensures ReplyLanguage("zh-CN") == "zh"
    ensures ReplyLanguage("EN") == "th"
    ensures ReplyLanguage("") == "th"
  {
  }

  // ---------------------------------------------------------------------
  // Fenced reply clean-up

  const JsonFence := "```json"
  const Fence := "```"

  /** One leading "```json" and one trailing "```" removed, then Go
      whitespace trimmed. */
  function CleanInsight(reply: string): (r: string)
    ensures |r| > 0 ==> !Text.IsGoSpace(r[0]) && !Text.IsGoSpace(r[|r| - 1])
  {
    Text.Trim(Text.TrimSuffix(Text.TrimPrefix(reply, JsonFence), Fence), Text.IsGoSpace)
  }

  /** A body wrapped in the fences, with whitespace between fence and body,
      comes out as the body. */
  lemma CleanInsightUnwraps(pad1: string, body: string, pad2: string)
    requires forall i :: 0 <= i < |pad1| ==> Text.IsGoSpace(pad1[i])
    requires forall i :: 0 <= i < |pad2| ==> Text.IsGoSpace(pad2[i])
    requires |body| > 0 ==> !Text.IsGoSpace(body[0]) && !Text.IsGoSpace(body[|body| - 1])
    ensures CleanInsight(JsonFence + pad1 + body + pad2 + Fence) == body
  {
    var inner := pad1 + body + pad2;
    var reply := JsonFence + inner + Fence;
    assert JsonFence + pad1 + body + pad2 + Fence == reply;
    assert reply == JsonFence + (inner + Fence);
    assert Text.TrimPrefix(reply, JsonFence) == inner + Fence;
    assert Text.TrimSuffix(inner + Fence, Fence) == inner;
    Text.TrimPadded(pad1, body, pad2, Text.IsGoSpace);
  }

  /** The fence is removed before trimming, so a reply that starts with a
      space keeps its opening fence. */
  lemma LeadingSpaceKeepsFence(body: string)
    requires |body| > 0 && !Text.IsGoSpace(body[|body| - 1])
    ensures CleanInsight(" " + JsonFence + body + Fence) == JsonFence + body
  {
    var reply := " " + JsonFence + body + Fence;
    assert !Text.StartsWith(reply, JsonFence) by {
      assert reply[0] != JsonFence[0];
    }
    assert reply == (" " + JsonFence + body) + Fence;
    assert Text.TrimSuffix(reply, Fence) == " " + JsonFence + body;
    assert " " + JsonFence + body == " " + (JsonFence + body) + "";
    Text.TrimPadded(" ", JsonFence + body, "", Text.IsGoSpace);
  }
}

=== FILE: api_server.dfy ===
/** The server-wide pieces of the API process: the error handler that turns
    a failed handler into a JSON error, and the CORS origin rule. */
module ApiServer {
  import Text

  /** An error escaping a handler: the framework's own error carries a
      status, anything else does not. */
  datatype HandlerError =
    | FrameworkError(code: int, message: string)
    | OtherError(message: string)

  /** The reply the error handler sends: a status and {"error": message}. */
  datatype ErrorReply = ErrorReply(status: int, error: string)

  const InternalServerError := 500

  function HandleError(e: HandlerError): (r: ErrorReply)
    ensures r.error == e.message
    ensures e.FrameworkError? ==> r.status == e.code
    ensures e.OtherError? ==> r.status == InternalServerError
  {
    match e
    case FrameworkError(code, message) => ErrorReply(code, message)
    case OtherError(message) => ErrorReply(InternalServerError, message)
  }

  // ---------------------------------------------------------------------
  // CORS

  /** The three development front-ends. */
  const DevOrigins: set<string> := {"http://localhost:3000", "http://127.0.0.1:3000", "http://localhost:3001"}

  /** Allowed: a development front-end, any origin ending in ".vercel.app"
      or ".xyz", or no origin at all (tools such as curl). */
  function OriginAllowed(origin: string): (ok: bool)
    ensures origin == "" ==> ok
    ensures origin in DevOrigins ==> ok
    ensures ok && '.' !in origin ==> origin == "" || origin in DevOrigins
    ensures (origin != "" && origin !in DevOrigins
             && !Text.EndsWith(origin, ".vercel.app") && !Text.EndsWith(origin, ".xyz")) ==> !ok
  {
    assert Text.EndsWith(origin, ".xyz") ==> origin[|origin| - 4] == '.';
    assert Text.EndsWith(origin, ".vercel.app") ==> origin[|origin| - 11] == '.';
    origin in DevOrigins
    || Text.EndsWith(origin, ".vercel.app") || Text.EndsWith(origin, ".xyz")
    || origin == ""
  }

  /** A request with no Origin header, as curl or Postman send, is let
      through. */
  lemma EmptyOriginAllowed()
    ensures OriginAllowed("")
  {
  }

  /** The suffix test does not look at the host boundary: every Vercel
      deployment and every .xyz site is allowed, whoever owns it. */
  lemma AnyDeploymentAllowed(prefix: string)
    ensures OriginAllowed(prefix + ".vercel.app")
    ensures OriginAllowed(prefix + ".xyz")
  {
    assert Text.EndsWith(prefix + ".vercel.app", ".vercel.app") by {
      assert (prefix + ".vercel.app")[|prefix|..] == ".vercel.app";
    }
    assert Text.EndsWith(prefix + ".xyz", ".xyz") by {
      assert (prefix + ".xyz")[|prefix|..] == ".xyz";
    }
  }

  /** Every origin outside the development set and the two suffixes, other
      than a missing one, is refused: with OriginAllowed's own clauses and
      AnyDeploymentAllowed, the test is an if-and-only-if. */
  lemma OtherOriginsDenied(origin: string)
    requires origin != "" && origin !in DevOrigins
    requires !Text.EndsWith(origin, ".vercel.app") && !Text.EndsWith(origin, ".xyz")
    ensures !OriginAllowed(origin)
  {
  }

  /** Development origins must match exactly: another port or a trailing
      slash is refused. */
  lemma DevOriginsExact()
    ensures OriginAllowed("http://localhost:3000") && OriginAllowed("http://localhost:3001")
    ensures OriginAllowed("http://127.0.0.1:3000")
    ensures !OriginAllowed("http://localhost:3002")
    ensures !OriginAllowed("http://localhost:3000/")
    ensures !OriginAllowed("http://127.0.0.1:3001")
  {
  }

  /** Methods and headers the CORS layer lets through. */
  const AllowMethods := ["GET", "POST", "PUT", "DELETE", "OPTIONS"]
  const AllowHeaders := ["Origin", "Content-Type", "Accept", "Authorization"]
}

=== FILE: auth.dfy ===
/** Accounts: registration and login checks, the signing secret and the
    token lifetime. Password hashing and comparison, token signing and the
    user table are outside the model: their outcomes are parameters. */
module Auth {
  import opened Wrappers
  import Text

  /** A stored account. The reset code and its expiry are the optional
      columns the password-reset flow writes. */
  datatype User = User(
    id: nat,
    username: string,
    email: string,
    passwordHash: string,
    resetOtp: Option<string>,
    resetOtpExpiresAt: Option<int>)

  const MinPasswordBytes := 6

  // ---------------------------------------------------------------------
  // Registration

  datatype RegisterRequest = RegisterRequest(username: string, email: string, password: string)

  datatype RegisterError =
    | MissingCredentials  // 400
    | PasswordTooShort    // 400
    | UsernameTaken       // 409
    | HashFailed          // 500

  function RegisterErrorStatus(e: RegisterError): int {
    match e
    case UsernameTaken => 409
    case HashFailed => 500
    case _ => 400
  }

  /** Registers against the set of taken usernames; `id` is what the
      database returns and `hash` what the password hasher returns, None
      when hashing fails (bcrypt refuses, for one, passwords over 72
      bytes). The e-mail is stored as sent, without any check. */
  function Register(req: RegisterRequest, taken: set<string>, id: nat, hash: Option<string>): (r: Result<User, RegisterError>)
    ensures r == Err(MissingCredentials) <==> req.username == "" || req.password == ""
    ensures r == Err(PasswordTooShort) <==>
              req.username != "" && req.password != "" && Text.Utf8Length(req.password) < MinPasswordBytes
    ensures r == Err(UsernameTaken) <==>
              req.username != "" && Text.Utf8Length(req.password) >= MinPasswordBytes && req.username in taken
    ensures r == Err(HashFailed) <==>
              req.username != "" && Text.Utf8Length(req.password) >= MinPasswordBytes && req.username !in taken
              && hash.None?
    ensures r.Ok? <==>
              req.username != "" && Text.Utf8Length(req.password) >= MinPasswordBytes && req.username !in taken
              && hash.Some?
    ensures r.Ok? ==> r.value == User(id, req.username, req.email, hash.value, None, None)
  {
    if req.username == "" || req.password == "" then Err(MissingCredentials)
    else if Text.Utf8Length(req.password) < MinPasswordBytes then Err(PasswordTooShort)
    else if req.username in taken then Err(UsernameTaken)
    else if hash.None? then Err(HashFailed)
    else Ok(User(id, req.username, req.email, hash.value, None, None))
  }

  /** A name that registered once is refused the second time. */
  lemma RegisterTwice(req: RegisterRequest, taken: set<string>, id1: nat, id2: nat, h1: Option<string>, h2: Option<string>)
    requires Register(req, taken, id1, h1).Ok?
    ensures Register(req, taken + {req.username}, id2, h2) == Err(UsernameTaken)
  {
  }

  /** Any e-mail text is accepted, even an empty one. */
  lemma RegisterIgnoresEmail(username: string, password: string, email: string, taken: set<string>)
    requires username != "" && username !in taken && Text.Utf8Length(password) >= MinPasswordBytes
    ensures Register(RegisterRequest(username, email, password), taken, 1, Some("h")).Ok?
    ensures Register(RegisterRequest(username, "", password), taken, 1, Some("h")).Ok?
  {
  }

  // ---------------------------------------------------------------------
  // Login

  datatype LoginRequest = LoginRequest(username: string, password: string)

  datatype LoginError =
    | EmptyCredentials    // 400
    | InvalidCredentials  // 401, one body for both unknown user and wrong password

  /** The session handed back: who logged in and when the token expires. */
  datatype Session = Session(userId: nat, username: string, email: string, expiresAt: int)

  const TokenLifetime := 24 * 60 * 60

  /** Token expiry: 24 hours after issue. */
  function TokenExpiry(issuedAt: int): (expiresAt: int)
    ensures expiresAt - issuedAt == 86400
  {
    issuedAt + TokenLifetime
  }

  /** Logs in against `users` (keyed by username, soft-deleted rows
      included); `passwordMatches` is the hash comparison. */
  function Login(req: LoginRequest, users: map<string, User>, passwordMatches: (string, string) -> bool, now: int)
    : (r: Result<Session, LoginError>)
    ensures r == Err(EmptyCredentials) <==> req.username == "" || req.password == ""
    ensures r == Err(InvalidCredentials) <==>
              req.username != "" && req.password != ""
              && (req.username !in users || !passwordMatches(users[req.username].passwordHash, req.password))
    ensures r.Ok? ==> req.username in users && r.value.userId == users[req.username].id
                      && r.value.username == users[req.username].username
                      && r.value.expiresAt == TokenExpiry(now)
  {
    if req.username == "" || req.password == "" then Err(EmptyCredentials)
    else if req.username !in users then Err(InvalidCredentials)
    else
      var u := users[req.username];
      if !passwordMatches(u.passwordHash, req.password) then Err(InvalidCredentials)
      else Ok(Session(u.id, u.username, u.email, TokenExpiry(now)))
  }

  /** An unknown name and a wrong password for a known name get the very
      same answer, so the reply does not reveal which names exist. */
  lemma LoginDoesNotRevealUsers(users: map<string, User>, passwordMatches: (string, string) -> bool,
                                unknown: string, known: string, password: string, now: int)
    requires unknown != "" && unknown !in users && password != ""
    requires known != "" && known in users && !passwordMatches(users[known].passwordHash, password)
    ensures Login(LoginRequest(unknown, password), users, passwordMatches, now)
         == Login(LoginRequest(known, password), users, passwordMatches, now)
  {
    assert Login(LoginRequest(unknown, password), users, passwordMatches, now) == Err(InvalidCredentials);
    assert Login(LoginRequest(known, password), users, passwordMatches, now) == Err(InvalidCredentials);
  }

  // ---------------------------------------------------------------------
  // Signing secret

  const DefaultJwtSecret := "mmrrdikub-super-secret-key-change-me-in-production"

  /** The JWT_SECRET environment value when set and non-empty, otherwise the
      built-in development secret; never empty. */
  function JwtSecret(env: Option<string>): (secret: string)
    ensures secret != ""
    ensures env.Some? && env.value != "" ==> secret == env.value
    ensures env.None? || env.value == "" ==> secret == DefaultJwtSecret
  {
    if env.Some? && env.value != "" then env.value else DefaultJwtSecret
  }
}

=== FILE: calculator_form.dfy ===
/** The position-calculator form around the browser engine: fee selection by
    exchange, the per-rung distance shown next to each ladder price, adding
    and removing ladder rungs, the 100-point setup score with its star
    rating, and the decision taken when the user saves the trade. */
module CalculatorForm {
  import opened Wrappers
  import TC = TradeCalculations
  import Sequences

  // ---------------------------------------------------------------------
  // Form state

  datatype FormInputs = FormInputs(
    pair: string,
    side: TC.Side,
    portfolio: real,
    entryPrice: real,
    riskPercent: real,
    leverage: real,
    exchange: string,
    customFee: real,
    entryReason: string,
    customReason: string,
    tpLevels: seq<TC.Level>,
    slLevels: seq<TC.Level>)

  /** The entry-reason choice that switches to free text. */
  const CustomReason := "Custom..."

  // ---------------------------------------------------------------------
  // Fee selection

  datatype Exchange = Exchange(name: string, makerFee: real, takerFee: real)

  /** The exchange table with maker and taker fees in percent. */
  const Exchanges: seq<Exchange> := [
    Exchange("Binance Futures", 0.02, 0.05),
    Exchange("Binance Spot", 0.1, 0.1),
    Exchange("Bitkub", 0.25, 0.25),
    Exchange("OKX Futures", 0.02, 0.05),
    Exchange("Bybit Futures", 0.02, 0.055),
    Exchange("Gate.io Futures", 0.02, 0.05),
    Exchange("MEXC Futures", 0.0, 0.03),
    Exchange("Custom", 0.0, 0.0)
  ]

  /** The first entry of `table` at or after index `i` named `name`. */
  function FindFrom(table: seq<Exchange>, name: string, i: nat): (r: Option<Exchange>)
    requires i <= |table|
    ensures r.Some? ==> r.value.name == name
    decreases |table| - i
  {
    if i == |table| then None
    else if table[i].name == name then Some(table[i])
    else FindFrom(table, name, i + 1)
  }

  /** The lookup finds nothing exactly when no entry carries the name, and
      otherwise the first entry that does. */
  lemma {:induction false} FindFromSpec(table: seq<Exchange>, name: string, i: nat)
    requires i <= |table|
    ensures FindFrom(table, name, i).None? <==> forall j :: i <= j < |table| ==> table[j].name != name
    ensures FindFrom(table, name, i).Some? ==>
              exists j :: i <= j < |table| && table[j] == FindFrom(table, name, i).value
                          && forall k :: i <= k < j ==> table[k].name != name
    decreases |table| - i
  {
    if i < |table| && table[i].name != name {
      FindFromSpec(table, name, i + 1);
    }
  }

  /** The fee used by the engine: the custom fee for "Custom", the taker fee
      of a listed exchange, and 0.05 % for an unknown name or a listed taker
      fee of zero. */
  function FeeRate(exchange: string, customFee: real): (fee: real)
    ensures exchange == "Custom" ==> fee == customFee
    ensures forall j :: 0 <= j < |Exchanges| && Exchanges[j].name == exchange && exchange != "Custom" ==>
              fee == Exchanges[j].takerFee
    ensures (forall j :: 0 <= j < |Exchanges| ==> Exchanges[j].name != exchange) ==> fee == 0.05
  {
    FindFromSpec(Exchanges, exchange, 0);
    match FindFrom(Exchanges, exchange, 0)
    case None => 0.05
    case Some(ex) =>
      if ex.name != "Custom" then (if ex.takerFee != 0.0 then ex.takerFee else 0.05)
      else customFee
  }

  /** Every fee that is not the custom one is a positive entry of the
      table's taker column or the 0.05 % fallback. */
  lemma FeeRateValues(exchange: string, customFee: real)
    ensures exchange != "Custom" ==> FeeRate(exchange, customFee) in {0.05, 0.1, 0.25, 0.055, 0.03}
  {
    FindFromSpec(Exchanges, exchange, 0);
  }

  /** Every exchange of the table other than "Custom" charges its own
      positive taker fee, whatever the custom field holds. */
  lemma ListedFees(j: int, customFee: real)
    requires 0 <= j < |Exchanges| && Exchanges[j].name != "Custom"
    ensures FeeRate(Exchanges[j].name, customFee) == Exchanges[j].takerFee > 0.0
  {
    FindFromSpec(Exchanges, Exchanges[j].name, 0);
  }

  /** The custom field matters only when "Custom" is selected. */
  lemma CustomFeeOnlyForCustom(exchange: string, a: real, b: real)
    ensures FeeRate(exchange, a) == FeeRate(exchange, b) <==> exchange != "Custom" || a == b
  {
  }

  /** The engine inputs the form feeds to the browser engine. */
  function EngineInputs(form: FormInputs): (inp: TC.TradeInputs)
    ensures inp.feePercent == FeeRate(form.exchange, form.customFee)
    ensures inp.tpLevels == form.tpLevels && inp.slLevels == form.slLevels
  {
    TC.TradeInputs(form.portfolio, form.entryPrice, form.riskPercent, form.leverage, form.side,
                   form.tpLevels, form.slLevels, FeeRate(form.exchange, form.customFee))
  }

  // ---------------------------------------------------------------------
  // Ladder totals and per-rung distance

  /** Σ weight over all rungs, whatever their price. */
  function LevelTotal(levels: seq<TC.Level>): real
  {
    if |levels| == 0 then 0.0 else LevelTotal(levels[..|levels| - 1]) + levels[|levels| - 1].percent
  }

  /** The distance shown next to a rung: 0 while the entry is not positive or
      the rung's price is zero, otherwise the engine's side-adjusted distance.
      Unlike the engine, a negative price is not screened out here. */
  function DistancePercent(entry: real, side: TC.Side, price: real, isTP: bool): (d: real)
    ensures entry <= 0.0 || price == 0.0 ==> d == 0.0
    ensures entry > 0.0 && price != 0.0 ==> d == TC.Distance(price, entry, side, isTP)
  {
    if entry <= 0.0 || price == 0.0 then 0.0
    else if side == TC.Long then
      (if isTP then (price - entry) / entry * 100.0 else (entry - price) / entry * 100.0)
    else
      (if isTP then (entry - price) / entry * 100.0 else (price - entry) / entry * 100.0)
  }

  /** The displayed distance of a rung the engine counts is the distance the
      engine weighs, and it is positive. */
  lemma DisplayedDistanceOfCountedRung(l: TC.Level, entry: real, side: TC.Side, isTP: bool)
    requires entry > 0.0 && TC.Counts(l, entry, side, isTP)
    ensures DistancePercent(entry, side, l.price, isTP) > 0.0
  {
  }

  // ---------------------------------------------------------------------
  // Adding and removing rungs

  /** Adds a rung at price 0 carrying the missing weight; `newId` is the
      timestamp-derived id the form generates. */
  function AddLevel(levels: seq<TC.Level>, newId: string): (r: seq<TC.Level>)
    ensures LevelTotal(levels) >= 100.0 ==> r == levels
    ensures LevelTotal(levels) < 100.0 ==>
              |r| == |levels| + 1 && r[..|levels|] == levels && LevelTotal(r) == 100.0
              && r[|levels|].price == 0.0 && r[|levels|].id == newId
  {
    var remaining := 100.0 - LevelTotal(levels);
    if remaining <= 0.0 then levels
    else
      var r := levels + [TC.Level(newId, 0.0, remaining)];
      assert r[..|levels|] == levels;
      r
  }

  predicate OtherId(id: string, l: TC.Level) {
    l.id != id
  }

  /** Removes every rung with the given id unless the ladder has one rung;
      a lone survivor takes the whole weight. */
  function RemoveLevel(levels: seq<TC.Level>, id: string): (r: seq<TC.Level>)
    ensures |levels| == 1 ==> r == levels
    ensures |levels| != 1 ==> forall i :: 0 <= i < |r| ==> r[i].id != id
    ensures |levels| != 1 ==> |r| == Sequences.CountWhere(levels, l => OtherId(id, l))
    ensures |levels| != 1 && |r| != 1 ==> Sequences.IsSubsequence(r, levels)
    ensures |levels| != 1 && |r| == 1 ==>
              r[0].percent == 100.0
              && exists i :: 0 <= i < |levels| && levels[i] == r[0].(percent := levels[i].percent)
  {
    if |levels| == 1 then levels
    else
      var kept := Sequences.Filter(levels, l => OtherId(id, l));
      if |kept| == 1 then
        Sequences.SubsequenceFacts(kept, levels);
        assert kept[0] in levels;
        var i :| 0 <= i < |levels| && levels[i] == kept[0];
        assert levels[i] == kept[0].(percent := 100.0).(percent := levels[i].percent);
        [kept[0].(percent := 100.0)]
      else kept
  }

  // ---------------------------------------------------------------------
  // The 100-point setup score

  /** A warning raised while scoring; the ladder warnings carry the total
      they report and the margin warning carries the engine's diagnostic. */
  datatype Warning =
    | EvenRR | PoorRR
    | ModerateRisk | ExcessiveRisk
    | HighLeverage | ExtremeLeverage
    | NoReason
    | TpTotalOff(total: real) | SlTotalOff(total: real)
    | MarginWarning(diagnostic: TC.Diagnostic)

  datatype Recommendation = ReadyToTrade | FixSetup | NoRecommendation

  datatype ScoreReport = ScoreReport(
    totalPoints: int,
    setupScore: int,
    warnings: seq<Warning>,
    recommendation: Recommendation)

  /** Reward-to-risk criterion, out of 30. */
  function RRPoints(rr: real): int {
    if rr >= 3.0 then 30 else if rr >= 2.0 then 25 else if rr >= 1.5 then 15 else if rr >= 1.0 then 5 else 0
  }

  function RRWarnings(rr: real): seq<Warning> {
    if rr >= 1.5 then [] else if rr >= 1.0 then [EvenRR] else [PoorRR]
  }

  /** Risk-percentage criterion, out of 25. */
  function RiskPoints(riskPercent: real): int {
    if riskPercent <= 1.0 then 25 else if riskPercent <= 2.0 then 20 else if riskPercent <= 5.0 then 10 else 0
  }

  function RiskWarnings(riskPercent: real): seq<Warning> {
    if riskPercent <= 2.0 then [] else if riskPercent <= 5.0 then [ModerateRisk] else [ExcessiveRisk]
  }

  /** Leverage criterion, out of 20. */
  function LeveragePoints(leverage: real): int {
    if leverage <= 3.0 then 20 else if leverage <= 10.0 then 15 else if leverage <= 25.0 then 5 else 0
  }

  function LeverageWarnings(leverage: real): seq<Warning> {
    if leverage <= 10.0 then [] else if leverage <= 25.0 then [HighLeverage] else [ExtremeLeverage]
  }

  /** Entry-reason criterion, out of 15: a listed reason earns 15, the
      free-text choice earns 12 once text is typed, nothing else earns. */
  function ReasonPoints(entryReason: string, customReason: string): (p: int)
    ensures p == 15 <==> entryReason != "" && entryReason != CustomReason
    ensures p == 12 <==> entryReason == CustomReason && customReason != ""
    ensures p == 0 <==> entryReason == "" || (entryReason == CustomReason && customReason == "")
  {
    if entryReason != "" && entryReason != CustomReason then 15
    else if entryReason == CustomReason && customReason != "" then 12
    else 0
  }

  /** The ladder criterion: both ladders total exactly 100 % and the engine
      found a positive weighted distance on both. */
  predicate LadderPasses(form: FormInputs, m: TC.TradeMetrics) {
    LevelTotal(form.tpLevels) == 100.0 && LevelTotal(form.slLevels) == 100.0
    && m.weightedSLDistance > 0.0 && m.weightedTPDistance > 0.0
  }

  function LadderPoints(form: FormInputs, m: TC.TradeMetrics): int {
    if LadderPasses(form, m) then 10 else 0
  }

  /** A failed ladder criterion warns only about a total that is off. */
  function LadderWarnings(form: FormInputs, m: TC.TradeMetrics): (w: seq<Warning>)
    ensures w == [] <==> LevelTotal(form.tpLevels) == 100.0 && LevelTotal(form.slLevels) == 100.0
  {
    if LadderPasses(form, m) then []
    else
      var tp := LevelTotal(form.tpLevels);
      var sl := LevelTotal(form.slLevels);
      (if tp != 100.0 then [TpTotalOff(tp)] else []) + (if sl != 100.0 then [SlTotalOff(sl)] else [])
  }

  function MarginWarnings(m: TC.TradeMetrics): seq<Warning> {
    if m.marginExceedsPortfolio then [MarginWarning(m.diagnostic)] else []
  }

  /** The points of the five criteria added up. */
  function TotalPoints(form: FormInputs, m: TC.TradeMetrics): (t: int)
    ensures 0 <= t <= 100
    ensures t == 100 <==>
              m.riskRewardRatio >= 3.0 && form.riskPercent <= 1.0 && form.leverage <= 3.0
              && form.entryReason != "" && form.entryReason != CustomReason && LadderPasses(form, m)
  {
    RRPoints(m.riskRewardRatio) + RiskPoints(form.riskPercent) + LeveragePoints(form.leverage)
    + ReasonPoints(form.entryReason, form.customReason) + LadderPoints(form, m)
  }

  /** Each criterion rewards a better reward-to-risk ratio and penalises
      higher risk and higher leverage, never the other way round. */
  lemma CriteriaMonotone(a: real, b: real)
    requires a <= b
    ensures RRPoints(a) <= RRPoints(b)
    ensures RiskPoints(a) >= RiskPoints(b)
    ensures LeveragePoints(a) >= LeveragePoints(b)
  {
  }

  /** Star rating: the total out of 100 scaled to 5 and rounded half-up as
      `Math.round` does. */
  function ScaledTotal(totalPoints: int): real {
    (totalPoints as real / 100.0) * 5.0 + 0.5
  }

  function SetupScore(totalPoints: int): int {
    ScaledTotal(totalPoints).Floor
  }

  /** Rounding half-up of total/20 is the integer bucket (total + 10) / 20,
      so 90 and above give 5 stars, 70 to 89 give 4, and so on down to 0
      stars below 10. */
  lemma {:induction false} SetupScoreBuckets(totalPoints: int)
    ensures SetupScore(totalPoints) == (totalPoints + 10) / 20
    ensures 0 <= totalPoints <= 100 ==> 0 <= SetupScore(totalPoints) <= 5
  {
    var q := (totalPoints + 10) / 20;
    var r := (totalPoints + 10) % 20;
    assert totalPoints + 10 == 20 * q + r;
    assert ScaledTotal(totalPoints) == q as real + r as real / 20.0;
  }

  function Recommend(warnings: seq<Warning>, stars: int): (r: Recommendation)
    ensures r == ReadyToTrade <==> warnings == [] && stars >= 4
    ensures r == FixSetup <==> !(warnings == [] && stars >= 4) && stars <= 2
  {
    if warnings == [] && stars >= 4 then ReadyToTrade
    else if stars <= 2 then FixSetup
    else NoRecommendation
  }

  /** The scoring block run on the engine's metrics for the form. */
  function Score(form: FormInputs, m: TC.TradeMetrics): (r: ScoreReport)
    ensures r.totalPoints == TotalPoints(form, m) && r.setupScore == (r.totalPoints + 10) / 20
    ensures 0 <= r.setupScore <= 5
    ensures r.warnings == [] <==>
              m.riskRewardRatio >= 1.5 && form.riskPercent <= 2.0 && form.leverage <= 10.0
              && ReasonPoints(form.entryReason, form.customReason) > 0
              && LevelTotal(form.tpLevels) == 100.0 && LevelTotal(form.slLevels) == 100.0
              && !m.marginExceedsPortfolio
    ensures r.recommendation == ReadyToTrade <==> r.warnings == [] && r.totalPoints >= 70
  {
    var total := TotalPoints(form, m);
    var warnings := RRWarnings(m.riskRewardRatio) + RiskWarnings(form.riskPercent)
                    + LeverageWarnings(form.leverage)
                    + (if ReasonPoints(form.entryReason, form.customReason) == 0 then [NoReason] else [])
                    + LadderWarnings(form, m) + MarginWarnings(m);
    SetupScoreBuckets(total);
    ScoreReport(total, SetupScore(total), warnings, Recommend(warnings, SetupScore(total)))
  }

  /** A setup that raises no warning already collects at least 62 points,
      hence 3 stars, so it is never told to fix the setup. */
  lemma NoWarningNoFix(form: FormInputs, m: TC.TradeMetrics)
    requires Score(form, m).warnings == []
    ensures Score(form, m).totalPoints >= 62 && Score(form, m).setupScore >= 3
    ensures Score(form, m).recommendation != FixSetup
  {
  }

  /** With non-negative weights, the ladder criterion is met exactly when
      both totals are 100 %, the guards pass, and each ladder has a rung the
      engine counts. */
  lemma {:induction false} LadderCriterion(form: FormInputs)
    requires TC.Computable(EngineInputs(form))
    requires forall k :: 0 <= k < |form.tpLevels| ==> form.tpLevels[k].percent >= 0.0
    requires forall k :: 0 <= k < |form.slLevels| ==> form.slLevels[k].percent >= 0.0
    ensures var m := TC.CalculateTradeMetrics(EngineInputs(form));
            LadderPasses(form, m) <==>
              LevelTotal(form.tpLevels) == 100.0 && LevelTotal(form.slLevels) == 100.0
              && form.portfolio > 0.0 && form.entryPrice > 0.0
              && TC.SomeRungCounts(form.tpLevels, form.entryPrice, form.side, true)
              && TC.SomeRungCounts(form.slLevels, form.entryPrice, form.side, false)
  {
    var inp := EngineInputs(form);
    TC.PositiveIffSomeRungCounts(form.tpLevels, form.entryPrice, form.side, true);
    TC.PositiveIffSomeRungCounts(form.slLevels, form.entryPrice, form.side, false);
    assert TC.StopDistance(inp) == TC.WeightedDistance(form.slLevels, form.entryPrice, form.side, false);
    assert TC.TargetDistance(inp) == TC.WeightedDistance(form.tpLevels, form.entryPrice, form.side, true);
  }

  // ---------------------------------------------------------------------
  // Calculation and saving

  /** What the form derives from its inputs: the engine metrics and the
      score computed from them. */
  datatype Calculation = Calculation(metrics: TC.TradeMetrics, score: ScoreReport)

  /** Running the engine and scoring its result: a "ready to trade" verdict
      needs sized metrics (a positive portfolio, entry and weighted stop),
      no margin cap, a ratio of at least 1.5, ladders totalling 100 % and
      risk, leverage and reason within the warning-free limits; an engine
      diagnostic always raises a warning; and "fix the setup" is only ever
      advised alongside a warning. */
  function Calculate(form: FormInputs): (c: Calculation)
    requires TC.Computable(EngineInputs(form))
    ensures c.metrics == TC.CalculateTradeMetrics(EngineInputs(form))
    ensures c.score.recommendation == ReadyToTrade ==>
              form.portfolio > 0.0 && form.entryPrice > 0.0 && c.metrics.weightedSLDistance > 0.0
              && c.metrics.calculatedPositionSize == TC.FinalSize(EngineInputs(form))
              && !c.metrics.marginExceedsPortfolio && c.metrics.riskRewardRatio >= 1.5
              && LevelTotal(form.tpLevels) == 100.0 && LevelTotal(form.slLevels) == 100.0
              && form.riskPercent <= 2.0 && form.leverage <= 10.0
              && ReasonPoints(form.entryReason, form.customReason) > 0
              && c.score.totalPoints >= 70 && c.score.setupScore >= 4
    ensures c.metrics.diagnostic != TC.NoError ==> c.score.warnings != [] && c.score.recommendation != ReadyToTrade
    ensures c.score.recommendation == FixSetup ==> c.score.warnings != [] && c.score.setupScore <= 2
  {
    var m := TC.CalculateTradeMetrics(EngineInputs(form));
    Calculation(m, Score(form, m))
  }

  /** With a fee that is not negative, a setup rated ready to trade can be
      saved: its position size is positive, so a signed-in user with a
      well-formed pair gets a create request. */
  lemma ReadyToTradeCanBeSaved(form: FormInputs)
    requires TC.Computable(EngineInputs(form))
    requires FeeRate(form.exchange, form.customFee) >= 0.0
    requires Calculate(form).score.recommendation == ReadyToTrade
    ensures CanSave(form, Calculate(form))
    ensures MatchesPairPattern(form.pair) ==> HandleSave(form, Calculate(form), true).Submit?
  {
  }

  predicate PairChar(c: char) {
    'A' <= c <= 'Z' || '0' <= c <= '9'
  }

  /** One side of a pair: 1 to 10 upper-case letters or digits. */
  predicate PairPart(s: string) {
    1 <= |s| <= 10 && forall i :: 0 <= i < |s| ==> PairChar(s[i])
  }

  /** The pair pattern ^[A-Z0-9]{1,10}/[A-Z0-9]{1,10}$. */
  predicate MatchesPairPattern(pair: string) {
    exists k :: 0 <= k < |pair| && pair[k] == '/' && PairPart(pair[..k]) && PairPart(pair[k + 1..])
  }

  /** Index of the first '/' in `s`. */
  function SlashIndex(s: string): (r: Option<nat>)
    ensures r.Some? ==> r.value < |s| && s[r.value] == '/' && forall i :: 0 <= i < r.value ==> s[i] != '/'
    ensures r.None? ==> forall i :: 0 <= i < |s| ==> s[i] != '/'
  {
    if |s| == 0 then None
    else if s[0] == '/' then Some(0)
    else match SlashIndex(s[1..])
         case None => None
         case Some(k) => Some(k + 1)
  }

  /** A single left-to-right decision for the pattern: split at the first
      '/' and check both sides. */
  predicate PairFormatOk(pair: string) {
    match SlashIndex(pair)
    case None => false
    case Some(k) => PairPart(pair[..k]) && PairPart(pair[k + 1..])
  }

  /** Splitting at the first '/' decides the pattern: a matching pair has
      no '/' in its left part, so the first '/' is the separator. */
  lemma PairFormatDecidesPattern(pair: string)
    ensures PairFormatOk(pair) <==> MatchesPairPattern(pair)
  {
    if MatchesPairPattern(pair) {
      var k :| 0 <= k < |pair| && pair[k] == '/' && PairPart(pair[..k]) && PairPart(pair[k + 1..]);
      assert forall i :: 0 <= i < k ==> pair[..k][i] == pair[i];
      assert SlashIndex(pair).value == k;
    }
  }

  /** The create request the form sends; the free-text notes are left out. */
  datatype CreateRequest = CreateRequest(
    pair: string,
    side: TC.Side,
    entryPrice: real,
    stopLoss: real,
    takeProfit: real,
    positionSize: real,
    quantity: real,
    leverage: real,
    riskPercent: real,
    maxWin: real,
    maxLoss: real,
    riskRewardRatio: real,
    fee: real,
    entryReason: string,
    setupScore: int)

  /** The draft a guest's save keeps in local storage for after sign-in:
      every field of the form except the custom fee. */
  datatype Draft = Draft(
    pair: string,
    side: TC.Side,
    portfolio: real,
    entryPrice: real,
    riskPercent: real,
    leverage: real,
    exchange: string,
    entryReason: string,
    customReason: string,
    tpLevels: seq<TC.Level>,
    slLevels: seq<TC.Level>)

  /** The form the page starts from. */
  const InitialForm := FormInputs(
    "BTC/USDT", TC.Long, 1000.0, 0.0, 1.0, 1.0, "Binance Futures", 0.05, "", "",
    [TC.Level("1", 0.0, 100.0)], [TC.Level("1", 0.0, 100.0)])

  /** Restoring a draft spreads it over the current form: the draft's
      fields replace the form's, the rest are kept. */
  function Restore(prev: FormInputs, d: Draft): (r: FormInputs)
    ensures r.customFee == prev.customFee
    // the restored form's draft fields read back as the draft
    ensures d == Draft(r.pair, r.side, r.portfolio, r.entryPrice, r.riskPercent, r.leverage,
                       r.exchange, r.entryReason, r.customReason, r.tpLevels, r.slLevels)
  {
    prev.(pair := d.pair, side := d.side, portfolio := d.portfolio, entryPrice := d.entryPrice,
          riskPercent := d.riskPercent, leverage := d.leverage, exchange := d.exchange,
          entryReason := d.entryReason, customReason := d.customReason,
          tpLevels := d.tpLevels, slLevels := d.slLevels)
  }

  /** The draft of a form. Restoring it gives the form back with the custom
      fee of whatever form it is restored onto. */
  function DraftOf(form: FormInputs): (d: Draft)
    ensures forall prev :: Restore(prev, d) == form.(customFee := prev.customFee)
  {
    Draft(form.pair, form.side, form.portfolio, form.entryPrice, form.riskPercent, form.leverage,
          form.exchange, form.entryReason, form.customReason, form.tpLevels, form.slLevels)
  }

  /** The draft is restored onto the initial form, so a guest who chose
      "Custom" comes back with the page's default fee of 0.05 % and not the
      fee they typed. */
  lemma RestoredDraftLosesCustomFee(form: FormInputs)
    requires form.exchange == "Custom" && form.customFee != 0.05
    ensures var back := Restore(InitialForm, DraftOf(form));
            back == form.(customFee := 0.05)
            && FeeRate(back.exchange, back.customFee) == 0.05 != FeeRate(form.exchange, form.customFee)
  {
  }

  /** The outcome of pressing save: rejected with a message, a guest draft
      kept for after sign-in, or a create request. */
  datatype SaveOutcome =
    | BadPairFormat
    | IncompleteInputs
    | GuestDraft(draft: Draft)
    | TotalsNot100
    | Submit(request: CreateRequest)

  /** The price of the first rung, or 0 for an empty ladder. */
  function FirstPrice(levels: seq<TC.Level>): real {
    if |levels| == 0 then 0.0 else levels[0].price
  }

  /** Whether the save button is enabled: a positive entry and size, and no
      ladder warning. */
  function CanSave(form: FormInputs, c: Calculation): (ok: bool)
    ensures ok <==> form.entryPrice > 0.0 && c.metrics.calculatedPositionSize > 0.0
                    && LadderWarnings(form, c.metrics) == []
  {
    form.entryPrice > 0.0 && LevelTotal(form.tpLevels) == 100.0 && LevelTotal(form.slLevels) == 100.0
    && c.metrics.calculatedPositionSize > 0.0
  }

  /** The save handler: pair format first, then entry and size, then the
      guest branch (taken before the totals are checked), then the totals. */
  function HandleSave(form: FormInputs, c: Calculation, hasToken: bool): (o: SaveOutcome)
    ensures o == BadPairFormat <==> !MatchesPairPattern(form.pair)
    ensures o == IncompleteInputs <==>
              MatchesPairPattern(form.pair) && (form.entryPrice <= 0.0 || c.metrics.calculatedPositionSize <= 0.0)
    ensures o.GuestDraft? <==>
              MatchesPairPattern(form.pair) && form.entryPrice > 0.0 && c.metrics.calculatedPositionSize > 0.0
              && !hasToken
    ensures o.GuestDraft? ==> Restore(form, o.draft) == form && Restore(InitialForm, o.draft) == form.(customFee := 0.05)
    ensures o.Submit? <==> MatchesPairPattern(form.pair) && CanSave(form, c) && hasToken
    ensures o.Submit? ==>
              o.request.entryReason == (if form.entryReason == CustomReason then form.customReason else form.entryReason)
              && o.request.setupScore == c.score.setupScore
              && o.request.positionSize == c.metrics.calculatedPositionSize
              && o.request.maxLoss == c.metrics.netMaxLoss && o.request.maxWin == c.metrics.netMaxWin
              && o.request.stopLoss == FirstPrice(form.slLevels) && o.request.takeProfit == FirstPrice(form.tpLevels)
  {
    PairFormatDecidesPattern(form.pair);
    if !PairFormatOk(form.pair) then BadPairFormat
    else if form.entryPrice <= 0.0 || c.metrics.calculatedPositionSize <= 0.0 then IncompleteInputs
    else if !hasToken then GuestDraft(DraftOf(form))
    else if LevelTotal(form.tpLevels) != 100.0 || LevelTotal(form.slLevels) != 100.0 then TotalsNot100
    else
      var reason := if form.entryReason == CustomReason then form.customReason else form.entryReason;
      Submit(CreateRequest(
        form.pair, form.side, form.entryPrice, FirstPrice(form.slLevels), FirstPrice(form.tpLevels),
        c.metrics.calculatedPositionSize, c.metrics.quantity, form.leverage, form.riskPercent,
        c.metrics.netMaxWin, c.metrics.netMaxLoss, c.metrics.riskRewardRatio, c.metrics.totalFee,
        reason, c.score.setupScore))
  }

  /** A guest saves a draft even when the ladder totals are not 100 %. */
  lemma GuestDraftIgnoresTotals(form: FormInputs, c: Calculation)
    requires MatchesPairPattern(form.pair) && form.entryPrice > 0.0 && c.metrics.calculatedPositionSize > 0.0
    requires LevelTotal(form.tpLevels) != 100.0
    ensures HandleSave(form, c, false).GuestDraft?
    ensures Restore(InitialForm, HandleSave(form, c, false).draft) == form.(customFee := 0.05)
    ensures !CanSave(form, c)
  {
  }
}

=== FILE: chat.dfy ===
/** The trading-assistant chat endpoint: its request checks, the message
    lists it sends to the two AI back-ends, and the choice of reply between
    the primary back-end, the free fallback back-end and a fixed apology.
    The HTTP calls are parameters: each is given as the outcome the call
    produced. The trade-history text inside the system prompt is not
    modelled. */
module Chat {
  import opened Wrappers
  import Text

  datatype ChatMessage = ChatMessage(role: string, content: string)

  // ---------------------------------------------------------------------
  // Request checks

  datatype ChatError =
    | NotLoggedIn  // 401: the guard left no user id
    | NoMessages   // 400

  function ChatErrorStatus(e: ChatError): int {
    if e == NotLoggedIn then 401 else 400
  }

  function CheckChat(userId: nat, messages: seq<ChatMessage>): (r: Option<ChatError>)
    ensures r == Some(NotLoggedIn) <==> userId == 0
    ensures r == Some(NoMessages) <==> userId != 0 && |messages| == 0
    ensures r.None? <==> userId != 0 && |messages| > 0
  {
    if userId == 0 then Some(NotLoggedIn)
    else if |messages| == 0 then Some(NoMessages)
    else None
  }

  /** The language code written into the system prompt: as sent, or "th"
      when none was sent. */
  function PromptLanguage(language: string): (lang: string)
    ensures lang != ""
    ensures language != "" ==> lang == language
    ensures language == "" ==> lang == "th"
  {
    if language == "" then "th" else language
  }

  // ---------------------------------------------------------------------
  // Message lists

  /** One entry of the primary back-end's conversation. */
  datatype Content = Content(role: string, text: string)

  const Acknowledgement :=
    "Understood. I will provide excellent, market-aware trading advice in your selected language."

  /** The primary back-end knows "user" and "model": "assistant" is renamed,
      every other role is passed on unchanged. */
  function GeminiRole(role: string): (r: string)
    ensures r != "assistant"
    ensures role != "assistant" ==> r == role
    ensures r == "model" <==> role == "assistant" || role == "model"
  {
    if role == "assistant" then "model" else role
  }

  /** The chat history in the primary back-end's form, in order. */
  function MessageContents(messages: seq<ChatMessage>): (r: seq<Content>)
    ensures |r| == |messages|
    ensures forall k :: 0 <= k < |messages| ==>
              r[k] == Content(GeminiRole(messages[k].role), messages[k].content)
  {
    if |messages| == 0 then []
    else
      var last := messages[|messages| - 1];
      MessageContents(messages[..|messages| - 1]) + [Content(GeminiRole(last.role), last.content)]
  }

  /** The system prompt as a user turn, the fixed acknowledgement as a model
      turn, then the history. */
  function GeminiContents(systemPrompt: string, messages: seq<ChatMessage>): (r: seq<Content>)
    ensures |r| == |messages| + 2
    ensures r[0] == Content("user", systemPrompt) && r[1] == Content("model", Acknowledgement)
    ensures r[2..] == MessageContents(messages)
  {
    [Content("user", systemPrompt), Content("model", Acknowledgement)] + MessageContents(messages)
  }

  /** The fallback back-end's list: the prompt as a system message, then
      the history with its roles untouched. */
  function PollinationsMessages(systemPrompt: string, messages: seq<ChatMessage>): (r: seq<ChatMessage>)
    ensures |r| == |messages| + 1
    ensures r[0] == ChatMessage("system", systemPrompt) && r[1..] == messages
  {
    [ChatMessage("system", systemPrompt)] + messages
  }

  /** No "assistant" role ever reaches the primary back-end. */
  lemma GeminiHasNoAssistantRole(systemPrompt: string, messages: seq<ChatMessage>)
    ensures forall k :: 0 <= k < |messages| + 2 ==> GeminiContents(systemPrompt, messages)[k].role != "assistant"
  {
    var r := GeminiContents(systemPrompt, messages);
    forall k | 2 <= k < |messages| + 2
      ensures r[k].role != "assistant"
    {
      assert r[k] == MessageContents(messages)[k - 2];
    }
  }

  /** Both lists carry the same texts in the same order after their
      preamble. */
  lemma ListsCarrySameTexts(systemPrompt: string, messages: seq<ChatMessage>)
    ensures forall k :: 2 <= k < |messages| + 2 ==>
              GeminiContents(systemPrompt, messages)[k].text
              == PollinationsMessages(systemPrompt, messages)[k - 1].content
  {
    var g := GeminiContents(systemPrompt, messages);
    var p := PollinationsMessages(systemPrompt, messages);
    forall k | 2 <= k < |messages| + 2
      ensures g[k].text == p[k - 1].content
    {
      assert g[k] == MessageContents(messages)[k - 2];
      assert p[k - 1] == messages[k - 2];
    }
  }

  /** A history that says "model" where another says "assistant" reaches
      the primary back-end unchanged: the two spellings are merged. */
  lemma AssistantAndModelMerge(systemPrompt: string, before: seq<ChatMessage>, after: seq<ChatMessage>, text: string)
    ensures GeminiContents(systemPrompt, before + [ChatMessage("assistant", text)] + after)
         == GeminiContents(systemPrompt, before + [ChatMessage("model", text)] + after)
  {
    var a := before + [ChatMessage("assistant", text)] + after;
    var b := before + [ChatMessage("model", text)] + after;
    var ma := MessageContents(a);
    var mb := MessageContents(b);
    forall k | 0 <= k < |a|
      ensures ma[k] == mb[k]
    {
      if k != |before| {
        assert a[k] == b[k];
      }
    }
    assert ma == mb;
  }

  // ---------------------------------------------------------------------
  // Back-end calls and the reply

  /** What an HTTP call came back with: a transport error with its message,
      or a response with its status and the first text it carried (if
      any). */
  datatype CallOutcome =
    | Transport(message: string)
    | Response(status: int, firstText: Option<string>)

  /** The reasons a call reports failure. */
  datatype CallError =
    | TransportError(message: string)
    | QuotaExceeded            // status 429
    | HttpStatus(code: int)    // any other status than 200
    | EmptyReply               // 200 without a text

  /** Whether the error's text contains "429", which is what selects the
      fallback back-end. A status other than 429 is rendered "HTTP <code>";
      statuses have three digits, so that text mentions 429 only for 429
      itself, which has its own error. */
  predicate Mentions429(e: CallError) {
    match e
    case TransportError(m) => Text.Contains(m, "429")
    case QuotaExceeded => true
    case HttpStatus(_) => false
    case EmptyReply => false
  }

  /** The primary back-end call: 429 is a quota error, any other non-200
      status an HTTP error, and a 200 must carry a text. */
  function GeminiCall(o: CallOutcome): (r: Result<string, CallError>)
    ensures r.Ok? <==> o.Response? && o.status == 200 && o.firstText.Some?
    ensures r.Ok? ==> r.value == o.firstText.value
    ensures r == Err(QuotaExceeded) <==> o.Response? && o.status == 429
  {
    match o
    case Transport(m) => Err(TransportError(m))
    case Response(status, text) =>
      if status == 429 then Err(QuotaExceeded)
      else if status != 200 then Err(HttpStatus(status))
      else if text.None? then Err(EmptyReply)
      else Ok(text.value)
  }

  /** The fallback back-end call: any non-200 status is an error, and the
      text is trimmed of Go whitespace. */
  function PollinationsCall(o: CallOutcome): (r: Result<string, CallError>)
    ensures r.Ok? <==> o.Response? && o.status == 200 && o.firstText.Some?
    ensures r.Ok? ==> r.value == Text.Trim(o.firstText.value, Text.IsGoSpace)
  {
    match o
    case Transport(m) => Err(TransportError(m))
    case Response(status, text) =>
      if status != 200 then Err(HttpStatus(status))
      else if text.None? then Err(EmptyReply)
      else Ok(Text.Trim(text.value, Text.IsGoSpace))
  }

  const FallbackReply :=
    "⚠️ ระบบ AI ตอนนี้ประมวลผลหนัก หรือมีปัญหาเรื่องการเชื่อมต่อครับพี่ แต่มองจากทรงกราฟแล้วเทรดด้วยความระมัดระวังนะครับ ตั้ง SL เสมอ!"

  /** The answer always has status "success"; `source` is "gemini" for a
      reply from either back-end and "fallback" for the apology. */
  datatype ChatReply = ChatReply(source: string, reply: string)

  /** Whether the fallback back-end is asked: no key configured, or the
      primary back-end failed with an error mentioning 429. */
  predicate AsksPollinations(apiKey: string, gemini: CallOutcome) {
    apiKey == "" || (GeminiCall(gemini).Err? && Mentions429(GeminiCall(gemini).error))
  }

  /** Picks the reply. `gemini` is consulted only when a key is set. */
  function Reply(apiKey: string, gemini: CallOutcome, pollinations: CallOutcome): (r: ChatReply)
    ensures r.source == "gemini" || r.source == "fallback"
    ensures apiKey != "" && GeminiCall(gemini).Ok? ==> r == ChatReply("gemini", GeminiCall(gemini).value)
    ensures AsksPollinations(apiKey, gemini) && PollinationsCall(pollinations).Ok? ==>
              r == ChatReply("gemini", PollinationsCall(pollinations).value)
    ensures r.source == "fallback" <==>
              (apiKey == "" || GeminiCall(gemini).Err?)
              && (!AsksPollinations(apiKey, gemini) || PollinationsCall(pollinations).Err?)
    ensures r.source == "fallback" ==> r.reply == FallbackReply
  {
    var first := if apiKey != "" then GeminiCall(gemini) else Err(TransportError("no api key"));
    var second := if first.Err? && (Mentions429(first.error) || apiKey == "")
                  then PollinationsCall(pollinations) else first;
    if second.Err? then ChatReply("fallback", FallbackReply)
    else ChatReply("gemini", second.value)
  }

  /** A primary failure that does not mention 429 goes straight to the
      apology, even when the fallback back-end would have answered. */
  lemma NonQuotaFailureSkipsPollinations(apiKey: string, status: int, pollinations: CallOutcome)
    requires apiKey != "" && status != 200 && status != 429
    ensures Reply(apiKey, Response(status, None), pollinations) == ChatReply("fallback", FallbackReply)
  {
  }

  /** Without a key the primary outcome is irrelevant. */
  lemma NoKeyIgnoresGemini(g1: CallOutcome, g2: CallOutcome, pollinations: CallOutcome)
    ensures Reply("", g1, pollinations) == Reply("", g2, pollinations)
  {
  }
}

=== FILE: chat_widget.dfy ===
/** The chat box on the dashboard: the greeting it opens with, the height
    of its input, and the send handler that appends the user's message and
    then the assistant's answer. The chat call is given by its outcome. */
module ChatWidget {
  import opened Wrappers
  import Text
  import Chat

  type Message = Chat.ChatMessage

  const DefaultGreeting :=
    "สวัสดีครับยอดนักเทรด! 👋 ผมคือ AI Trading Assistant อยากให้ผมช่วยวิเคราะห์ตลาดวันนี้ หรือปรึกษาแผนการเทรด พิมพ์ถามมาได้เลยครับ!"

  /** The conversation at start: one assistant message, the translated
      greeting or, when that is empty, the built-in one. */
  function InitialMessages(translatedGreeting: string): (ms: seq<Message>)
    ensures |ms| == 1 && ms[0].role == "assistant" && ms[0].content != ""
    ensures translatedGreeting != "" ==> ms[0].content == translatedGreeting
    ensures translatedGreeting == "" ==> ms[0].content == DefaultGreeting
  {
    [Chat.ChatMessage("assistant", if translatedGreeting != "" then translatedGreeting else DefaultGreeting)]
  }

  // ---------------------------------------------------------------------
  // Input height

  const MaxVisibleLines := 4

  /** Rows shown for the input: its number of lines, between 1 and 4. */
  function SelectedHeight(text: string): (rows: nat)
    ensures 1 <= rows <= MaxVisibleLines
    ensures Text.Count(text, '\n') < MaxVisibleLines ==> rows == Text.Count(text, '\n') + 1
    ensures Text.Count(text, '\n') >= MaxVisibleLines - 1 ==> rows == MaxVisibleLines
  {
    var lines := |Text.Split(text, '\n')|;
    var atLeastOne := if lines < 1 then 1 else lines;
    if atLeastOne > MaxVisibleLines then MaxVisibleLines else atLeastOne
  }

  /** The empty input shows one row, and the height never drops when a
      line is added. */
  lemma SelectedHeightMonotone(text: string, more: string)
    ensures SelectedHeight("") == 1
    ensures SelectedHeight(text) <= SelectedHeight(text + "\n" + more)
  {
    CountAppend(text, "\n" + more, '\n');
    CountAppend("\n", more, '\n');
    assert Text.Count("\n", '\n') == 1 by {
      assert "\n"[1..] == "";
    }
    assert text + "\n" + more == text + ("\n" + more);
  }

  lemma {:induction false} CountAppend(a: string, b: string, c: char)
    ensures Text.Count(a + b, c) == Text.Count(a, c) + Text.Count(b, c)
    decreases |a|
  {
    if |a| == 0 {
      assert a + b == b;
    } else {
      assert (a + b)[0] == a[0];
      assert (a + b)[1..] == a[1..] + b;
      CountAppend(a[1..], b, c);
    }
  }

  // ---------------------------------------------------------------------
  // Sending

  /** What the chat call came back with: an answer with its status field and
      reply text, or a failure that either was a 401 or was not. */
  datatype ReplyOutcome =
    | Answered(status: string, reply: string)
    | CallFailed(unauthorized: bool)

  const ServerTroubleText := "⚠️ ขออภัยครับ ระบบเซิร์ฟเวอร์ AI ขัดข้องชั่วคราว ลองใหม่อีกครั้งนะครับ"
  const ConnectionTroubleText := "⚠️ ไม่สามารถเชื่อมต่อ AI ได้ (เซิร์ฟเวอร์อาจจะกำลังประมวลผลหนัก)"
  const LoginFirstText := "🔒 กรุณา Login ก่อนแชทครับพี่"

  /** The assistant message appended once the call has ended. */
  function AnswerMessage(o: ReplyOutcome): (m: Message)
    ensures m.role == "assistant"
    ensures o.Answered? && o.status == "success" ==> m.content == o.reply
    ensures o.Answered? && o.status != "success" ==> m.content == ServerTroubleText
    ensures o.CallFailed? ==> m.content == (if o.unauthorized then LoginFirstText else ConnectionTroubleText)
  {
    match o
    case Answered(status, reply) =>
      Chat.ChatMessage("assistant", if status == "success" then reply else ServerTroubleText)
    case CallFailed(unauthorized) =>
      Chat.ChatMessage("assistant", if unauthorized then LoginFirstText else ConnectionTroubleText)
  }

  datatype WidgetState = WidgetState(messages: seq<Message>, input: string, isLoading: bool)

  /** The text a send uses: a non-empty forced text (a message sent from
      elsewhere on the page) wins over the input box. */
  function TextToSend(input: string, forcedText: Option<string>): (text: string)
    ensures forcedText.Some? && forcedText.value != "" ==> text == forcedText.value
    ensures !(forcedText.Some? && forcedText.value != "") ==> text == input
  {
    if forcedText.Some? && forcedText.value != "" then forcedText.value else input
  }

  /** The text a send would post: the chosen text, trimmed. */
  function SendText(s: WidgetState, forcedText: Option<string>): string {
    Text.Trim(TextToSend(s.input, forcedText), Text.IsJsSpace)
  }

  /** Whether a send does anything: not for blank text, not while a reply
      is awaited. */
  predicate SendsSomething(s: WidgetState, forcedText: Option<string>) {
    SendText(s, forcedText) != "" && !s.isLoading
  }

  /** A send: what was sent to the chat endpoint (nothing when the send is
      ignored) and the state once the call has ended. */
  datatype SendResult = SendResult(sent: Option<seq<Message>>, after: WidgetState)

  function HandleSend(s: WidgetState, forcedText: Option<string>, o: ReplyOutcome): (r: SendResult)
    ensures r.sent.None? <==> !SendsSomething(s, forcedText)
    ensures r.sent.None? ==> r.after == s
    ensures r.sent.Some? ==>
              && r.sent.value == s.messages + [Chat.ChatMessage("user", SendText(s, forcedText))]
              && r.after == WidgetState(r.sent.value + [AnswerMessage(o)], "", false)
  {
    var text := SendText(s, forcedText);
    if text == "" || s.isLoading then SendResult(None, s)
    else
      var sent := s.messages + [Chat.ChatMessage("user", text)];
      SendResult(Some(sent), WidgetState(sent + [AnswerMessage(o)], "", false))
  }

  /** The whole earlier conversation is kept: a send only adds at the end. */
  lemma SendKeepsHistory(s: WidgetState, forcedText: Option<string>, o: ReplyOutcome)
    ensures |HandleSend(s, forcedText, o).after.messages| >= |s.messages|
    ensures HandleSend(s, forcedText, o).after.messages[..|s.messages|] == s.messages
  {
    var r := HandleSend(s, forcedText, o);
    if r.sent.Some? {
      var user := Chat.ChatMessage("user", Text.Trim(TextToSend(s.input, forcedText), Text.IsJsSpace));
      assert r.after.messages == s.messages + [user, AnswerMessage(o)];
    }
  }

  /** The user message sent carries no whitespace at its ends: trimming it
      again changes nothing. */
  lemma SentMessageIsTrimmed(s: WidgetState, forcedText: Option<string>, o: ReplyOutcome)
    requires SendsSomething(s, forcedText)
    ensures var sent := HandleSend(s, forcedText, o).sent.value;
            && sent[|sent| - 1].role == "user"
            && Text.Trim(sent[|sent| - 1].content, Text.IsJsSpace) == sent[|sent| - 1].content
  {
    TrimTwice(TextToSend(s.input, forcedText), Text.IsJsSpace);
  }

  lemma TrimTwice(t: string, isSpace: char -> bool)
    ensures Text.Trim(Text.Trim(t, isSpace), isSpace) == Text.Trim(t, isSpace)
  {
    var c := Text.Trim(t, isSpace);
    Text.TrimPadded("", c, "", isSpace);
    assert "" + c + "" == c;
  }

  /** A forced text makes the box's content irrelevant. */
  lemma ForcedTextWins(a: WidgetState, b: WidgetState, forced: string, o: ReplyOutcome)
    requires forced != "" && a.messages == b.messages && a.isLoading == b.isLoading
    ensures HandleSend(a, Some(forced), o).sent == HandleSend(b, Some(forced), o).sent
    ensures HandleSend(a, Some(forced), o).after.messages == HandleSend(b, Some(forced), o).after.messages
  {
  }

  /** A message the widget sends always passes the endpoint's own checks
      for a signed-in user: the list is never empty. */
  lemma SentListPassesEndpointCheck(s: WidgetState, forcedText: Option<string>, o: ReplyOutcome, userId: nat)
    requires userId != 0 && SendsSomething(s, forcedText)
    ensures Chat.CheckChat(userId, HandleSend(s, forcedText, o).sent.value).None?
  {
  }
}

=== FILE: class_names.dfy ===
/** `cn`, the class-name combiner: truthy strings and numbers are kept,
    arrays are combined recursively and kept when the result is not empty,
    and everything is joined with single spaces. */
module ClassNames {
  import Text
  import Format

  /** A class value: string, number, null, undefined, boolean or a nested
      array. */
  datatype ClassValue =
    | CStr(s: string)
    | CNum(n: Format.JsNumber)
    | CNull
    | CUndefined
    | CBool(b: bool)
    | CArray(items: seq<ClassValue>)

  /** JavaScript truthiness: "", 0, NaN, null, undefined and false are
      falsy; every array, even an empty one, is truthy. */
  predicate Truthy(v: ClassValue) {
    match v
    case CStr(s) => s != ""
    case CNum(n) => !n.NaN? && n != Format.Finite(0.0)
    case CNull => false
    case CUndefined => false
    case CBool(b) => b
    case CArray(_) => true
  }

  /** `String(number)`, which never gives the empty string. */
  type NumberText = f: Format.JsNumber -> string | forall n :: f(n) != "" witness (n: Format.JsNumber) => "0"

  /** What one argument adds to the list: its text, the nested result when
      that is not empty, or nothing (falsy values and `true`). */
  function Pushed(v: ClassValue, str: NumberText): (r: seq<string>)
    ensures |r| <= 1
    ensures forall k :: 0 <= k < |r| ==> r[k] != ""
    decreases v, 0
  {
    if !Truthy(v) then []
    else
      match v
      case CStr(s) => [s]
      case CNum(n) => [str(n)]
      case CArray(items) =>
        var nested := Cn(items, str);
        if nested != "" then [nested] else []
      case _ => []
  }

  /** The list of pieces `cn` builds, in argument order. */
  function Classes(inputs: seq<ClassValue>, str: NumberText): (r: seq<string>)
    ensures forall k :: 0 <= k < |r| ==> r[k] != ""
    decreases inputs, 0
  {
    if |inputs| == 0 then []
    else Classes(inputs[..|inputs| - 1], str) + Pushed(inputs[|inputs| - 1], str)
  }

  function Cn(inputs: seq<ClassValue>, str: NumberText): string
    decreases inputs, 1
  {
    Text.Join(Classes(inputs, str), " ")
  }

  // ---------------------------------------------------------------------
  // The flat reading

  /** The words of a value read flatly: nested arrays contribute their
      words directly. */
  function Words(v: ClassValue, str: NumberText): seq<string>
    decreases v
  {
    if !Truthy(v) then []
    else
      match v
      case CStr(s) => [s]
      case CNum(n) => [str(n)]
      case CArray(items) => WordsOf(items, str)
      case _ => []
  }

  function WordsOf(inputs: seq<ClassValue>, str: NumberText): seq<string>
    decreases inputs
  {
    if |inputs| == 0 then []
    else WordsOf(inputs[..|inputs| - 1], str) + Words(inputs[|inputs| - 1], str)
  }

  /** A join of non-empty pieces is empty exactly when there are none. */
  lemma JoinEmptyIff(parts: seq<string>)
    requires forall k :: 0 <= k < |parts| ==> parts[k] != ""
    ensures Text.Join(parts, " ") == "" <==> |parts| == 0
  {
    if |parts| > 1 {
      assert |Text.Join(parts, " ")| >= |parts[0]|;
    }
  }

  /** Joining the concatenation of two lists, either of which may be
      empty. */
  lemma JoinAppend(a: seq<string>, b: seq<string>, a2: seq<string>, b2: seq<string>)
    requires Text.Join(a, " ") == Text.Join(a2, " ") && (|a| == 0 <==> |a2| == 0)
    requires Text.Join(b, " ") == Text.Join(b2, " ") && (|b| == 0 <==> |b2| == 0)
    ensures Text.Join(a + b, " ") == Text.Join(a2 + b2, " ")
  {
    if |a| == 0 {
      assert a + b == b && a2 + b2 == b2;
    } else if |b| == 0 {
      assert a + b == a && a2 + b2 == a2;
    } else {
      Text.JoinConcat(a, b, " ");
      Text.JoinConcat(a2, b2, " ");
    }
  }

  /** Combining nested arrays one level at a time gives the same text as
      joining all their words at once, and nothing exactly when there are
      no words. */
  lemma {:induction false} CnIsFlatJoin(inputs: seq<ClassValue>, str: NumberText)
    ensures Cn(inputs, str) == Text.Join(WordsOf(inputs, str), " ")
    ensures |Classes(inputs, str)| == 0 <==> |WordsOf(inputs, str)| == 0
    decreases inputs
  {
    if |inputs| > 0 {
      var init := inputs[..|inputs| - 1];
      var last := inputs[|inputs| - 1];
      CnIsFlatJoin(init, str);
      PushedIsFlatJoin(last, str);
      JoinAppend(Classes(init, str), Pushed(last, str), WordsOf(init, str), Words(last, str));
    }
  }

  lemma {:induction false} PushedIsFlatJoin(v: ClassValue, str: NumberText)
    ensures Text.Join(Pushed(v, str), " ") == Text.Join(Words(v, str), " ")
    ensures |Pushed(v, str)| == 0 <==> |Words(v, str)| == 0
    decreases v
  {
    if Truthy(v) && v.CArray? {
      CnIsFlatJoin(v.items, str);
      JoinEmptyIff(Classes(v.items, str));
    }
  }

  /** Falsy arguments and `true` add nothing. */
  lemma SkipsValuesWithoutText(a: seq<ClassValue>, v: ClassValue, b: seq<ClassValue>, str: NumberText)
    requires !Truthy(v) || v == CBool(true)
    ensures WordsOf(a + [v] + b, str) == WordsOf(a + b, str)
  {
    WordsOfAppend(a + [v], b, str);
    WordsOfAppend(a, b, str);
    assert (a + [v])[..|a + [v]| - 1] == a;
  }

  lemma {:induction false} WordsOfAppend(a: seq<ClassValue>, b: seq<ClassValue>, str: NumberText)
    ensures WordsOf(a + b, str) == WordsOf(a, str) + WordsOf(b, str)
    decreases |b|
  {
    if |b| == 0 {
      assert a + b == a;
    } else {
      var b0 := b[..|b| - 1];
      assert (a + b)[..|a + b| - 1] == a + b0;
      WordsOfAppend(a, b0, str);
    }
  }

  lemma CnExample(str: NumberText)
    ensures Cn([CStr("btn"), CBool(false), CArray([CStr("active"), CNull]), CStr("")], str) == "btn active"
  {
    var inner := [CStr("active"), CNull];
    assert inner[..1] == [CStr("active")];
    assert Classes(inner, str) == ["active"];
    assert Cn(inner, str) == "active";
    var outer := [CStr("btn"), CBool(false), CArray(inner), CStr("")];
    assert outer[..3][..2][..1] == [CStr("btn")];
    assert Classes(outer[..3][..2][..1], str) == ["btn"];
    assert Classes(outer[..3][..2], str) == ["btn"];
    assert Classes(outer[..3], str) == ["btn", "active"];
    assert Classes(outer, str) == ["btn", "active"];
  }
}

=== FILE: dashboard.dfy ===
/** The trade-history dashboard: the P&L preview shown while an exit price
    is typed, the sort toggle, the free-text search and the paging of its
    result, the win-rate and pie figures, and the CSV export row. Library
    renderers (number printing, `toFixed(2)`, date printing, lower-casing)
    are parameters. */
module Dashboard {
  import opened Wrappers
  import Text
  import Sequences

  /** A journal row as the dashboard receives it. */
  datatype JournalTrade = JournalTrade(
    id: nat,
    createdAt: int,
    pair: string,
    side: string,
    status: string,
    entryReason: string,
    notes: string,
    entryPrice: real,
    exitPrice: real,
    positionSize: real,
    pnl: Option<real>,
    pnlPercent: Option<real>,
    riskRewardRatio: Option<real>,
    setupScore: int,
    fee: Option<real>)

  // ---------------------------------------------------------------------
  // Exit-price preview

  datatype Preview = Preview(exitPrice: real, pnl: real, pnlPercent: real, status: string)

  /** P&L percent of a move from entry to exit, in the trade's direction;
      any side other than LONG is treated as SHORT. */
  function MovePercent(side: string, entry: real, exit: real): real
    requires entry > 0.0
  {
    if side == "LONG" then (exit - entry) / entry * 100.0 else (entry - exit) / entry * 100.0
  }

  /** Status from the P&L before fees: WIN above 0, LOSS below 0, BREAK_EVEN
      at 0 once an exit price is set, OPEN otherwise. */
  function StatusFor(grossPnl: real, exit: real): string {
    if grossPnl > 0.0 then "WIN"
    else if grossPnl < 0.0 then "LOSS"
    else if exit > 0.0 then "BREAK_EVEN"
    else "OPEN"
  }

  /** The preview for a typed exit price. The stored P&L has the fee taken
      off, but the status is decided before the fee. */
  function ExitPreview(t: JournalTrade, exit: real): (p: Preview)
    ensures p.exitPrice == exit
    ensures !(exit > 0.0 && t.entryPrice > 0.0) ==> p.pnlPercent == 0.0 && p.pnl == -t.fee.GetOr(0.0)
    ensures exit > 0.0 && t.entryPrice > 0.0 ==>
              p.pnlPercent * t.entryPrice == (if t.side == "LONG" then exit - t.entryPrice else t.entryPrice - exit) * 100.0
              && p.pnl + t.fee.GetOr(0.0) == p.pnlPercent / 100.0 * t.positionSize
    ensures p.status == StatusFor(p.pnl + t.fee.GetOr(0.0), exit)
  {
    var pct := if exit > 0.0 && t.entryPrice > 0.0 then MovePercent(t.side, t.entryPrice, exit) else 0.0;
    var gross := if exit > 0.0 && t.entryPrice > 0.0 then pct / 100.0 * t.positionSize else 0.0;
    Preview(exit, gross - t.fee.GetOr(0.0), pct, StatusFor(gross, exit))
  }

  /** For a real position, the status says which way the price moved:
      WIN for a move in the trade's favour, LOSS against it, BREAK_EVEN for
      no move. */
  lemma StatusFollowsMove(t: JournalTrade, exit: real)
    requires t.entryPrice > 0.0 && exit > 0.0 && t.positionSize > 0.0
    ensures var favour := if t.side == "LONG" then exit - t.entryPrice else t.entryPrice - exit;
            (ExitPreview(t, exit).status == "WIN" <==> favour > 0.0)
            && (ExitPreview(t, exit).status == "LOSS" <==> favour < 0.0)
            && (ExitPreview(t, exit).status == "BREAK_EVEN" <==> favour == 0.0)
  {
    var p := ExitPreview(t, exit);
    var favour := if t.side == "LONG" then exit - t.entryPrice else t.entryPrice - exit;
    var gross := p.pnl + t.fee.GetOr(0.0);
    assert p.pnlPercent * t.entryPrice == favour * 100.0;
    assert gross == p.pnlPercent / 100.0 * t.positionSize;
    assert gross > 0.0 <==> p.pnlPercent > 0.0;
    assert gross < 0.0 <==> p.pnlPercent < 0.0;
  }

  /** A winning exit can show a negative stored P&L once the fee is taken
      off: LONG from 100 to 101 on a 100 position with a fee of 2. */
  lemma WinWithNegativeNet()
    ensures var t := JournalTrade(1, 0, "BTC/USDT", "LONG", "OPEN", "", "", 100.0, 0.0, 100.0,
                                  None, None, None, 0, Some(2.0));
            ExitPreview(t, 101.0).status == "WIN" && ExitPreview(t, 101.0).pnl == -1.0
  {
  }

  // ---------------------------------------------------------------------
  // Sorting

  datatype Direction = Asc | Desc

  datatype SortConfig = SortConfig(key: string, direction: Direction)

  /** Clicking a column header: the current column while descending flips to
      ascending; anything else sorts the clicked column descending. */
  function HandleSort(prev: SortConfig, key: string): (next: SortConfig)
    ensures next.key == key
    ensures next.direction == Asc <==> prev.key == key && prev.direction == Desc
  {
    SortConfig(key, if prev.key == key && prev.direction == Desc then Asc else Desc)
  }

  /** Two clicks on the column already sorted restore the configuration. */
  lemma SortToggleInvolution(c: SortConfig)
    ensures HandleSort(HandleSort(c, c.key), c.key) == c
  {
  }

  // ---------------------------------------------------------------------
  // Search and paging

  /** The renderers the search relies on. */
  datatype Renderers = Renderers(
    lower: string -> string,
    numberText: real -> string,
    fixed2: real -> string,
    dateText: int -> string)

  /** A trade matches when the lower-cased query occurs in one of its
      lower-cased texts or in the printed entry price, size or P&L. */
  predicate MatchesQuery(t: JournalTrade, query: string, r: Renderers) {
    Text.Contains(r.lower(t.pair), query)
    || Text.Contains(r.lower(t.side), query)
    || Text.Contains(r.lower(t.status), query)
    || Text.Contains(r.lower(t.entryReason), query)
    || Text.Contains(r.lower(t.notes), query)
    || Text.Contains(r.numberText(t.entryPrice), query)
    || Text.Contains(r.numberText(t.positionSize), query)
    || Text.Contains(r.numberText(t.pnl.GetOr(0.0)), query)
  }

  /** The search: a blank query keeps the list as it is; otherwise the
      matching trades are kept in order. Only the blank test trims the
      query; the matching uses it untrimmed. */
  function Search(trades: seq<JournalTrade>, searchQuery: string, r: Renderers): (result: seq<JournalTrade>)
    ensures Text.Trim(searchQuery, Text.IsJsSpace) == "" ==> result == trades
    ensures Sequences.IsSubsequence(result, trades)
    ensures Text.Trim(searchQuery, Text.IsJsSpace) != "" ==>
              forall i :: 0 <= i < |trades| ==>
                (trades[i] in result <== MatchesQuery(trades[i], r.lower(searchQuery), r))
    ensures Text.Trim(searchQuery, Text.IsJsSpace) != "" ==>
              forall i :: 0 <= i < |result| ==> MatchesQuery(result[i], r.lower(searchQuery), r)
  {
    if Text.Trim(searchQuery, Text.IsJsSpace) == "" then
      Sequences.FilterKeepsAll(trades, (t: JournalTrade) => true);
      trades
    else
      var query := r.lower(searchQuery);
      Sequences.Filter(trades, t => MatchesQuery(t, query, r))
  }

  const ItemsPerPage := 10

  /** `s.slice(start, end)` for non-negative bounds: both clamped to the
      length. */
  function Slice<T>(s: seq<T>, start: nat, end: nat): (r: seq<T>)
    ensures |r| <= |s|
  {
    var a := if start <= |s| then start else |s|;
    var b := if end <= |s| then end else |s|;
    if a <= b then s[a..b] else []
  }

  function Page<T>(items: seq<T>, page: nat): (r: seq<T>)
    ensures |r| <= ItemsPerPage
    ensures page * ItemsPerPage < |items| ==> |r| > 0 && r[0] == items[page * ItemsPerPage]
  {
    Slice(items, page * ItemsPerPage, page * ItemsPerPage + ItemsPerPage)
  }

  /** Math.ceil(n / 10). */
  function TotalPages(n: nat): (pages: nat)
    ensures pages * ItemsPerPage >= n
    ensures pages > 0 ==> (pages - 1) * ItemsPerPage < n
  {
    (n + ItemsPerPage - 1) / ItemsPerPage
  }

  /** The first `k` pages, one after the other. */
  function Pages<T>(items: seq<T>, k: nat): seq<T> {
    if k == 0 then [] else Pages(items, k - 1) + Page(items, k - 1)
  }

  /** Paging loses and repeats nothing: the first `k` pages are the first
      10·k items, so the pages up to `TotalPages` are exactly the list. */
  lemma {:induction false} PagesArePrefix<T>(items: seq<T>, k: nat)
    ensures Pages(items, k) == items[..if k * ItemsPerPage <= |items| then k * ItemsPerPage else |items|]
  {
    if k > 0 {
      PagesArePrefix(items, k - 1);
      var start := (k - 1) * ItemsPerPage;
      assert k * ItemsPerPage == start + ItemsPerPage;
      var a := if start <= |items| then start else |items|;
      var b := if k * ItemsPerPage <= |items| then k * ItemsPerPage else |items|;
      assert Page(items, k - 1) == items[a..b];
      assert items[..a] + items[a..b] == items[..b];
    }
  }

  lemma PagesCoverList<T>(items: seq<T>)
    ensures Pages(items, TotalPages(|items|)) == items
  {
    PagesArePrefix(items, TotalPages(|items|));
  }

  // ---------------------------------------------------------------------
  // Statistics

  datatype TradeStats = TradeStats(winCount: nat, lossCount: nat, openCount: nat)

  /** Wins over decided trades, in percent; 0 without stats or decided
      trades. */
  function WinRate(stats: Option<TradeStats>): (rate: real)
    ensures 0.0 <= rate <= 100.0
    ensures stats.None? || stats.value.winCount + stats.value.lossCount == 0 ==> rate == 0.0
    ensures stats.Some? ==> rate * (stats.value.winCount + stats.value.lossCount) as real
                              == stats.value.winCount as real * 100.0
  {
    if stats.None? then 0.0
    else
      var total := stats.value.winCount + stats.value.lossCount;
      if total > 0 then stats.value.winCount as real / total as real * 100.0 else 0.0
  }

  datatype PieData = PieData(win: real, loss: real, open: real)

  /** The three shares of all trades, in percent. */
  function Pie(stats: Option<TradeStats>): (p: PieData)
    ensures p.win >= 0.0 && p.loss >= 0.0 && p.open >= 0.0
    ensures stats.None? || stats.value.winCount + stats.value.lossCount + stats.value.openCount == 0 ==>
              p == PieData(0.0, 0.0, 0.0)
    ensures stats.Some? && stats.value.winCount + stats.value.lossCount + stats.value.openCount > 0 ==>
              p.win + p.loss + p.open == 100.0
  {
    if stats.None? then PieData(0.0, 0.0, 0.0)
    else
      var s := stats.value;
      var total := (s.winCount + s.lossCount + s.openCount) as real;
      if total > 0.0 then
        var p := PieData(s.winCount as real / total * 100.0, s.lossCount as real / total * 100.0,
                         s.openCount as real / total * 100.0);
        SharesSum(s.winCount as real, s.lossCount as real, s.openCount as real);
        p
      else PieData(0.0, 0.0, 0.0)
  }

  lemma SharesSum(a: real, b: real, c: real)
    requires a >= 0.0 && b >= 0.0 && c >= 0.0 && a + b + c > 0.0
    ensures a / (a + b + c) * 100.0 + b / (a + b + c) * 100.0 + c / (a + b + c) * 100.0 == 100.0
  {
    var t := a + b + c;
    assert a / t + b / t + c / t == (a + b + c) / t;
  }

  // ---------------------------------------------------------------------
  // CSV export

  const CsvHeaders: seq<string> := ["ID", "Date", "Pair", "Side", "Entry", "Exit", "Size",
                                   "PnL", "PnL%", "Status", "R:R", "Score", "Reason", "Notes"]

  /** A nullable number printed with two decimals, or "" when absent. */
  function OptionalFixed(x: Option<real>, fixed2: real -> string): string {
    if x.None? then "" else fixed2(x.value)
  }

  /** One exported row: zero exit price and zero score print as empty
      fields, the reason and notes have ',' turned into ';', and the notes
      have line breaks turned into spaces. */
  function CsvRow(t: JournalTrade, r: Renderers): (row: seq<string>)
    ensures |row| == |CsvHeaders| == 14
    ensures ',' !in row[12] && ',' !in row[13] && '\n' !in row[13]
    ensures row[2] == t.pair && row[3] == t.side && row[9] == t.status
  {
    [ r.numberText(t.id as real),
      r.dateText(t.createdAt),
      t.pair,
      t.side,
      r.numberText(t.entryPrice),
      if t.exitPrice == 0.0 then "" else r.numberText(t.exitPrice),
      r.fixed2(t.positionSize),
      OptionalFixed(t.pnl, r.fixed2),
      OptionalFixed(t.pnlPercent, r.fixed2),
      t.status,
      OptionalFixed(t.riskRewardRatio, r.fixed2),
      if t.setupScore == 0 then "" else r.numberText(t.setupScore as real),
      Text.ReplaceChar(t.entryReason, ',', ';'),
      Text.ReplaceChar(Text.ReplaceChar(t.notes, ',', ';'), '\n', ' ') ]
  }

  /** The row as one line of the file. */
  function CsvLine(t: JournalTrade, r: Renderers): string {
    Text.Join(CsvRow(t, r), ",")
  }

  /** When the unsanitised fields and the renderers produce no ',', reading
      the line back by commas gives exactly the 14 fields. */
  lemma CsvLineReadsBack(t: JournalTrade, r: Renderers)
    requires ',' !in t.pair && ',' !in t.side && ',' !in t.status
    requires forall x :: ',' !in r.numberText(x)
    requires forall x :: ',' !in r.fixed2(x)
    requires forall d :: ',' !in r.dateText(d)
    ensures Text.Split(CsvLine(t, r), ',') == CsvRow(t, r)
    ensures |Text.Split(CsvLine(t, r), ',')| == |CsvHeaders|
  {
    var row := CsvRow(t, r);
    FieldsCommaFree(t, r);
    Text.SplitJoin(row, ',');
  }

  lemma OptionalFixedCommaFree(x: Option<real>, fixed2: real -> string)
    requires forall y :: ',' !in fixed2(y)
    ensures ',' !in OptionalFixed(x, fixed2)
  {
    if x.Some? {
      var v: real := x.value;
      assert ',' !in fixed2(v);
    }
  }

  lemma FieldsCommaFree(t: JournalTrade, r: Renderers)
    requires ',' !in t.pair && ',' !in t.side && ',' !in t.status
    requires forall x :: ',' !in r.numberText(x)
    requires forall x :: ',' !in r.fixed2(x)
    requires forall d :: ',' !in r.dateText(d)
    ensures forall k :: 0 <= k < |CsvRow(t, r)| ==> ',' !in CsvRow(t, r)[k]
  {
    OtherFieldsCommaFree(t, r);
  }

  /** Every field but the pair is free of ',' when the side, the status and
      the renderers are. */
  lemma OtherFieldsCommaFree(t: JournalTrade, r: Renderers)
    requires ',' !in t.side && ',' !in t.status
    requires forall x :: ',' !in r.numberText(x)
    requires forall x :: ',' !in r.fixed2(x)
    requires forall d :: ',' !in r.dateText(d)
    ensures forall k :: 0 <= k < |CsvRow(t, r)| && k != 2 ==> ',' !in CsvRow(t, r)[k]
  {
    var row := CsvRow(t, r);
    assert ',' !in row[0] && ',' !in row[1] && ',' !in row[4] && ',' !in row[5] && ',' !in row[6];
    OptionalFixedCommaFree(t.pnl, r.fixed2);
    OptionalFixedCommaFree(t.pnlPercent, r.fixed2);
    OptionalFixedCommaFree(t.riskRewardRatio, r.fixed2);
    assert ',' !in r.numberText(t.setupScore as real);
  }

  /** The pair is not sanitised: a pair with a comma pushes every later
      field one column to the right. */
  lemma CommaInPairShiftsColumns(t: JournalTrade, r: Renderers)
    requires t.pair == "A,B/C"
    requires ',' !in t.side && ',' !in t.status
    requires forall x :: ',' !in r.numberText(x)
    requires forall x :: ',' !in r.fixed2(x)
    requires forall d :: ',' !in r.dateText(d)
    ensures |Text.Split(CsvLine(t, r), ',')| == |CsvHeaders| + 1
    ensures Text.Split(CsvLine(t, r), ',')[2..4] == ["A", "B/C"]
  {
    var row := CsvRow(t, r);
    OtherFieldsCommaFree(t, r);
    assert row[2] == "A" + "," + "B/C";
    SplitPieceShifts(row, 2, "A", "B/C");
  }

  /** Reading back a line whose one field holds a single ',' gives that
      field as two. */
  lemma SplitPieceShifts(row: seq<string>, k: nat, a: string, b: string)
    requires k < |row| && row[k] == a + "," + b && ',' !in a && ',' !in b
    requires forall j :: 0 <= j < |row| && j != k ==> ',' !in row[j]
    ensures Text.Split(Text.Join(row, ","), ',') == row[..k] + [a, b] + row[k + 1..]
  {
    var fixed := row[..k] + [a, b] + row[k + 1..];
    JoinSplitPiece(row, k, a, b);
    forall j | 0 <= j < |fixed|
      ensures ',' !in fixed[j]
    {
      if j < k {
        assert fixed[j] == row[j];
      } else if j > k + 1 {
        assert fixed[j] == row[j - 1];
      }
    }
    Text.SplitJoin(fixed, ',');
  }

  /** Joining with a piece split in two at a comma is joining with the
      piece itself. */
  lemma {:induction false} JoinSplitPiece(row: seq<string>, k: nat, a: string, b: string)
    requires k < |row| && row[k] == a + "," + b
    ensures Text.Join(row[..k] + [a, b] + row[k + 1..], ",") == Text.Join(row, ",")
    decreases k
  {
    var fixed := row[..k] + [a, b] + row[k + 1..];
    if k == 0 {
      assert fixed == [a] + ([b] + row[1..]);
      if |row| == 1 {
        assert fixed[1..] == [b];
      } else {
        assert fixed[1..] == [b] + row[1..];
        assert Text.Join(fixed[1..], ",") == b + "," + Text.Join(row[1..], ",");
      }
    } else {
      JoinSplitPiece(row[1..], k - 1, a, b);
      assert fixed == [row[0]] + (row[1..][..k - 1] + [a, b] + row[1..][k..]);
      assert fixed[1..] == row[1..][..k - 1] + [a, b] + row[1..][k..];
    }
  }
}

=== FILE: forgot_password.dfy ===
/** The three password-reset endpoints: request a six-digit code by e-mail,
    check a code, and set a new password with a code. Each endpoint is a
    transition on the account row that the e-mail lookup found (`None` when
    no live account has that address); the random draw, the clock, the mail
    server and the password hasher are parameters. */
module ForgotPassword {
  import opened Wrappers
  import Text
  import Auth

  /** The code is drawn uniformly below this bound and printed with six
      zero-padded digits. */
  const OtpSpace := 1000000
  const OtpWidth := 6
  /** A code stays valid five minutes (time in seconds). */
  const OtpLifetime := 5 * 60

  // ---------------------------------------------------------------------
  // Six-digit codes

  predicate IsDigit(c: char) {
    '0' <= c <= '9'
  }

  predicate AllDigits(s: string) {
    forall i :: 0 <= i < |s| ==> IsDigit(s[i])
  }

  function Pow10(k: nat): (p: nat)
    ensures p >= 1
  {
    if k == 0 then 1 else 10 * Pow10(k - 1)
  }

  function DigitChar(d: nat): (c: char)
    requires d < 10
    ensures IsDigit(c) && c as int - '0' as int == d
  {
    ('0' as int + d) as char
  }

  /** `n` printed in decimal, left-padded with zeros to `width` digits
      (the low `width` digits when `n` is wider). */
  function PadDecimal(n: nat, width: nat): (s: string)
    ensures |s| == width
    ensures AllDigits(s)
  {
    if width == 0 then "" else PadDecimal(n / 10, width - 1) + [DigitChar(n % 10)]
  }

  /** The number a string of decimal digits denotes. */
  function DecimalValue(s: string): nat
    requires AllDigits(s)
  {
    if |s| == 0 then 0
    else DecimalValue(s[..|s| - 1]) * 10 + (s[|s| - 1] as int - '0' as int)
  }

  /** Printing a number that fits and reading it back gives the number. */
  lemma {:induction false} PadDecimalRoundTrip(n: nat, width: nat)
    requires n < Pow10(width)
    ensures DecimalValue(PadDecimal(n, width)) == n
  {
    if width > 0 {
      var s := PadDecimal(n, width);
      assert n / 10 < Pow10(width - 1);
      PadDecimalRoundTrip(n / 10, width - 1);
      assert s[..|s| - 1] == PadDecimal(n / 10, width - 1);
      assert DecimalValue(s) == (n / 10) * 10 + n % 10;
    }
  }

  /** Two different draws never print as the same code. */
  lemma PadDecimalInjective(a: nat, b: nat)
    requires a < OtpSpace && b < OtpSpace && a != b
    ensures PadDecimal(a, OtpWidth) != PadDecimal(b, OtpWidth)
  {
    assert Pow10(OtpWidth) == OtpSpace;
    PadDecimalRoundTrip(a, OtpWidth);
    PadDecimalRoundTrip(b, OtpWidth);
  }

  /** The code for a draw below one million, or `None` when the random
      source failed. */
  function GenerateOtp(draw: Option<nat>): (otp: Option<string>)
    requires draw.Some? ==> draw.value < OtpSpace
    ensures otp.None? <==> draw.None?
    ensures otp.Some? ==> |otp.value| == OtpWidth && AllDigits(otp.value)
    ensures otp.Some? ==> DecimalValue(otp.value) == draw.value
  {
    if draw.None? then None
    else
      assert Pow10(OtpWidth) == OtpSpace;
      PadDecimalRoundTrip(draw.value, OtpWidth);
      Some(PadDecimal(draw.value, OtpWidth))
  }

  // ---------------------------------------------------------------------
  // Transitions

  /** An endpoint's answer together with the account row as stored after
      the call (`None` when no account was found). */
  datatype Step<E> = Step(error: Option<E>, row: Option<Auth.User>)

  /** The code check shared by verification and reset: a code is stored,
      it equals the one sent, and its expiry is not before `now`. */
  predicate CodeMatches(u: Auth.User, otp: string) {
    u.resetOtp == Some(otp)
  }

  predicate CodeLive(u: Auth.User, now: int) {
    u.resetOtpExpiresAt.Some? && !(u.resetOtpExpiresAt.value < now)
  }

  // Request a code

  datatype RequestError =
    | EmptyContact  // 400
    | UnknownEmail  // 404
    | OtpFailed     // 500
    | MailFailed    // 500, the code has already been stored

  function RequestErrorStatus(e: RequestError): int {
    match e
    case EmptyContact => 400
    case UnknownEmail => 404
    case _ => 500
  }

  /** Stores a fresh code expiring five minutes from `now`, then mails it
      (`mailSent` is the mail server's outcome). */
  function RequestCode(contact: string, found: Option<Auth.User>, draw: Option<nat>, now: int, mailSent: bool)
    : (r: Step<RequestError>)
    requires draw.Some? ==> draw.value < OtpSpace
    ensures r.error == Some(EmptyContact) <==> contact == ""
    ensures r.error == Some(UnknownEmail) <==> contact != "" && found.None?
    ensures r.error == Some(OtpFailed) <==> contact != "" && found.Some? && draw.None?
    ensures r.error == Some(MailFailed) <==> contact != "" && found.Some? && draw.Some? && !mailSent
    ensures r.error.None? <==> contact != "" && found.Some? && draw.Some? && mailSent
    ensures contact != "" && found.Some? && draw.Some? ==>
              r.row == Some(found.value.(resetOtp := GenerateOtp(draw),
                                         resetOtpExpiresAt := Some(now + OtpLifetime)))
    ensures !(contact != "" && found.Some? && draw.Some?) ==> r.row == found
  {
    if contact == "" then Step(Some(EmptyContact), found)
    else if found.None? then Step(Some(UnknownEmail), found)
    else
      var otp := GenerateOtp(draw);
      if otp.None? then Step(Some(OtpFailed), found)
      else
        var stored := found.value.(resetOtp := otp, resetOtpExpiresAt := Some(now + OtpLifetime));
        if !mailSent then Step(Some(MailFailed), Some(stored))
        else Step(None, Some(stored))
  }

  // Check a code

  datatype CheckError =
    | NoAccount     // 400
    | WrongOtp      // 400
    | Expired       // 400

  /** Accepts `otp` for the account found, without consuming it. */
  function VerifyCode(otp: string, found: Option<Auth.User>, now: int): (r: Option<CheckError>)
    ensures r == Some(NoAccount) <==> found.None?
    ensures r == Some(WrongOtp) <==> found.Some? && !CodeMatches(found.value, otp)
    ensures r == Some(Expired) <==> found.Some? && CodeMatches(found.value, otp) && !CodeLive(found.value, now)
    ensures r.None? <==> found.Some? && CodeMatches(found.value, otp) && CodeLive(found.value, now)
  {
    if found.None? then Some(NoAccount)
    else if found.value.resetOtp.None? || found.value.resetOtp.value != otp then Some(WrongOtp)
    else if found.value.resetOtpExpiresAt.None? || found.value.resetOtpExpiresAt.value < now then Some(Expired)
    else None
  }

  // Set a new password

  datatype ResetError =
    | PasswordTooShort  // 400, checked before the lookup
    | Rejected(cause: CheckError)  // 400
    | HashFailed        // 500

  function ResetErrorStatus(e: ResetError): int {
    if e == HashFailed then 500 else 400
  }

  /** Replaces the password hash with `hash` (the hasher's outcome) and
      clears the code, when the new password has at least six bytes and the
      code checks out. */
  function ResetPassword(otp: string, newPassword: string, found: Option<Auth.User>, now: int, hash: Option<string>)
    : (r: Step<ResetError>)
    ensures r.error == Some(PasswordTooShort) <==> Text.Utf8Length(newPassword) < Auth.MinPasswordBytes
    ensures Text.Utf8Length(newPassword) >= Auth.MinPasswordBytes ==>
              (r.error.Some? && r.error.value.Rejected? <==> VerifyCode(otp, found, now).Some?)
    ensures r.error.Some? && r.error.value.Rejected? ==> r.error.value.cause == VerifyCode(otp, found, now).value
    ensures r.error == Some(HashFailed) <==>
              Text.Utf8Length(newPassword) >= Auth.MinPasswordBytes && VerifyCode(otp, found, now).None? && hash.None?
    ensures r.error.None? <==>
              Text.Utf8Length(newPassword) >= Auth.MinPasswordBytes && VerifyCode(otp, found, now).None? && hash.Some?
    ensures r.error.None? ==>
              r.row == Some(found.value.(passwordHash := hash.value, resetOtp := None, resetOtpExpiresAt := None))
    ensures r.error.Some? ==> r.row == found
  {
    if Text.Utf8Length(newPassword) < Auth.MinPasswordBytes then Step(Some(PasswordTooShort), found)
    else
      var check := VerifyCode(otp, found, now);
      if check.Some? then Step(Some(Rejected(check.value)), found)
      else if hash.None? then Step(Some(HashFailed), found)
      else Step(None, Some(found.value.(passwordHash := hash.value, resetOtp := None, resetOtpExpiresAt := None)))
  }

  // ---------------------------------------------------------------------
  // Properties of the flow

  /** The code just stored is accepted up to and including its expiry
      second and refused as expired one second later. */
  lemma RequestedCodeWindow(contact: string, u: Auth.User, draw: nat, now: int, mailSent: bool, later: int)
    requires contact != "" && draw < OtpSpace
    ensures var row := RequestCode(contact, Some(u), Some(draw), now, mailSent).row;
            var code := PadDecimal(draw, OtpWidth);
            (later <= now + OtpLifetime ==> VerifyCode(code, row, later).None?)
            && (later > now + OtpLifetime ==> VerifyCode(code, row, later) == Some(Expired))
  {
  }

  /** A failed mail leaves a live code stored: whoever obtains it can still
      reset the password although the requester was told the mail failed. */
  lemma MailFailureKeepsCodeLive(contact: string, u: Auth.User, draw: nat, now: int)
    requires contact != "" && draw < OtpSpace
    ensures var r := RequestCode(contact, Some(u), Some(draw), now, false);
            r.error == Some(MailFailed) && VerifyCode(PadDecimal(draw, OtpWidth), r.row, now).None?
  {
  }

  /** Asking again replaces the earlier code: a different draw makes the
      first code wrong. */
  lemma NewRequestReplacesCode(contact: string, u: Auth.User, d1: nat, d2: nat, t1: int, t2: int, later: int)
    requires contact != "" && d1 < OtpSpace && d2 < OtpSpace && d1 != d2
    ensures var first := RequestCode(contact, Some(u), Some(d1), t1, true).row;
            var second := RequestCode(contact, first, Some(d2), t2, true).row;
            VerifyCode(PadDecimal(d1, OtpWidth), second, later) == Some(WrongOtp)
  {
    PadDecimalInjective(d1, d2);
  }

  /** After a successful reset no code is accepted any more, so a code
      cannot be used twice. */
  lemma ResetCodeSingleUse(otp: string, newPassword: string, u: Auth.User, now: int, hash: string,
                           otp2: string, pw2: string, later: int, hash2: Option<string>)
    requires ResetPassword(otp, newPassword, Some(u), now, Some(hash)).error.None?
    ensures var row := ResetPassword(otp, newPassword, Some(u), now, Some(hash)).row;
            VerifyCode(otp2, row, later) == Some(WrongOtp)
            && ResetPassword(otp2, pw2, row, later, hash2).error.Some?
  {
  }

  /** With a long enough password and a working hasher, reset succeeds
      exactly when verification would. */
  lemma ResetAgreesWithVerify(otp: string, newPassword: string, found: Option<Auth.User>, now: int, hash: string)
    requires Text.Utf8Length(newPassword) >= Auth.MinPasswordBytes
    ensures ResetPassword(otp, newPassword, found, now, Some(hash)).error.None? <==> VerifyCode(otp, found, now).None?
  {
  }
}

=== FILE: format.dfy ===
/** The front-end's number formatting helpers: prices with a number of
    decimals chosen by magnitude, dollar amounts, percentages, quantities,
    compact K/M/B amounts and signed profit-and-loss text with its colour.
    JavaScript numbers are modelled with NaN and the infinities; the
    library renderers (locale formatting, `toFixed`, `toExponential`,
    `parseFloat`) are parameters. */
module Format {
  import opened Wrappers

  // ---------------------------------------------------------------------
  // JavaScript numbers and values

  datatype JsNumber = Finite(r: real) | NaN | Infinity(negative: bool)

  /** `Math.abs`. */
  function Abs(n: JsNumber): (a: JsNumber)
    ensures a.Finite? ==> a.r >= 0.0
    ensures a.Infinity? ==> !a.negative
    ensures a.NaN? <==> n.NaN?
  {
    match n
    case Finite(r) => Finite(if r < 0.0 then -r else r)
    case NaN => NaN
    case Infinity(_) => Infinity(false)
  }

  /** `n < t`: false for NaN. */
  predicate Below(n: JsNumber, t: real) {
    match n
    case Finite(r) => r < t
    case NaN => false
    case Infinity(negative) => negative
  }

  /** `n >= t`: false for NaN. */
  predicate AtLeast(n: JsNumber, t: real) {
    match n
    case Finite(r) => r >= t
    case NaN => false
    case Infinity(negative) => !negative
  }

  /** `n > t`: false for NaN. */
  predicate Above(n: JsNumber, t: real) {
    match n
    case Finite(r) => r > t
    case NaN => false
    case Infinity(negative) => !negative
  }

  /** `n / d` for a positive constant divisor. */
  function Scale(n: JsNumber, d: real): JsNumber
    requires d > 0.0
  {
    match n
    case Finite(r) => Finite(r / d)
    case NaN => NaN
    case Infinity(negative) => Infinity(negative)
  }

  /** An argument the helpers accept: a number, a numeric string, or
      nothing. */
  datatype JsValue = Undefined | Null | Str(s: string) | Num(n: JsNumber)

  /** The library calls the helpers make. */
  datatype NumberText = NumberText(
    parseFloat: string -> JsNumber,
    localeFixed: (JsNumber, nat) -> string,  // en-US grouping, exactly d decimals
    localeUpTo2: JsNumber -> string,         // en-US grouping, at most 2 decimals
    toFixed: (JsNumber, nat) -> string,
    toExponential: (JsNumber, nat) -> string)

  /** undefined, null and the empty string all print as "-". */
  predicate Missing(v: JsValue) {
    v.Undefined? || v.Null? || v == Str("")
  }

  /** The number a present value stands for: strings go through
      `parseFloat`. */
  function Numeric(v: JsValue, nt: NumberText): JsNumber
    requires !Missing(v)
  {
    match v
    case Str(s) => nt.parseFloat(s)
    case Num(n) => n
  }

  // ---------------------------------------------------------------------
  // Prices

  /** Decimals for a price magnitude: 8 below 0.0001, 6 below 0.01, 4
      below 1, otherwise 2. */
  function PriceDecimals(a: JsNumber): (d: nat)
    ensures d == 2 || d == 4 || d == 6 || d == 8
    ensures a.Finite? && a.r >= 0.0 ==>
              (d == 8 <==> a.r < 0.0001)
              && (d == 6 <==> 0.0001 <= a.r < 0.01)
              && (d == 4 <==> 0.01 <= a.r < 1.0)
              && (d == 2 <==> a.r >= 1.0)
  {
    if Below(a, 0.0001) then 8
    else if Below(a, 0.01) then 6
    else if Below(a, 1.0) then 4
    else 2
  }

  /** A larger price never gets more decimals than a smaller one. */
  lemma PriceDecimalsAntitone(x: real, y: real)
    requires 0.0 <= x <= y
    ensures PriceDecimals(Finite(y)) <= PriceDecimals(Finite(x))
  {
  }

  /** `formatPrice`: "-" for a missing value or NaN, "0" for zero,
      otherwise the locale text with the magnitude's decimals. */
  function FormatPrice(v: JsValue, nt: NumberText): (text: string)
    ensures Missing(v) || Numeric(v, nt).NaN? ==> text == "-"
    ensures !Missing(v) && Numeric(v, nt) == Finite(0.0) ==> text == "0"
    ensures !Missing(v) && !Numeric(v, nt).NaN? && Numeric(v, nt) != Finite(0.0) ==>
              text == nt.localeFixed(Numeric(v, nt), PriceDecimals(Abs(Numeric(v, nt))))
  {
    if Missing(v) then "-"
    else
      var num := Numeric(v, nt);
      if num.NaN? then "-"
      else if num == Finite(0.0) then "0"
      else nt.localeFixed(num, PriceDecimals(Abs(num)))
  }

  /** A price and its negation are printed with the same number of
      decimals. */
  lemma FormatPriceSignSymmetric(x: real, nt: NumberText)
    requires x != 0.0
    ensures FormatPrice(Num(Finite(x)), nt) == nt.localeFixed(Finite(x), PriceDecimals(Abs(Finite(-x))))
    ensures FormatPrice(Num(Finite(-x)), nt) == nt.localeFixed(Finite(-x), PriceDecimals(Abs(Finite(x))))
  {
  }

  /** `formatUSD`: "$" or "-$" in front of the price of the magnitude. */
  function FormatUsd(v: JsValue, nt: NumberText): (text: string)
    ensures FormatPrice(v, nt) == "-" ==> text == "-"
    ensures FormatPrice(v, nt) != "-" ==>
              !Missing(v)
              && text == (if AtLeast(Numeric(v, nt), 0.0) then "$" else "-$")
                         + FormatPrice(Num(Abs(Numeric(v, nt))), nt)
  {
    var formatted := FormatPrice(v, nt);
    if formatted == "-" then formatted
    else
      // `value || 0` turns the falsy numbers into 0; NaN has already
      // printed as "-" and 0 stays 0.
      var num := Numeric(v, nt);
      var prefix := if AtLeast(num, 0.0) then "$" else "-$";
      prefix + FormatPrice(Num(Abs(num)), nt)
  }

  /** A negative amount prints as its magnitude with a minus in front. */
  lemma FormatUsdNegation(x: real, nt: NumberText)
    requires x > 0.0
    requires FormatPrice(Num(Finite(x)), nt) != "-" && FormatPrice(Num(Finite(-x)), nt) != "-"
    ensures FormatUsd(Num(Finite(-x)), nt) == "-" + FormatUsd(Num(Finite(x)), nt)
  {
    assert Abs(Finite(-x)) == Finite(x);
    assert Abs(Finite(x)) == Finite(x);
  }

  // ---------------------------------------------------------------------
  // Percentages and quantities

  /** `formatPercent`: `toFixed(decimals)` followed by "%". */
  function FormatPercent(v: JsValue, decimals: nat, nt: NumberText): (text: string)
    ensures Missing(v) || Numeric(v, nt).NaN? ==> text == "-"
    ensures !(Missing(v) || Numeric(v, nt).NaN?) ==>
              |text| >= 1 && text[|text| - 1] == '%'
              && text[..|text| - 1] == nt.toFixed(Numeric(v, nt), decimals)
  {
    if Missing(v) then "-"
    else
      var num := Numeric(v, nt);
      if num.NaN? then "-" else nt.toFixed(num, decimals) + "%"
  }

  /** How a non-zero quantity is printed, by magnitude. */
  datatype QuantityStyle =
    | Exponential4  // below 0.000001
    | Fixed8        // below 1
    | Fixed4        // below 1000
    | Grouped       // locale text, at most 2 decimals

  function StyleRank(s: QuantityStyle): nat {
    match s
    case Exponential4 => 0
    case Fixed8 => 1
    case Fixed4 => 2
    case Grouped => 3
  }

  function QuantityStyleOf(a: JsNumber): (s: QuantityStyle)
    ensures a.Finite? && a.r >= 0.0 ==>
              (s == Exponential4 <==> a.r < 0.000001)
              && (s == Fixed8 <==> 0.000001 <= a.r < 1.0)
              && (s == Fixed4 <==> 1.0 <= a.r < 1000.0)
              && (s == Grouped <==> a.r >= 1000.0)
  {
    if Below(a, 0.000001) then Exponential4
    else if Below(a, 1.0) then Fixed8
    else if Below(a, 1000.0) then Fixed4
    else Grouped
  }

  /** Larger quantities move to coarser styles, never back. */
  lemma QuantityStyleMonotone(x: real, y: real)
    requires 0.0 <= x <= y
    ensures StyleRank(QuantityStyleOf(Finite(x))) <= StyleRank(QuantityStyleOf(Finite(y)))
  {
  }

  /** `formatQuantity`: "-" for missing or NaN, "0" for zero, otherwise the
      style of the magnitude applied to the signed number. */
  function FormatQuantity(v: JsValue, nt: NumberText): (text: string)
    ensures Missing(v) || Numeric(v, nt).NaN? ==> text == "-"
    ensures !Missing(v) && Numeric(v, nt) == Finite(0.0) ==> text == "0"
    ensures !Missing(v) && !Numeric(v, nt).NaN? && Numeric(v, nt) != Finite(0.0) ==>
              var num := Numeric(v, nt);
              text == match QuantityStyleOf(Abs(num))
                      case Exponential4 => nt.toExponential(num, 4)
                      case Fixed8 => nt.toFixed(num, 8)
                      case Fixed4 => nt.toFixed(num, 4)
                      case Grouped => nt.localeUpTo2(num)
  {
    if Missing(v) then "-"
    else
      var num := Numeric(v, nt);
      if num.NaN? then "-"
      else if num == Finite(0.0) then "0"
      else
        match QuantityStyleOf(Abs(num))
        case Exponential4 => nt.toExponential(num, 4)
        case Fixed8 => nt.toFixed(num, 8)
        case Fixed4 => nt.toFixed(num, 4)
        case Grouped => nt.localeUpTo2(num)
  }

  // ---------------------------------------------------------------------
  // Compact amounts

  datatype CompactUnit = Billions | Millions | Thousands | Units

  function Divisor(u: CompactUnit): (d: real)
    ensures d > 0.0
  {
    match u
    case Billions => 1000000000.0
    case Millions => 1000000.0
    case Thousands => 1000.0
    case Units => 1.0
  }

  function Suffix(u: CompactUnit): string {
    match u
    case Billions => "B"
    case Millions => "M"
    case Thousands => "K"
    case Units => ""
  }

  /** The largest unit the magnitude reaches; NaN stays in units and the
      infinities count in billions. */
  function CompactUnitOf(n: JsNumber): (u: CompactUnit)
    ensures n.Finite? ==>
              (u == Billions <==> n.r >= 1000000000.0 || n.r <= -1000000000.0)
              && (u == Millions <==> (1000000.0 <= n.r < 1000000000.0 || -1000000000.0 < n.r <= -1000000.0))
              && (u == Thousands <==> (1000.0 <= n.r < 1000000.0 || -1000000.0 < n.r <= -1000.0))
              && (u == Units <==> -1000.0 < n.r < 1000.0)
    ensures n.NaN? ==> u == Units
    ensures n.Infinity? ==> u == Billions
  {
    if AtLeast(Abs(n), 1000000000.0) then Billions
    else if AtLeast(Abs(n), 1000000.0) then Millions
    else if AtLeast(Abs(n), 1000.0) then Thousands
    else Units
  }

  /** `formatCompact`: the value divided by its unit, two decimals, then
      the unit's letter. */
  function FormatCompact(n: JsNumber, nt: NumberText): (text: string)
    ensures AtLeast(Abs(n), 1000000000.0) ==> text == nt.toFixed(Scale(n, 1000000000.0), 2) + "B"
    ensures !AtLeast(Abs(n), 1000000000.0) && AtLeast(Abs(n), 1000000.0) ==>
              text == nt.toFixed(Scale(n, 1000000.0), 2) + "M"
    ensures !AtLeast(Abs(n), 1000000.0) && AtLeast(Abs(n), 1000.0) ==>
              text == nt.toFixed(Scale(n, 1000.0), 2) + "K"
    ensures !AtLeast(Abs(n), 1000.0) ==> text == nt.toFixed(n, 2)
  {
    var u := CompactUnitOf(n);
    nt.toFixed(Scale(n, Divisor(u)), 2) + Suffix(u)
  }

  /** With a letter the printed magnitude is at least 1, and below the
      billions it is under 1000: the unit is the largest one that fits. */
  lemma CompactScaledRange(x: real)
    ensures var u := CompactUnitOf(Finite(x));
            var m := (if x < 0.0 then -x else x) / Divisor(u);
            (u != Units ==> m >= 1.0) && (u != Billions ==> m < 1000.0)
  {
    var a := if x < 0.0 then -x else x;
    var u := CompactUnitOf(Finite(x));
    assert Abs(Finite(x)) == Finite(a);
    DivisionBounds(a, Divisor(u));
  }

  /** The units in increasing size. */
  function UnitRank(u: CompactUnit): nat {
    match u
    case Units => 0
    case Thousands => 1
    case Millions => 2
    case Billions => 3
  }

  /** A larger magnitude never gets a smaller unit, and a value and its
      negation get the same one. */
  lemma CompactUnitMonotone(x: real, y: real)
    requires (if x < 0.0 then -x else x) <= (if y < 0.0 then -y else y)
    ensures UnitRank(CompactUnitOf(Finite(x))) <= UnitRank(CompactUnitOf(Finite(y)))
    ensures CompactUnitOf(Finite(x)) == CompactUnitOf(Finite(-x))
  {
  }

  lemma DivisionBounds(a: real, d: real)
    requires d > 0.0 && a >= 0.0
    ensures a >= d ==> a / d >= 1.0
    ensures a < 1000.0 * d ==> a / d < 1000.0
  {
    var q := a / d;
    assert q * d == a;
    if q >= 1000.0 {
      assert (q - 1000.0) * d >= 0.0;
    }
    if a >= d {
      assert (q - 1.0) * d == a - d;
    }
  }

  // ---------------------------------------------------------------------
  // Profit and loss

  datatype PnlText = PnlText(text: string, colorClass: string)

  const Gray := "text-gray-500"
  const Green := "text-green-400"
  const Red := "text-red-400"

  /** `formatPnL`: a signed dollar amount, green for a gain and red for a
      loss; zero, and anything else that is neither (NaN), reads "$0.00". */
  function FormatPnl(value: Option<JsNumber>, nt: NumberText): (p: PnlText)
    ensures value.None? ==> p == PnlText("-", Gray)
    ensures p.colorClass == Green <==> value.Some? && Above(value.value, 0.0)
    ensures p.colorClass == Red <==> value.Some? && Below(value.value, 0.0)
    ensures value.Some? && Above(value.value, 0.0) ==>
              p.text == "+$" + FormatPrice(Num(Abs(value.value)), nt)
    ensures value.Some? && Below(value.value, 0.0) ==>
              p.text == "-$" + FormatPrice(Num(Abs(value.value)), nt)
    ensures value.Some? && !Above(value.value, 0.0) && !Below(value.value, 0.0) ==> p == PnlText("$0.00", Gray)
  {
    if value.None? then PnlText("-", Gray)
    else
      var v := value.value;
      var prefix := if AtLeast(v, 0.0) then "+$" else "-$";
      var text := prefix + FormatPrice(Num(Abs(v)), nt);
      if Above(v, 0.0) then PnlText(text, Green)
      else if Below(v, 0.0) then PnlText(text, Red)
      else PnlText("$0.00", Gray)
  }

  /** A gain and the loss of the same size differ only in sign and
      colour. */
  lemma PnlMirror(x: real, nt: NumberText)
    requires x > 0.0
    ensures var gain := FormatPnl(Some(Finite(x)), nt);
            var loss := FormatPnl(Some(Finite(-x)), nt);
            gain.text[..2] == "+$" && loss.text[..2] == "-$" && gain.text[2..] == loss.text[2..]
            && gain.colorClass == Green && loss.colorClass == Red
  {
    assert Abs(Finite(-x)) == Finite(x);
  }

  /** A NaN profit is shown like a zero one. */
  lemma NaNPnlReadsZero(nt: NumberText)
    ensures FormatPnl(Some(NaN), nt) == FormatPnl(Some(Finite(0.0)), nt) == PnlText("$0.00", Gray)
  {
  }
}

=== FILE: language.dfy ===
/** The interface-language context: the thirty supported languages, the
    dictionaries (English as the base, nine languages with their own
    entries, twenty that reuse English), the translation lookup with its
    fallbacks, the language chosen at start-up from the stored setting,
    and the current flag. The dictionaries' texts are a parameter. */
module Language {
  import opened Wrappers

  /** A language's flag and its tier in the picker. */
  datatype LanguageInfo = LanguageInfo(flag: string, tier: nat)

  /** The thirty supported languages by code. The picker's order is not
      modelled. */
  const Languages: map<string, LanguageInfo> := map[
    "en" := LanguageInfo("🇺🇸", 1), "zh" := LanguageInfo("🇨🇳", 1), "ja" := LanguageInfo("🇯🇵", 1),
    "ko" := LanguageInfo("🇰🇷", 1), "ru" := LanguageInfo("🇷🇺", 1), "es" := LanguageInfo("🇪🇸", 1),
    "pt" := LanguageInfo("🇧🇷", 1), "tr" := LanguageInfo("🇹🇷", 1), "vi" := LanguageInfo("🇻🇳", 1),
    "th" := LanguageInfo("🇹🇭", 1), "hi" := LanguageInfo("🇮🇳", 2), "id" := LanguageInfo("🇮🇩", 2),
    "ar" := LanguageInfo("🇸🇦", 2), "fr" := LanguageInfo("🇫🇷", 2), "de" := LanguageInfo("🇩🇪", 2),
    "it" := LanguageInfo("🇮🇹", 2), "nl" := LanguageInfo("🇳🇱", 2), "tl" := LanguageInfo("🇵🇭", 2),
    "ms" := LanguageInfo("🇲🇾", 2), "pl" := LanguageInfo("🇵🇱", 3), "uk" := LanguageInfo("🇺🇦", 3),
    "ro" := LanguageInfo("🇷🇴", 3), "cs" := LanguageInfo("🇨🇿", 3), "hu" := LanguageInfo("🇭🇺", 3),
    "sv" := LanguageInfo("🇸🇪", 3), "da" := LanguageInfo("🇩🇰", 3), "fi" := LanguageInfo("🇫🇮", 3),
    "no" := LanguageInfo("🇳🇴", 3), "el" := LanguageInfo("🇬🇷", 3), "bn" := LanguageInfo("🇧🇩", 3)
  ]

  const DefaultLanguage := "th"
  const DefaultFlag := "🇹🇭"

  /** The nine languages with entries of their own. */
  const OwnDictionaries: set<string> := {"th", "zh", "ja", "ko", "ru", "es", "pt", "tr", "vi"}

  /** The twenty languages whose dictionary is a copy of English. */
  const InheritedLanguages: set<string> := {
    "hi", "id", "ar", "fr", "de", "it", "nl", "tl", "ms", "pl",
    "uk", "ro", "cs", "hu", "sv", "da", "fi", "no", "el", "bn"}

  predicate Supported(code: string) {
    code in Languages
  }

  /** English, the nine own dictionaries and the twenty inherited ones are
      three separate groups. */
  lemma SeparateDictionaries()
    ensures OwnDictionaries !! InheritedLanguages
    ensures "en" !in OwnDictionaries && "en" !in InheritedLanguages
  {
  }

  // ---------------------------------------------------------------------
  // Dictionaries and lookup

  type Dictionary = map<string, string>

  /** The texts: the English base and the nine own dictionaries. */
  datatype Texts = Texts(base: Dictionary, own: map<string, Dictionary>)

  /** The dictionary a code selects, if any. */
  function DictionaryFor(code: string, texts: Texts): (d: Option<Dictionary>)
    ensures code == "en" || code in InheritedLanguages ==> d == Some(texts.base)
    ensures code in OwnDictionaries && code in texts.own ==> d == Some(texts.own[code])
  {
    SeparateDictionaries();
    if code == "en" || code in InheritedLanguages then Some(texts.base)
    else if code in OwnDictionaries && code in texts.own then Some(texts.own[code])
    else None
  }

  /** An entry, with a missing dictionary or key read as "" (both are falsy
      in the lookup). */
  function Entry(d: Option<Dictionary>, key: string): string {
    if d.Some? && key in d.value then d.value[key] else ""
  }

  /** `t(key)`: the current language's entry when non-empty, else the
      English one when non-empty, else the key itself. */
  function Translate(lang: string, key: string, texts: Texts): (text: string)
    ensures Entry(DictionaryFor(lang, texts), key) != "" ==> text == Entry(DictionaryFor(lang, texts), key)
    ensures Entry(DictionaryFor(lang, texts), key) == "" && Entry(Some(texts.base), key) != "" ==>
              text == texts.base[key]
    ensures Entry(DictionaryFor(lang, texts), key) == "" && Entry(Some(texts.base), key) == "" ==> text == key
  {
    var own := Entry(DictionaryFor(lang, texts), key);
    if own != "" then own
    else
      var english := Entry(DictionaryFor("en", texts), key);
      if english != "" then english else key
  }

  /** A translation is never empty unless the key itself is. */
  lemma TranslateNonEmpty(lang: string, key: string, texts: Texts)
    requires key != ""
    ensures Translate(lang, key, texts) != ""
  {
  }

  /** The twenty inherited languages read exactly like English. */
  lemma InheritedReadsLikeEnglish(code: string, key: string, texts: Texts)
    requires code in InheritedLanguages
    ensures Translate(code, key, texts) == Translate("en", key, texts)
  {
  }

  /** A code outside every dictionary falls back to English for every key. */
  lemma UnknownCodeReadsEnglish(code: string, key: string, texts: Texts)
    requires code != "en" && code !in InheritedLanguages && code !in OwnDictionaries
    ensures Translate(code, key, texts) == Translate("en", key, texts)
  {
  }

  /** Every language of the list has a dictionary. */
  lemma EveryListedLanguageHasDictionary(code: string)
    requires Supported(code)
    ensures code == "en" || code in OwnDictionaries || code in InheritedLanguages
  {
  }

  // ---------------------------------------------------------------------
  // Current language and flag

  /** The language at start-up: "th", replaced by the stored setting when
      that is a non-empty supported code. */
  function InitialLanguage(stored: Option<string>): (lang: string)
    ensures Supported(lang)
    ensures stored.Some? && stored.value != "" && Supported(stored.value) ==> lang == stored.value
    ensures !(stored.Some? && stored.value != "" && Supported(stored.value)) ==> lang == DefaultLanguage
  {
    if stored.Some? && stored.value != "" && Supported(stored.value) then stored.value
    else DefaultLanguage
  }

  /** Choosing a language switches to it at once and stores it; the next
      start-up comes back to it. The result is the current language and
      the stored value. */
  function SetLanguage(newLang: string): (state: (string, Option<string>))
    ensures state.0 == newLang
    ensures state.1 == Some(newLang)
  {
    (newLang, Some(newLang))
  }

  lemma ChosenLanguageSurvivesReload(newLang: string)
    requires Supported(newLang)
    ensures InitialLanguage(SetLanguage(newLang).1) == newLang
  {
  }

  /** The current language's flag, or the Thai flag for a code missing from
      the list. */
  function Flag(lang: string): (flag: string)
    ensures flag != ""
    ensures Supported(lang) ==> flag == Languages[lang].flag
    ensures !Supported(lang) ==> flag == DefaultFlag
  {
    if lang in Languages && Languages[lang].flag != "" then Languages[lang].flag else DefaultFlag
  }

  /** The flag shown at start-up is the listed flag of the start-up
      language: the stored one's when it is supported, else the Thai flag. */
  lemma StartupFlag(stored: Option<string>)
    ensures Flag(InitialLanguage(stored)) == Languages[InitialLanguage(stored)].flag
    ensures stored.Some? && Supported(stored.value) ==> Flag(InitialLanguage(stored)) == Languages[stored.value].flag
    ensures !(stored.Some? && Supported(stored.value)) ==> Flag(InitialLanguage(stored)) == DefaultFlag
  {
  }
}

=== FILE: middleware.dfy ===
/** The bearer-token guard in front of the protected routes, and the two
    helpers that read the caller's identity back from the request locals.
    Token verification (signature and expiry) is a parameter. */
module Middleware {
  import opened Wrappers
  import Text

  /** What a valid token carries. */
  datatype Claims = Claims(userId: nat, username: string)

  /** Every refusal answers 401. */
  datatype AuthFailure =
    | MissingHeader    // no Authorization header
    | MalformedHeader  // not exactly "Bearer" and one more space-free piece
    | InvalidToken     // verification failed

  const AuthFailureStatus := 401

  /** The token of a header of the form "Bearer <token>", found by splitting
      on single spaces: exactly two pieces and the first one "Bearer". */
  function BearerToken(header: string): (token: Option<string>)
    ensures token.Some? ==> ' ' !in token.value
  {
    var parts := Text.Split(header, ' ');
    if |parts| != 2 || parts[0] != "Bearer" then None else Some(parts[1])
  }

  /** The header is accepted exactly when it is "Bearer", one space, and a
      space-free token (which may be empty). */
  lemma BearerTokenIff(header: string, token: string)
    ensures BearerToken(header) == Some(token) <==> header == "Bearer " + token && ' ' !in token
  {
    if BearerToken(header) == Some(token) {
      var parts := Text.Split(header, ' ');
      Text.JoinSplit(header, ' ');
      assert parts == [parts[0]] + parts[1..];
      assert Text.Join(parts, " ") == "Bearer" + " " + token;
    }
    if header == "Bearer " + token && ' ' !in token {
      assert header == "Bearer" + [' '] + token;
      Text.SplitAfterPiece("Bearer", token, ' ');
      Text.SplitNoSeparator(token, ' ');
    }
  }

  /** A header that is not "Bearer " followed by a space-free rest is
      refused. */
  lemma NotBearerForm(header: string)
    requires !(|header| >= 7 && header[..7] == "Bearer " && ' ' !in header[7..])
    ensures BearerToken(header).None?
  {
    if BearerToken(header).Some? {
      var token := BearerToken(header).value;
      BearerTokenIff(header, token);
    }
  }

  /** An empty token passes the parsing and is left to verification. */
  lemma EmptyBearerTokenAccepted()
    ensures BearerToken("Bearer ") == Some("")
  {
    BearerTokenIff("Bearer ", "");
  }

  /** The scheme is case-sensitive. */
  lemma BearerSchemeCaseSensitive()
    ensures BearerToken("bearer abc").None?
  {
    assert "bearer abc"[..7][0] == 'b';
    NotBearerForm("bearer abc");
  }

  /** The spaces are counted exactly: a token with a space inside, or a
      second space before the token, is refused. */
  lemma BearerTokenWithSpaceRefused()
    ensures BearerToken("Bearer a b").None?
  {
    assert "Bearer a b"[7..][1] == ' ';
    NotBearerForm("Bearer a b");
  }

  lemma BearerDoubleSpaceRefused()
    ensures BearerToken("Bearer  abc").None?
  {
    assert "Bearer  abc"[7..][0] == ' ';
    NotBearerForm("Bearer  abc");
  }

  /** A value stored in the request locals, as the type assertion sees it. */
  datatype LocalValue = UintValue(n: nat) | StringValue(s: string) | OtherValue

  type Locals = map<string, LocalValue>

  /** The guard: on success the claims are returned and stored under
      "userID" and "username" for the handlers behind it. */
  function Authenticate(header: string, verify: string -> Option<Claims>, locals: Locals)
    : (r: Result<(Claims, Locals), AuthFailure>)
    ensures r == Err(MissingHeader) <==> header == ""
    ensures r == Err(MalformedHeader) <==> header != "" && BearerToken(header).None?
    ensures r == Err(InvalidToken) <==>
              header != "" && BearerToken(header).Some? && verify(BearerToken(header).value).None?
    ensures r.Ok? ==> BearerToken(header).Some? && Some(r.value.0) == verify(BearerToken(header).value)
    ensures r.Ok? ==> forall k :: k in locals && k != "userID" && k != "username" ==>
                        k in r.value.1 && r.value.1[k] == locals[k]
  {
    if header == "" then Err(MissingHeader)
    else
      var token := BearerToken(header);
      if token.None? then Err(MalformedHeader)
      else
        var claims := verify(token.value);
        if claims.None? then Err(InvalidToken)
        else Ok((claims.value, locals["userID" := UintValue(claims.value.userId)]
                                     ["username" := StringValue(claims.value.username)]))
  }

  /** The caller's id, or 0 when the locals hold no unsigned integer. */
  function CurrentUserId(locals: Locals): (id: nat)
    ensures "userID" !in locals || !locals["userID"].UintValue? ==> id == 0
  {
    if "userID" in locals && locals["userID"].UintValue? then locals["userID"].n else 0
  }

  /** The caller's name, or "" when the locals hold no string. */
  function CurrentUsername(locals: Locals): (name: string)
    ensures "username" !in locals || !locals["username"].StringValue? ==> name == ""
  {
    if "username" in locals && locals["username"].StringValue? then locals["username"].s else ""
  }

  /** Behind the guard the helpers give back exactly the verified claims. */
  lemma AuthenticatedIdentity(header: string, verify: string -> Option<Claims>, locals: Locals)
    requires Authenticate(header, verify, locals).Ok?
    ensures var r := Authenticate(header, verify, locals).value;
            CurrentUserId(r.1) == r.0.userId && CurrentUsername(r.1) == r.0.username
  {
  }

  /** A well-formed header whose token verifies always gets through. */
  lemma WellFormedHeaderPasses(token: string, verify: string -> Option<Claims>, locals: Locals)
    requires ' ' !in token && verify(token).Some?
    ensures Authenticate("Bearer " + token, verify, locals) == Ok((verify(token).value,
              locals["userID" := UintValue(verify(token).value.userId)]
                    ["username" := StringValue(verify(token).value.username)]))
  {
    BearerTokenIff("Bearer " + token, token);
  }
}

=== FILE: position_calculator.dfy ===
/** The server-side position-size calculator: a price-weighted average stop,
    an absolute entry-to-stop distance, and a fee charged on both the entry
    and the stop price. Values are modelled before the final rounding. */
module PositionCalculator {
  import opened Wrappers

  datatype StopLoss = StopLoss(price: real, weight: real)

  datatype CalculationInput = CalculationInput(
    balance: real,
    riskPercent: real,
    entryPrice: real,
    stopLosses: seq<StopLoss>,
    leverage: real,
    feeRate: real)

  datatype CalculationResult = CalculationResult(
    positionSizeUSD: real,
    positionQuantity: real,
    weightedAvgSL: real,
    totalFeeEstimate: real)

  /** The rejections, one per message the validator and the sizing step can return. */
  datatype CalcError =
    | BalanceNotPositive
    | RiskOutOfRange
    | EntryNotPositive
    | NoStopLoss
    | StopPriceNotPositive
    | StopWeightNotPositive
    | NegativeLeverage
    | NegativeFee
    | ZeroDistance

  // ---------------------------------------------------------------------
  // Weighted average stop

  function PriceWeightSum(stops: seq<StopLoss>): real
    decreases |stops|
  {
    if |stops| == 0 then 0.0
    else PriceWeightSum(stops[..|stops| - 1]) + stops[|stops| - 1].price * stops[|stops| - 1].weight
  }

  function WeightSum(stops: seq<StopLoss>): real
    decreases |stops|
  {
    if |stops| == 0 then 0.0 else WeightSum(stops[..|stops| - 1]) + stops[|stops| - 1].weight
  }

  /** Reference definition: Σ price·weight / Σ weight, or 0 when the weights sum to 0. */
  function WeightedAvgSL(stops: seq<StopLoss>): (avg: real)
    ensures WeightSum(stops) == 0.0 ==> avg == 0.0
    ensures WeightSum(stops) != 0.0 ==> avg * WeightSum(stops) == PriceWeightSum(stops)
  {
    if WeightSum(stops) == 0.0 then 0.0 else PriceWeightSum(stops) / WeightSum(stops)
  }

  /** The accumulation loop of the Go code. */
  method CalculateWeightedSL(stops: seq<StopLoss>) returns (avg: real)
    ensures avg == WeightedAvgSL(stops)
  {
    var totalWeight := 0.0;
    var weightedSum := 0.0;
    var i := 0;
    while i < |stops|
      invariant 0 <= i <= |stops|
      invariant weightedSum == PriceWeightSum(stops[..i])
      invariant totalWeight == WeightSum(stops[..i])
    {
      assert stops[..i + 1][..i] == stops[..i];
      weightedSum := weightedSum + stops[i].price * stops[i].weight;
      totalWeight := totalWeight + stops[i].weight;
      i := i + 1;
    }
    assert stops[..i] == stops;
    if totalWeight == 0.0 {
      return 0.0;
    }
    avg := weightedSum / totalWeight;
  }

  /** With non-negative weights, a lower and an upper bound on every price
      bound Σ price·weight by the same multiple of Σ weight. */
  lemma {:induction false} PriceWeightSumBounds(stops: seq<StopLoss>, lo: real, hi: real)
    requires forall k :: 0 <= k < |stops| ==> stops[k].weight >= 0.0 && lo <= stops[k].price <= hi
    ensures WeightSum(stops) >= 0.0
    ensures lo * WeightSum(stops) <= PriceWeightSum(stops) <= hi * WeightSum(stops)
    decreases |stops|
  {
    if |stops| > 0 {
      var prefix, last := stops[..|stops| - 1], stops[|stops| - 1];
      PriceWeightSumBounds(prefix, lo, hi);
      BoundsStep(lo, hi, WeightSum(prefix), PriceWeightSum(prefix), last.price, last.weight);
    }
  }

  /** One more stop keeps the sums between the bounds. */
  lemma BoundsStep(lo: real, hi: real, w: real, pw: real, p: real, lw: real)
    requires lo * w <= pw <= hi * w
    requires lo <= p <= hi && lw >= 0.0
    ensures lo * (w + lw) <= pw + p * lw <= hi * (w + lw)
  {
    assert (p - lo) * lw >= 0.0;
    assert (hi - p) * lw >= 0.0;
  }

  lemma {:induction false} PositiveWeightsSum(stops: seq<StopLoss>)
    requires |stops| > 0
    requires forall k :: 0 <= k < |stops| ==> stops[k].weight > 0.0
    ensures WeightSum(stops) > 0.0
    decreases |stops|
  {
    if |stops| > 1 {
      PositiveWeightsSum(stops[..|stops| - 1]);
    }
  }

  /** With positive weights, the average stop lies between the lowest and the
      highest stop price. */
  lemma WeightedAvgSLBetween(stops: seq<StopLoss>, lo: real, hi: real)
    requires |stops| > 0
    requires forall k :: 0 <= k < |stops| ==> stops[k].weight > 0.0 && lo <= stops[k].price <= hi
    ensures lo <= WeightedAvgSL(stops) <= hi
  {
    PriceWeightSumBounds(stops, lo, hi);
    PositiveWeightsSum(stops);
    AverageBetween(lo, hi, PriceWeightSum(stops), WeightSum(stops), WeightedAvgSL(stops));
  }

  /** A quotient whose numerator lies between lo·w and hi·w lies between lo
      and hi. */
  lemma AverageBetween(lo: real, hi: real, pw: real, w: real, avg: real)
    requires w > 0.0 && lo * w <= pw <= hi * w && avg * w == pw
    ensures lo <= avg <= hi
  {
    CancelFactor(lo, avg, w);
    CancelFactor(avg, hi, w);
  }

  /** A positive common factor can be cancelled from both sides of `<=`. */
  lemma CancelFactor(a: real, b: real, w: real)
    requires w > 0.0 && a * w <= b * w
    ensures a <= b
  {
  }

  // ---------------------------------------------------------------------
  // Validation

  predicate StopValid(s: StopLoss) {
    s.price > 0.0 && s.weight > 0.0
  }

  /** The error for the first stop that fails, its price checked before its weight. */
  function FirstBadStop(stops: seq<StopLoss>): (e: Option<CalcError>)
    ensures e == None <==> forall k :: 0 <= k < |stops| ==> StopValid(stops[k])
    ensures e == None || e == Some(StopPriceNotPositive) || e == Some(StopWeightNotPositive)
    decreases |stops|
  {
    if |stops| == 0 then None
    else if stops[0].price <= 0.0 then Some(StopPriceNotPositive)
    else if stops[0].weight <= 0.0 then Some(StopWeightNotPositive)
    else
      var rest := FirstBadStop(stops[1..]);
      assert forall k :: 1 <= k < |stops| ==> stops[k] == stops[1..][k - 1];
      rest
  }

  /** The stop at index `k` is the first invalid one. */
  predicate FirstInvalidAt(stops: seq<StopLoss>, k: int) {
    0 <= k < |stops| && !StopValid(stops[k]) && forall j :: 0 <= j < k ==> StopValid(stops[j])
  }

  /** The reported stop error describes the first invalid stop: a bad price
      wins over a bad weight on the same stop, and later stops are never
      looked at. */
  lemma {:induction false} FirstBadStopOrder(stops: seq<StopLoss>, k: int)
    requires FirstInvalidAt(stops, k)
    ensures stops[k].price <= 0.0 ==> FirstBadStop(stops) == Some(StopPriceNotPositive)
    ensures stops[k].price > 0.0 ==> FirstBadStop(stops) == Some(StopWeightNotPositive)
    decreases |stops|
  {
    if k > 0 {
      assert StopValid(stops[0]);
      assert forall j :: 0 <= j < k - 1 ==> stops[1..][j] == stops[j + 1];
      FirstBadStopOrder(stops[1..], k - 1);
    }
  }

  /** The ordered validator: the first failing check decides the error. */
  function ValidateInput(input: CalculationInput): (e: Option<CalcError>)
    ensures input.balance <= 0.0 ==> e == Some(BalanceNotPositive)
    ensures input.balance > 0.0 && (input.riskPercent <= 0.0 || input.riskPercent > 100.0) ==> e == Some(RiskOutOfRange)
    ensures input.balance > 0.0 && 0.0 < input.riskPercent <= 100.0 && input.entryPrice <= 0.0 ==> e == Some(EntryNotPositive)
    ensures input.balance > 0.0 && 0.0 < input.riskPercent <= 100.0 && input.entryPrice > 0.0 ==>
              (|input.stopLosses| == 0 ==> e == Some(NoStopLoss))
              && (|input.stopLosses| > 0 && FirstBadStop(input.stopLosses).Some? ==> e == FirstBadStop(input.stopLosses))
    ensures e == Some(NegativeLeverage) <==> PassesStopChecks(input) && input.leverage < 0.0
    ensures e == Some(NegativeFee) <==> PassesStopChecks(input) && input.leverage >= 0.0 && input.feeRate < 0.0
    ensures e == None <==> Acceptable(input)
  {
    if input.balance <= 0.0 then Some(BalanceNotPositive)
    else if input.riskPercent <= 0.0 || input.riskPercent > 100.0 then Some(RiskOutOfRange)
    else if input.entryPrice <= 0.0 then Some(EntryNotPositive)
    else if |input.stopLosses| == 0 then Some(NoStopLoss)
    else if FirstBadStop(input.stopLosses).Some? then FirstBadStop(input.stopLosses)
    else if input.leverage < 0.0 then Some(NegativeLeverage)
    else if input.feeRate < 0.0 then Some(NegativeFee)
    else None
  }

  /** Balance, risk, entry and every stop are acceptable. */
  predicate PassesStopChecks(input: CalculationInput) {
    && input.balance > 0.0
    && 0.0 < input.riskPercent <= 100.0
    && input.entryPrice > 0.0
    && |input.stopLosses| > 0
    && (forall k :: 0 <= k < |input.stopLosses| ==> StopValid(input.stopLosses[k]))
  }

  /** Independent statement of what the validator accepts. */
  predicate Acceptable(input: CalculationInput) {
    PassesStopChecks(input) && input.leverage >= 0.0 && input.feeRate >= 0.0
  }

  // ---------------------------------------------------------------------
  // Sizing

  function Abs(x: real): real {
    if x < 0.0 then -x else x
  }

  function RiskAmount(input: CalculationInput): real {
    input.balance * (input.riskPercent / 100.0)
  }

  /** Entry-to-stop distance plus the fee paid at entry and at the stop. */
  function AdjustedDivisor(input: CalculationInput): real {
    var avg := WeightedAvgSL(input.stopLosses);
    Abs(input.entryPrice - avg) + input.entryPrice * input.feeRate + avg * input.feeRate
  }

  function CalculatePositionSize(input: CalculationInput): (r: Result<CalculationResult, CalcError>)
    ensures !Acceptable(input) ==> r == Err(ValidateInput(input).value)
    ensures Acceptable(input) ==> (r == Err(ZeroDistance) <==> AdjustedDivisor(input) == 0.0)
    ensures Acceptable(input) ==> r.Ok? || r == Err(ZeroDistance)
    ensures r.Ok? ==>
              && Acceptable(input)
              && r.value.positionQuantity * AdjustedDivisor(input) == input.balance * input.riskPercent / 100.0
              && r.value.positionSizeUSD == r.value.positionQuantity * input.entryPrice
              && r.value.totalFeeEstimate == r.value.positionSizeUSD * input.feeRate * 2.0
              && r.value.weightedAvgSL == WeightedAvgSL(input.stopLosses)
  {
    match ValidateInput(input)
    case Some(e) => Err(e)
    case None =>
      if AdjustedDivisor(input) == 0.0 then Err(ZeroDistance)
      else Ok(Sized(input))
  }

  /** Quantity, dollar size and round-trip fee once the divisor is known to be non-zero. */
  function Sized(input: CalculationInput): CalculationResult
    requires AdjustedDivisor(input) != 0.0
  {
    var positionQuantity := RiskAmount(input) / AdjustedDivisor(input);
    var positionSizeUSD := positionQuantity * input.entryPrice;
    var totalFeeEstimate := positionSizeUSD * input.feeRate * 2.0;
    CalculationResult(positionSizeUSD, positionQuantity, WeightedAvgSL(input.stopLosses), totalFeeEstimate)
  }

  /** On accepted input the average stop is positive, so the divisor is zero
      exactly when entry equals the average stop and the fee is zero. */
  lemma ZeroDivisorIff(input: CalculationInput)
    requires Acceptable(input)
    ensures CalculatePositionSize(input) == Err(ZeroDistance) <==>
              input.entryPrice == WeightedAvgSL(input.stopLosses) && input.feeRate == 0.0
  {
    AvgPositive(input.stopLosses);
    DivisorZero(input.entryPrice, WeightedAvgSL(input.stopLosses), input.feeRate);
  }

  lemma DivisorZero(entry: real, avg: real, fee: real)
    requires entry > 0.0 && avg > 0.0 && fee >= 0.0
    ensures Abs(entry - avg) + entry * fee + avg * fee == 0.0 <==> entry == avg && fee == 0.0
  {
    assert entry * fee + avg * fee == (entry + avg) * fee;
    if fee > 0.0 {
      assert (entry + avg) * fee > 0.0;
    }
  }

  /** Positive prices and weights give a positive average stop. */
  lemma {:induction false} AvgPositive(stops: seq<StopLoss>)
    requires |stops| > 0
    requires forall k :: 0 <= k < |stops| ==> StopValid(stops[k])
    ensures WeightedAvgSL(stops) > 0.0
  {
    PositiveWeightsSum(stops);
    PriceWeightSumPositive(stops);
    var w := WeightSum(stops);
    var avg := WeightedAvgSL(stops);
    assert avg * w == PriceWeightSum(stops);
    CancelFactor(0.0, avg, w);
  }

  lemma {:induction false} PriceWeightSumPositive(stops: seq<StopLoss>)
    requires |stops| > 0
    requires forall k :: 0 <= k < |stops| ==> StopValid(stops[k])
    ensures PriceWeightSum(stops) > 0.0
    decreases |stops|
  {
    var last := stops[|stops| - 1];
    assert last.price * last.weight > 0.0;
    if |stops| > 1 {
      PriceWeightSumPositive(stops[..|stops| - 1]);
    }
  }

  /** Leverage is only validated: any two non-negative leverages give the same result. */
  lemma LeverageIgnored(input: CalculationInput, leverage: real)
    requires input.leverage >= 0.0 && leverage >= 0.0
    ensures CalculatePositionSize(input) == CalculatePositionSize(input.(leverage := leverage))
  {
    var input' := input.(leverage := leverage);
    assert PassesStopChecks(input) == PassesStopChecks(input');
    assert ValidateInput(input) == ValidateInput(input');
    assert input'.stopLosses == input.stopLosses && input'.entryPrice == input.entryPrice && input'.feeRate == input.feeRate;
    assert AdjustedDivisor(input) == AdjustedDivisor(input');
    if AdjustedDivisor(input) != 0.0 {
      assert RiskAmount(input) == RiskAmount(input');
      assert Sized(input) == Sized(input');
    }
  }

  /** The single-stop example (1000 balance, 1 % risk, entry 100, stop 99)
      at any non-negative fee: the divisor is 1 + 199·fee. */
  lemma SingleStopExample(fee: real)
    requires fee >= 0.0
    ensures var r := CalculatePositionSize(CalculationInput(1000.0, 1.0, 100.0, [StopLoss(99.0, 1.0)], 1.0, fee));
            r.Ok? && r.value.positionQuantity == 10.0 / (1.0 + 199.0 * fee)
            && r.value.positionSizeUSD == 10.0 / (1.0 + 199.0 * fee) * 100.0
  {
    var stops := [StopLoss(99.0, 1.0)];
    assert stops[..0] == [];
    assert WeightSum(stops) == 1.0;
    assert PriceWeightSum(stops) == 99.0;
    var input := CalculationInput(1000.0, 1.0, 100.0, stops, 1.0, fee);
    var d := AdjustedDivisor(input);
    assert d == 1.0 + 199.0 * fee;
  }

  /** Without a fee the example gives 10 units worth 1000. */
  lemma FeeFreeExample()
    ensures var r := CalculatePositionSize(CalculationInput(1000.0, 1.0, 100.0, [StopLoss(99.0, 1.0)], 1.0, 0.0));
            r.Ok? && r.value.positionQuantity == 10.0 && r.value.positionSizeUSD == 1000.0
  {
    SingleStopExample(0.0);
  }

  /** Two equally weighted stops at 99 and 98 average to 98.5, so the
      quantity is 10 / 1.5. */
  lemma SplitStopExample()
    ensures CalculatePositionSize(CalculationInput(1000.0, 1.0, 100.0, [StopLoss(99.0, 0.5), StopLoss(98.0, 0.5)], 1.0, 0.0))
            == Ok(CalculationResult(10.0 / 1.5 * 100.0, 10.0 / 1.5, 98.5, 0.0))
  {
    var stops := [StopLoss(99.0, 0.5), StopLoss(98.0, 0.5)];
    assert stops[..1] == [StopLoss(99.0, 0.5)];
    assert stops[..1][..0] == [];
    assert WeightSum(stops) == 1.0;
    assert PriceWeightSum(stops) == 98.5;
    var input := CalculationInput(1000.0, 1.0, 100.0, stops, 1.0, 0.0);
    assert StopValid(stops[0]) && StopValid(stops[1]);
    assert ValidateInput(input) == None;
    assert WeightedAvgSL(stops) == 98.5;
    assert AdjustedDivisor(input) == 1.5;
    assert RiskAmount(input) == 10.0;
    assert Sized(input) == CalculationResult(10.0 / 1.5 * 100.0, 10.0 / 1.5, 98.5, 0.0);
  }

  /** Any positive fee makes the example position strictly smaller than the
      fee-free 1000. */
  lemma PositiveFeeShrinksExample(fee: real)
    requires fee > 0.0
    ensures var r := CalculatePositionSize(CalculationInput(1000.0, 1.0, 100.0, [StopLoss(99.0, 1.0)], 1.0, fee));
            r.Ok? && r.value.positionSizeUSD < 1000.0
  {
    SingleStopExample(fee);
    assert 10.0 / (1.0 + 199.0 * fee) < 10.0;
  }
}

=== FILE: price_ticker.dfy ===
/** The price strip at the top of the page: five instruments, each shown
    with its last price (decimals chosen by instrument and magnitude) and
    its 24-hour change with a sign, or with a loading or error marker. The
    exchange request is given by its outcome; number rendering is a
    parameter. */
module PriceTicker {
  import opened Wrappers
  import Format

  /** An instrument: the exchange's symbol and the name shown. */
  datatype TickerConfig = TickerConfig(symbol: string, displayName: string)

  const Tickers: seq<TickerConfig> := [
    TickerConfig("BTCUSDT", "BTC"), TickerConfig("ETHUSDT", "ETH"), TickerConfig("SOLUSDT", "SOL"),
    TickerConfig("BNBUSDT", "BNB"), TickerConfig("PAXGUSDT", "GOLD")]

  /** What is shown for one instrument: its price and change. */
  datatype TickerData = TickerData(config: TickerConfig, price: Format.JsNumber, changePercent: Format.JsNumber,
                                   loading: bool, error: bool)

  /** What the exchange returned: the parsed last price and change, or a
      failure (an error status or a thrown request). */
  datatype FetchResult = Fetched(lastPrice: Format.JsNumber, change: Format.JsNumber) | FetchFailed

  /** A failed fetch shows a zero price and change, flagged as an error. */
  function AfterFetch(config: TickerConfig, r: FetchResult): (t: TickerData)
    ensures t.config == config && !t.loading
    ensures t.error <==> r.FetchFailed?
    ensures r.Fetched? ==> t.price == r.lastPrice && t.changePercent == r.change
    ensures r.FetchFailed? ==> t.price == Format.Finite(0.0) && t.changePercent == Format.Finite(0.0)
  {
    match r
    case Fetched(p, c) => TickerData(config, p, c, false, false)
    case FetchFailed => TickerData(config, Format.Finite(0.0), Format.Finite(0.0), false, true)
  }

  // ---------------------------------------------------------------------
  // Price

  const NoPrice := "---"

  /** Decimals for a shown price, or None for a zero price: GOLD always 2;
      any other 0 from 1000 up, 2 from 1 up, else 4 (NaN and negatives
      included). */
  function TickerDecimals(price: Format.JsNumber, name: string): (d: Option<nat>)
    ensures d.None? <==> price == Format.Finite(0.0)
    ensures d.Some? ==> d.value == 0 || d.value == 2 || d.value == 4
    ensures d.Some? && name == "GOLD" ==> d.value == 2
    ensures d.Some? && name != "GOLD" ==>
              (d.value == 0 <==> Format.AtLeast(price, 1000.0))
              && (d.value == 2 <==> Format.AtLeast(price, 1.0) && !Format.AtLeast(price, 1000.0))
              && (d.value == 4 <==> !Format.AtLeast(price, 1.0))
  {
    if price == Format.Finite(0.0) then None
    else if name == "GOLD" then Some(2)
    else if Format.AtLeast(price, 1000.0) then Some(0)
    else if Format.AtLeast(price, 1.0) then Some(2)
    else Some(4)
  }

  /** `formatPrice`: "---" for zero, else the en-US text with those decimals. */
  function FormatPrice(price: Format.JsNumber, name: string, localeFixed: (Format.JsNumber, nat) -> string): (text: string)
    ensures price == Format.Finite(0.0) ==> text == NoPrice
    ensures price != Format.Finite(0.0) ==> text == localeFixed(price, TickerDecimals(price, name).value)
  {
    match TickerDecimals(price, name)
    case None => NoPrice
    case Some(d) => localeFixed(price, d)
  }

  /** For the crypto instruments a higher price never gets more decimals. */
  lemma TickerDecimalsAntitone(x: real, y: real, name: string)
    requires 0.0 < x <= y && name != "GOLD"
    ensures TickerDecimals(Format.Finite(y), name).value <= TickerDecimals(Format.Finite(x), name).value
  {
  }

  /** The strip never shows more decimals than the journal's own price
      formatter does for the same positive price. */
  lemma TickerNoFinerThanJournal(x: real, name: string)
    requires x > 0.0
    ensures TickerDecimals(Format.Finite(x), name).value <= Format.PriceDecimals(Format.Abs(Format.Finite(x)))
  {
  }

  // ---------------------------------------------------------------------
  // Change

  /** The change label: "+" in front exactly when the change is not
      negative (so a zero change reads "+0.00%"), then two decimals and
      "%". The colour follows the same test. */
  datatype ChangeLabel = ChangeLabel(text: string, rising: bool)

  function FormatChange(change: Format.JsNumber, toFixed: (Format.JsNumber, nat) -> string): (l: ChangeLabel)
    ensures l.rising <==> Format.AtLeast(change, 0.0)
    ensures Format.AtLeast(change, 0.0) ==> l.text == "+" + toFixed(change, 2) + "%"
    ensures !Format.AtLeast(change, 0.0) ==> l.text == toFixed(change, 2) + "%"
  {
    var rising := Format.AtLeast(change, 0.0);
    ChangeLabel((if rising then "+" else "") + toFixed(change, 2) + "%", rising)
  }

  /** The sign decides the prefix and nothing else: a change and its
      negation (both non-zero) get opposite prefixes. */
  lemma ChangeSignsOpposite(x: real, toFixed: (Format.JsNumber, nat) -> string)
    requires x != 0.0
    ensures FormatChange(Format.Finite(x), toFixed).rising != FormatChange(Format.Finite(-x), toFixed).rising
  {
  }

  /** NaN (an unparsable change) is shown without "+" and in the falling
      colour. */
  lemma NaNChangeFalls(toFixed: (Format.JsNumber, nat) -> string)
    ensures !FormatChange(Format.NaN, toFixed).rising
  {
  }

  // ---------------------------------------------------------------------
  // One instrument on screen

  /** Before the first fetch every instrument is loading, at price and
      change 0. */
  function InitialTicker(config: TickerConfig): (t: TickerData)
    ensures t.config == config && t.loading && !t.error
  {
    TickerData(config, Format.Finite(0.0), Format.Finite(0.0), true, false)
  }

  /** What an instrument shows under its name: "Loading...", "Error", or
      the price after "$" with the change label. */
  datatype TickerView = LoadingView | ErrorView | Quote(price: string, change: ChangeLabel)

  function Render(t: TickerData, localeFixed: (Format.JsNumber, nat) -> string,
                  toFixed: (Format.JsNumber, nat) -> string): (v: TickerView)
    ensures v.LoadingView? <==> t.loading
    ensures v.ErrorView? <==> !t.loading && t.error
    ensures v.Quote? ==>
              v.price == "$" + FormatPrice(t.price, t.config.displayName, localeFixed)
              && v.change == FormatChange(t.changePercent, toFixed)
  {
    if t.loading then LoadingView
    else if t.error then ErrorView
    else Quote("$" + FormatPrice(t.price, t.config.displayName, localeFixed), FormatChange(t.changePercent, toFixed))
  }

  /** The strip opens with every instrument loading. */
  lemma InitialShowsLoading(config: TickerConfig, localeFixed: (Format.JsNumber, nat) -> string,
                            toFixed: (Format.JsNumber, nat) -> string)
    ensures Render(InitialTicker(config), localeFixed, toFixed) == LoadingView
  {
  }

  /** An instrument whose fetch failed shows "Error", never a price: its
      zero price and change are not rendered. */
  lemma FailedFetchShowsError(config: TickerConfig, localeFixed: (Format.JsNumber, nat) -> string,
                              toFixed: (Format.JsNumber, nat) -> string)
    ensures Render(AfterFetch(config, FetchFailed), localeFixed, toFixed) == ErrorView
  {
  }

  /** A fetch that succeeds shows a quote; a last price of exactly 0 reads
      "$---". */
  lemma FetchedShowsQuote(config: TickerConfig, price: Format.JsNumber, change: Format.JsNumber,
                          localeFixed: (Format.JsNumber, nat) -> string, toFixed: (Format.JsNumber, nat) -> string)
    ensures Render(AfterFetch(config, Fetched(price, change)), localeFixed, toFixed).Quote?
    ensures price == Format.Finite(0.0) ==>
              Render(AfterFetch(config, Fetched(price, change)), localeFixed, toFixed).price == "$" + NoPrice
  {
  }
}

=== FILE: register_page.dfy ===
/** The sign-up page's submit handler: four ordered checks (username
    length, e-mail pattern, password length, confirmation), the call to the
    register endpoint, and the error it shows afterwards. Lengths are
    JavaScript lengths, counted in UTF-16 code units. */
module RegisterPage {
  import opened Wrappers
  import Text
  import Auth

  datatype RegisterForm = RegisterForm(username: string, email: string, password: string, confirmPassword: string)

  const MinUsernameLength := 3
  const MinPasswordLength := 6

  // ---------------------------------------------------------------------
  // The e-mail pattern

  /** A character the class `[^\s@]` accepts. */
  predicate EmailChar(c: char) {
    !Text.IsJsSpace(c) && c != '@'
  }

  /** The pattern `^[^\s@]+@[^\s@]+\.[^\s@]+$` read as a description: one
      '@' after a non-empty local part, no whitespace, and a '.' in the
      domain with at least one character on each side of it. */
  predicate MatchesEmailPattern(e: string) {
    exists at, dot :: 0 < at && at + 1 < dot < |e| - 1 && e[at] == '@' && e[dot] == '.'
                      && forall k :: 0 <= k < |e| && k != at ==> EmailChar(e[k])
  }

  predicate NoSpace(s: string) {
    forall k :: 0 <= k < |s| ==> !Text.IsJsSpace(s[k])
  }

  /** A '.' with at least one character before and after it. */
  predicate InnerDot(domain: string) {
    |domain| >= 3 && '.' in domain[1..|domain| - 1]
  }

  /** The test as a check: split at '@' into exactly two pieces, a
      non-empty local part, no whitespace, an inner dot in the domain. */
  predicate EmailOk(e: string) {
    var parts := Text.Split(e, '@');
    |parts| == 2 && parts[0] != "" && NoSpace(e) && InnerDot(parts[1])
  }

  /** The check accepts exactly the strings the pattern matches. */
  lemma EmailOkIffPattern(e: string)
    ensures EmailOk(e) <==> MatchesEmailPattern(e)
  {
    if EmailOk(e) {
      EmailOkMatches(e);
    }
    if MatchesEmailPattern(e) {
      var at, dot :| 0 < at && at + 1 < dot < |e| - 1 && e[at] == '@' && e[dot] == '.'
                     && forall k :: 0 <= k < |e| && k != at ==> EmailChar(e[k]);
      MatchIsEmailOk(e, at, dot);
    }
  }

  lemma EmailOkMatches(e: string)
    requires EmailOk(e)
    ensures MatchesEmailPattern(e)
  {
    var parts := Text.Split(e, '@');
    var a, b := parts[0], parts[1];
    assert parts == [a, b];
    Text.SplitTwoIff(e, '@', a, b);
    var i :| 1 <= i < |b| - 1 && b[i] == '.';
    var at, dot := |a|, |a| + 1 + i;
    assert e[at] == '@' && e[dot] == '.';
    forall k | 0 <= k < |e| && k != at
      ensures EmailChar(e[k])
    {
      if k < at {
        assert e[k] == a[k];
      } else {
        assert e[k] == b[k - at - 1];
      }
    }
  }

  lemma MatchIsEmailOk(e: string, at: int, dot: int)
    requires 0 < at && at + 1 < dot < |e| - 1 && e[at] == '@' && e[dot] == '.'
    requires forall k :: 0 <= k < |e| && k != at ==> EmailChar(e[k])
    ensures EmailOk(e)
  {
    var a, b := e[..at], e[at + 1..];
    assert e == a + ['@'] + b;
    assert '@' !in a by {
      forall k | 0 <= k < |a| ensures a[k] != '@' { assert a[k] == e[k]; }
    }
    assert '@' !in b by {
      forall k | 0 <= k < |b| ensures b[k] != '@' { assert b[k] == e[at + 1 + k]; }
    }
    Text.SplitTwoIff(e, '@', a, b);
    assert b[1..|b| - 1][dot - at - 2] == b[dot - at - 1] == '.';
    assert NoSpace(e) by {
      forall k | 0 <= k < |e| ensures !Text.IsJsSpace(e[k]) {
        if k != at { assert EmailChar(e[k]); }
      }
    }
  }

  /** Two addresses the page accepts: an ordinary one, and one whose domain
      has an empty label, which the pattern lets through. */
  lemma EmailAccepted()
    ensures EmailOk("me@x.io")
  {
    MatchIsEmailOk("me@x.io", 2, 4);
  }

  lemma EmailEmptyLabelAccepted()
    ensures EmailOk("a@b..c")
  {
    MatchIsEmailOk("a@b..c", 1, 3);
  }

  /** A domain without a dot, or with nothing before its dot, is refused. */
  lemma EmailWithoutInnerDotRefused()
    ensures !EmailOk("a@b")
    ensures !EmailOk("a@.c")
  {
    Text.SplitTwoIff("a@b", '@', "a", "b");
    Text.SplitTwoIff("a@.c", '@', "a", ".c");
  }

  /** An empty local part is refused. */
  lemma EmailWithoutLocalPartRefused()
    ensures !EmailOk("@b.c")
  {
    Text.SplitTwoIff("@b.c", '@', "", "b.c");
  }

  // ---------------------------------------------------------------------
  // Submit

  datatype FormError =
    | UsernameTooShort
    | InvalidEmail
    | PasswordTooShort
    | PasswordMismatch

  /** The first failing check, in the page's order. */
  function Validate(f: RegisterForm): (r: Option<FormError>)
    ensures r == Some(UsernameTooShort) <==> Text.Utf16Length(f.username) < MinUsernameLength
    ensures r == Some(InvalidEmail) <==>
              Text.Utf16Length(f.username) >= MinUsernameLength && !MatchesEmailPattern(f.email)
    ensures r == Some(PasswordTooShort) <==>
              Text.Utf16Length(f.username) >= MinUsernameLength && MatchesEmailPattern(f.email)
              && Text.Utf16Length(f.password) < MinPasswordLength
    ensures r == Some(PasswordMismatch) <==>
              Text.Utf16Length(f.username) >= MinUsernameLength && MatchesEmailPattern(f.email)
              && Text.Utf16Length(f.password) >= MinPasswordLength && f.password != f.confirmPassword
    ensures r.None? <==>
              Text.Utf16Length(f.username) >= MinUsernameLength && MatchesEmailPattern(f.email)
              && Text.Utf16Length(f.password) >= MinPasswordLength && f.password == f.confirmPassword
  {
    EmailOkIffPattern(f.email);
    if Text.Utf16Length(f.username) < MinUsernameLength then Some(UsernameTooShort)
    else if !EmailOk(f.email) then Some(InvalidEmail)
    else if Text.Utf16Length(f.password) < MinPasswordLength then Some(PasswordTooShort)
    else if f.password != f.confirmPassword then Some(PasswordMismatch)
    else None
  }

  /** Submit is greyed out while a request runs, and while a confirmation
      has been typed that differs from the password. */
  function SubmitDisabled(loading: bool, password: string, confirmPassword: string): (disabled: bool)
    ensures loading ==> disabled
    ensures !loading && (password == confirmPassword || confirmPassword == "") ==> !disabled
    ensures disabled && !loading ==> password != confirmPassword
  {
    loading || (confirmPassword != "" && password != confirmPassword)
  }

  /** A mismatch the button does not block: an empty confirmation under a
      non-empty password reaches the handler, which refuses it. */
  lemma EmptyConfirmationReachesHandler(f: RegisterForm)
    requires Validate(f.(confirmPassword := f.password)).None?
    requires f.confirmPassword == ""
    ensures !SubmitDisabled(false, f.password, f.confirmPassword)
    ensures Validate(f) == Some(PasswordMismatch)
  {
    assert Text.Utf16Length(f.password) >= MinPasswordLength;
  }

  /** A form the page sends is never refused by the endpoint for an empty
      field or a short password: the page's limits, in UTF-16 code units,
      are at least as strict as the endpoint's UTF-8 byte limits. It can
      still be refused for a taken name, or fail with a 500 when hashing
      fails; otherwise it is registered. */
  lemma PageChecksImplyEndpointChecks(f: RegisterForm, taken: set<string>, id: nat, hash: Option<string>)
    requires Validate(f).None?
    ensures var r := Auth.Register(Auth.RegisterRequest(f.username, f.email, f.password), taken, id, hash);
            && r != Err(Auth.MissingCredentials) && r != Err(Auth.PasswordTooShort)
            && (r == Err(Auth.UsernameTaken) <==> f.username in taken)
            && (r == Err(Auth.HashFailed) <==> f.username !in taken && hash.None?)
            && (r.Ok? <==> f.username !in taken && hash.Some?)
  {
    Text.Utf16AtMostUtf8(f.password);
  }

  /** The converse fails: three Thai letters and two digits are five UTF-16
      code units, which the page refuses as too short, but eleven UTF-8
      bytes, which the endpoint accepts. */
  lemma PageStricterThanEndpoint(taken: set<string>, id: nat, hash: string)
    requires "trader" !in taken
    ensures Text.Utf16Length("ไทย12") < MinPasswordLength
    ensures Auth.Register(Auth.RegisterRequest("trader", "", "ไทย12"), taken, id, Some(hash)).Ok?
  {
    assert Text.Utf8Length("ไทย12") == 11;
  }

  // ---------------------------------------------------------------------
  // After the call

  /** What the register call came back with. */
  datatype ApiResult =
    | Registered
    | NoResponse                                      // network error
    | Refused(error: Option<string>, message: Option<string>)

  const NetworkErrorText := "Network Error: ไม่สามารถเชื่อมต่อ Backend ได้"
  const GenericErrorText := "เกิดข้อผิดพลาด กรุณาลองใหม่"

  datatype PageState = PageState(error: string, isNetworkError: bool, success: bool)

  function NonEmpty(s: Option<string>): bool {
    s.Some? && s.value != ""
  }

  /** The page state after the call: success, the network error, or the
      endpoint's "error" text, else its "message" text, else a generic
      text. */
  function AfterCall(r: ApiResult): (s: PageState)
    ensures s.success <==> r.Registered?
    ensures s.isNetworkError <==> r.NoResponse?
    ensures r.Refused? ==> s.error != ""
    ensures r.Refused? && NonEmpty(r.error) ==> s.error == r.error.value
    ensures r.Refused? && !NonEmpty(r.error) && NonEmpty(r.message) ==> s.error == r.message.value
    ensures r.Refused? && !NonEmpty(r.error) && !NonEmpty(r.message) ==> s.error == GenericErrorText
  {
    match r
    case Registered => PageState("", false, true)
    case NoResponse => PageState(NetworkErrorText, true, false)
    case Refused(error, message) =>
      PageState(if NonEmpty(error) then error.value
                else if NonEmpty(message) then message.value
                else GenericErrorText, false, false)
  }

  /** The whole submit: either a validation error without any call, or the
      state after the call with `r` as its outcome. */
  datatype Submission = Rejected(error: FormError) | Called(request: Auth.RegisterRequest, state: PageState)

  function Submit(f: RegisterForm, r: ApiResult): (s: Submission)
    ensures s.Rejected? <==> Validate(f).Some?
    ensures s.Called? ==> s.request == Auth.RegisterRequest(f.username, f.email, f.password)
                          && s.state == AfterCall(r)
  {
    match Validate(f)
    case Some(e) => Rejected(e)
    case None => Called(Auth.RegisterRequest(f.username, f.email, f.password), AfterCall(r))
  }
}

=== FILE: reset_flow.dfy ===
/** The password-reset page: a four-step flow (ask for a code, confirm the
    code, choose a new password, done) driven by three endpoint calls, a
    60-second resend countdown, and the API base the calls go to. Each
    call is given by its outcome; the one-second timer is an event. */
module ResetFlow {
  import opened Wrappers
  import Text

  // ---------------------------------------------------------------------
  // API base

  const DefaultApiBase := "http://localhost:8080"

  /** The configured base (an unset or empty value falls back to the local
      server), without one trailing "/api", so that appending "/api/..."
      does not double it. */
  function ApiBase(configured: Option<string>): (base: string)
    ensures var raw := if configured.Some? && configured.value != "" then configured.value else DefaultApiBase;
            && (Text.EndsWith(raw, "/api") ==> base + "/api" == raw)
            && (!Text.EndsWith(raw, "/api") ==> base == raw)
  {
    var raw := if configured.Some? && configured.value != "" then configured.value else DefaultApiBase;
    if Text.EndsWith(raw, "/api") then raw[..|raw| - 4] else raw
  }

  /** Only one "/api" is removed. */
  lemma ApiBaseTrimsOnce(host: string)
    requires host != ""
    ensures ApiBase(Some(host + "/api/api")) == host + "/api"
    ensures ApiBase(Some(host + "/api")) == host
  {
    var s := host + "/api/api";
    assert s[|s| - 4..] == "/api";
    var t := host + "/api";
    assert t[|t| - 4..] == "/api";
  }

  // ---------------------------------------------------------------------
  // Page state

  datatype Step = EnterEmail | EnterCode | NewPassword | Done

  /** The steps in order: 1 to 4. */
  function StepNumber(s: Step): (n: nat)
    ensures 1 <= n <= 4
  {
    match s
    case EnterEmail => 1
    case EnterCode => 2
    case NewPassword => 3
    case Done => 4
  }

  datatype PageState = PageState(step: Step, countdown: nat, loading: bool, error: string)

  const Initial := PageState(EnterEmail, 0, false, "")
  const ResendDelay := 60

  /** How a call ended: a 2xx answer, another answer with its "message"
      (an absent message shows as ""), or a rejected fetch, after which the
      handler stops and the page stays loading. */
  datatype CallOutcome = Succeeded | Failed(message: string) | Thrown

  /** The common shape of every handler: loading and a cleared error while
      the call runs, then `onSuccess` or the failure's message. */
  function AfterCall(s: PageState, o: CallOutcome, onSuccess: PageState): (t: PageState)
    ensures o.Thrown? ==> t == s.(loading := true, error := "")
    ensures o.Failed? ==> t == s.(loading := false, error := o.message)
    ensures o.Succeeded? ==> t == onSuccess
  {
    match o
    case Thrown => s.(loading := true, error := "")
    case Failed(m) => s.(loading := false, error := m)
    case Succeeded => onSuccess
  }

  /** "Send code": ignored while the countdown runs; success starts the
      countdown and moves to the code step. */
  function RequestCode(s: PageState, o: CallOutcome): (t: PageState)
    ensures s.countdown > 0 ==> t == s
    ensures s.countdown == 0 && o.Succeeded? ==> t.step == EnterCode && t.countdown == ResendDelay && !t.loading
    ensures s.countdown == 0 && !o.Succeeded? ==> t.step == s.step && t.countdown == 0
    ensures s.countdown == 0 && o.Succeeded? ==> t.error == ""
    ensures s.countdown == 0 && o.Failed? ==> t == s.(loading := false, error := o.message)
    ensures s.countdown == 0 && o.Thrown? ==> t == s.(loading := true, error := "")
  {
    if s.countdown > 0 then s
    else AfterCall(s, o, PageState(EnterCode, ResendDelay, false, ""))
  }

  /** "Resend": like "Send code" but never changes the step. */
  function ResendCode(s: PageState, o: CallOutcome): (t: PageState)
    ensures t.step == s.step
    ensures s.countdown > 0 ==> t == s
    ensures s.countdown == 0 && o.Succeeded? ==> t.countdown == ResendDelay
    ensures s.countdown == 0 && !o.Succeeded? ==> t.countdown == 0
    ensures s.countdown == 0 && o.Succeeded? ==> !t.loading && t.error == ""
    ensures s.countdown == 0 && o.Failed? ==> t == s.(loading := false, error := o.message)
    ensures s.countdown == 0 && o.Thrown? ==> t == s.(loading := true, error := "")
  {
    if s.countdown > 0 then s
    else AfterCall(s, o, s.(countdown := ResendDelay, loading := false, error := ""))
  }

  /** "Confirm code": success moves to the new-password step. */
  function VerifyCode(s: PageState, o: CallOutcome): (t: PageState)
    ensures t.countdown == s.countdown
    ensures o.Succeeded? ==> t.step == NewPassword && !t.loading && t.error == ""
    ensures !o.Succeeded? ==> t.step == s.step
    ensures o.Failed? ==> t == s.(loading := false, error := o.message)
    ensures o.Thrown? ==> t == s.(loading := true, error := "")
  {
    AfterCall(s, o, s.(step := NewPassword, loading := false, error := ""))
  }

  /** "Reset": success moves to the final step. */
  function ResetPassword(s: PageState, o: CallOutcome): (t: PageState)
    ensures t.countdown == s.countdown
    ensures o.Succeeded? ==> t.step == Done && !t.loading && t.error == ""
    ensures !o.Succeeded? ==> t.step == s.step
    ensures o.Failed? ==> t == s.(loading := false, error := o.message)
    ensures o.Thrown? ==> t == s.(loading := true, error := "")
  {
    AfterCall(s, o, s.(step := Done, loading := false, error := ""))
  }

  /** One second of the countdown: down by one while positive, never below
      zero. */
  function Tick(s: PageState): (t: PageState)
    ensures s.countdown > 0 ==> t.countdown + 1 == s.countdown
    ensures s.countdown == 0 ==> t == s
    ensures t.(countdown := s.countdown) == s
  {
    if s.countdown > 0 then s.(countdown := s.countdown - 1) else s
  }

  /** "Go back" returns to the first step and touches nothing else. */
  function GoBack(s: PageState): (t: PageState)
    ensures t.step == EnterEmail && t.(step := s.step) == s
  {
    s.(step := EnterEmail)
  }

  // ---------------------------------------------------------------------
  // Runs of the page

  datatype Event =
    | Request(outcome: CallOutcome)
    | Resend(outcome: CallOutcome)
    | Verify(outcome: CallOutcome)
    | Reset(outcome: CallOutcome)
    | TimerTick
    | Back

  function Apply(s: PageState, e: Event): PageState {
    match e
    case Request(o) => RequestCode(s, o)
    case Resend(o) => ResendCode(s, o)
    case Verify(o) => VerifyCode(s, o)
    case Reset(o) => ResetPassword(s, o)
    case TimerTick => Tick(s)
    case Back => GoBack(s)
  }

  function Run(s: PageState, events: seq<Event>): PageState
    decreases |events|
  {
    if |events| == 0 then s else Run(Apply(s, events[0]), events[1..])
  }

  predicate Succeeds(e: Event) {
    match e
    case Request(o) => o.Succeeded?
    case Resend(o) => o.Succeeded?
    case Verify(o) => o.Succeeded?
    case Reset(o) => o.Succeeded?
    case TimerTick => false
    case Back => false
  }

  /** The countdown never exceeds the resend delay. */
  predicate CountdownBounded(s: PageState) {
    s.countdown <= ResendDelay
  }

  lemma ApplyKeepsCountdownBounded(s: PageState, e: Event)
    requires CountdownBounded(s)
    ensures CountdownBounded(Apply(s, e))
  {
  }

  lemma {:induction false} RunKeepsCountdownBounded(s: PageState, events: seq<Event>)
    requires CountdownBounded(s)
    ensures CountdownBounded(Run(s, events))
    decreases |events|
  {
    if |events| > 0 {
      ApplyKeepsCountdownBounded(s, events[0]);
      RunKeepsCountdownBounded(Apply(s, events[0]), events[1..]);
    }
  }

  /** Only a successful call or "Go back" changes the step; a failure or a
      tick keeps it. */
  lemma StepChangesOnlyOnSuccessOrBack(s: PageState, e: Event)
    requires !Succeeds(e) && !e.Back?
    ensures Apply(s, e).step == s.step
  {
  }

  /** Three successful calls from a fresh page reach the final step; the
      code step starts with a full countdown. */
  lemma HappyPath()
    ensures Apply(Initial, Request(Succeeded)) == PageState(EnterCode, ResendDelay, false, "")
    ensures Run(Initial, [Request(Succeeded), Verify(Succeeded), Reset(Succeeded)]).step == Done
  {
    var s1 := Apply(Initial, Request(Succeeded));
    var s2 := Apply(s1, Verify(Succeeded));
    var s3 := Apply(s2, Reset(Succeeded));
    assert Run(s3, []) == s3;
    assert Run(s2, [Reset(Succeeded)]) == Run(s3, []);
    assert Run(s1, [Verify(Succeeded), Reset(Succeeded)]) == Run(s2, [Reset(Succeeded)]);
  }

  /** While the countdown runs a second request is ignored, whatever its
      outcome would have been. */
  lemma RequestBlockedWhileCounting(s: PageState, o: CallOutcome)
    requires s.countdown > 0
    ensures RequestCode(s, o) == s && ResendCode(s, o) == s
  {
  }

  /** Once as many ticks as the countdown showed have passed, a resend goes
      through again and restarts the countdown. */
  lemma ResendAllowedAfterCountdown(s: PageState)
    ensures ResendCode(Run(s, seq(s.countdown, _ => TimerTick)), Succeeded).countdown == ResendDelay
  {
    TicksCountDown(s, s.countdown);
  }

  /** `n` ticks take the countdown down by `n`, stopping at zero. */
  lemma {:induction false} TicksCountDown(s: PageState, n: nat)
    ensures Run(s, seq(n, _ => TimerTick)).countdown == if n <= s.countdown then s.countdown - n else 0
    ensures Run(s, seq(n, _ => TimerTick)).step == s.step
    decreases n
  {
    if n > 0 {
      var ticks := seq(n, _ => TimerTick);
      assert ticks[1..] == seq(n - 1, _ => TimerTick);
      TicksCountDown(Tick(s), n - 1);
    }
  }
}

=== FILE: sequences.dfy ===
/** Generic sequence vocabulary shared by the list-shaped operations:
    order-preserving filtering and the subsequence relation it satisfies. */
module Sequences {

  /** `a` can be obtained from `b` by deleting elements, keeping the order
      of the rest. */
  predicate IsSubsequence<T(==)>(a: seq<T>, b: seq<T>)
    decreases |b|
  {
    if |b| == 0 then |a| == 0
    else
      (|a| > 0 && a[|a| - 1] == b[|b| - 1] && IsSubsequence(a[..|a| - 1], b[..|b| - 1]))
      || IsSubsequence(a, b[..|b| - 1])
  }

  /** Number of elements of `s` that satisfy `keep`. */
  function CountWhere<T>(s: seq<T>, keep: T -> bool): nat
  {
    if |s| == 0 then 0
    else CountWhere(s[..|s| - 1], keep) + (if keep(s[|s| - 1]) then 1 else 0)
  }

  /** The elements of `s` satisfying `keep`, in their original order. */
  function Filter<T(==)>(s: seq<T>, keep: T -> bool): (r: seq<T>)
    ensures IsSubsequence(r, s)
    ensures forall i :: 0 <= i < |r| ==> keep(r[i])
    ensures forall i :: 0 <= i < |s| && keep(s[i]) ==> s[i] in r
    ensures |r| == CountWhere(s, keep)
  {
    if |s| == 0 then []
    else
      var rest := Filter(s[..|s| - 1], keep);
      assert forall i :: 0 <= i < |s| - 1 ==> s[..|s| - 1][i] == s[i];
      if keep(s[|s| - 1]) then
        assert (rest + [s[|s| - 1]])[..|rest|] == rest;
        rest + [s[|s| - 1]]
      else rest
  }

  /** Filtering with a predicate that every element satisfies changes nothing. */
  lemma {:induction false} FilterKeepsAll<T>(s: seq<T>, keep: T -> bool)
    requires forall i :: 0 <= i < |s| ==> keep(s[i])
    ensures Filter(s, keep) == s
  {
    if |s| > 0 {
      FilterKeepsAll(s[..|s| - 1], keep);
      assert s[..|s| - 1] + [s[|s| - 1]] == s;
    }
  }

  /** A subsequence is no longer than the sequence and takes its elements
      from it. */
  lemma {:induction false} SubsequenceFacts<T>(a: seq<T>, b: seq<T>)
    requires IsSubsequence(a, b)
    ensures |a| <= |b|
    ensures forall x :: x in a ==> x in b
    decreases |b|
  {
    if |b| > 0 {
      if |a| > 0 && a[|a| - 1] == b[|b| - 1] && IsSubsequence(a[..|a| - 1], b[..|b| - 1]) {
        SubsequenceFacts(a[..|a| - 1], b[..|b| - 1]);
        assert a == a[..|a| - 1] + [a[|a| - 1]];
        assert b == b[..|b| - 1] + [b[|b| - 1]];
      } else {
        SubsequenceFacts(a, b[..|b| - 1]);
        assert b == b[..|b| - 1] + [b[|b| - 1]];
      }
    }
  }
}

=== FILE: text.dfy ===
/** String helpers shared by the handlers and pages: prefix/suffix/substring
    tests, splitting on one character and joining, whitespace trimming with
    the Go and the JavaScript notion of whitespace, and the two length
    measures the Go handlers and the TypeScript pages use (Go `len` counts
    UTF-8 bytes, JavaScript `.length` counts UTF-16 code units). */
module Text {

  predicate StartsWith(s: string, prefix: string) {
    prefix <= s
  }

  predicate EndsWith(s: string, suffix: string) {
    |suffix| <= |s| && s[|s| - |suffix|..] == suffix
  }

  /** `sub` occurs somewhere in `s` (Go `strings.Contains`, JS `includes`). */
  predicate Contains(s: string, sub: string)
    decreases |s|
  {
    StartsWith(s, sub) || (|s| > 0 && Contains(s[1..], sub))
  }

  lemma {:induction false} ContainsAt(s: string, sub: string, i: nat)
    requires i + |sub| <= |s| && s[i..i + |sub|] == sub
    ensures Contains(s, sub)
    decreases i
  {
    if i == 0 {
      assert s[..|sub|] == sub;
    } else {
      assert s[1..][i - 1..i - 1 + |sub|] == s[i..i + |sub|];
      ContainsAt(s[1..], sub, i - 1);
    }
  }

  lemma {:induction false} ContainsWitness(s: string, sub: string) returns (i: nat)
    requires Contains(s, sub)
    ensures i + |sub| <= |s| && s[i..i + |sub|] == sub
    decreases |s|
  {
    if StartsWith(s, sub) {
      i := 0;
    } else {
      var j := ContainsWitness(s[1..], sub);
      assert s[1..][j..j + |sub|] == s[j + 1..j + 1 + |sub|];
      i := j + 1;
    }
  }

  /** Number of occurrences of `c` in `s`. */
  function Count(s: string, c: char): nat {
    if |s| == 0 then 0 else (if s[0] == c then 1 else 0) + Count(s[1..], c)
  }

  /** Splitting on a one-character separator, as Go `strings.Split(s, " ")`
      and JS `s.split("\n")` do: the empty string gives one empty piece. */
  function Split(s: string, sep: char): (parts: seq<string>)
    ensures |parts| == Count(s, sep) + 1
    ensures forall k :: 0 <= k < |parts| ==> sep !in parts[k]
    decreases |s|
  {
    if |s| == 0 then [""]
    else
      var rest := Split(s[1..], sep);
      if s[0] == sep then [""] + rest
      else [[s[0]] + rest[0]] + rest[1..]
  }

  function Join(parts: seq<string>, sep: string): string {
    if |parts| == 0 then ""
    else if |parts| == 1 then parts[0]
    else parts[0] + sep + Join(parts[1..], sep)
  }

  /** Joining the pieces with the separator gives back the original string. */
  lemma {:induction false} JoinSplit(s: string, sep: char)
    ensures Join(Split(s, sep), [sep]) == s
    decreases |s|
  {
    if |s| > 0 {
      var rest := Split(s[1..], sep);
      JoinSplit(s[1..], sep);
      if s[0] == sep {
        assert Split(s, sep) == [""] + rest;
      } else {
        assert Split(s, sep) == [[s[0]] + rest[0]] + rest[1..];
        if |rest| == 1 {
          assert s == [s[0]] + s[1..];
        } else {
          assert rest == [rest[0]] + rest[1..];
          assert Join(rest, [sep]) == rest[0] + [sep] + Join(rest[1..], [sep]);
          assert s == [s[0]] + s[1..];
        }
      }
    }
  }

  /** A string without the separator is a single piece. */
  lemma {:induction false} SplitNoSeparator(s: string, sep: char)
    requires sep !in s
    ensures Split(s, sep) == [s]
    decreases |s|
  {
    if |s| > 0 {
      SplitNoSeparator(s[1..], sep);
      assert [s[0]] + s[1..] == s;
    }
  }

  /** Splitting `a`, the separator, then `b`, with no separator in `a`. */
  lemma {:induction false} SplitAfterPiece(a: string, b: string, sep: char)
    requires sep !in a
    ensures Split(a + [sep] + b, sep) == [a] + Split(b, sep)
    decreases |a|
  {
    var s := a + [sep] + b;
    if |a| == 0 {
      assert s[1..] == b;
    } else {
      assert s[1..] == a[1..] + [sep] + b;
      SplitAfterPiece(a[1..], b, sep);
      assert [a[0]] + a[1..] == a;
    }
  }

  /** The inverse of `JoinSplit`: pieces free of the separator are recovered
      by splitting their join. */
  lemma {:induction false} SplitJoin(parts: seq<string>, sep: char)
    requires |parts| >= 1
    requires forall k :: 0 <= k < |parts| ==> sep !in parts[k]
    ensures Split(Join(parts, [sep]), sep) == parts
    decreases |parts|
  {
    if |parts| == 1 {
      SplitNoSeparator(parts[0], sep);
    } else {
      SplitJoin(parts[1..], sep);
      SplitAfterPiece(parts[0], Join(parts[1..], [sep]), sep);
      assert [parts[0]] + parts[1..] == parts;
    }
  }

  /** Joining two non-empty lists is joining each and putting the
      separator between them. */
  lemma {:induction false} JoinConcat(a: seq<string>, b: seq<string>, sep: string)
    requires |a| > 0 && |b| > 0
    ensures Join(a + b, sep) == Join(a, sep) + sep + Join(b, sep)
    decreases |a|
  {
    assert (a + b)[0] == a[0];
    if |a| == 1 {
      assert (a + b)[1..] == b;
    } else {
      assert (a + b)[1..] == a[1..] + b;
      JoinConcat(a[1..], b, sep);
      assert Join(a + b, sep) == a[0] + sep + (Join(a[1..], sep) + sep + Join(b, sep));
    }
  }

  /** Splitting gives exactly two pieces when the string is one piece,
      the separator, and another piece, neither holding the separator. */
  lemma SplitTwoIff(s: string, sep: char, a: string, b: string)
    ensures Split(s, sep) == [a, b] <==> s == a + [sep] + b && sep !in a && sep !in b
  {
    if Split(s, sep) == [a, b] {
      JoinSplit(s, sep);
      assert Split(s, sep)[1..] == [b];
    }
    if s == a + [sep] + b && sep !in a && sep !in b {
      SplitAfterPiece(a, b, sep);
      SplitNoSeparator(b, sep);
    }
  }

  /** Every occurrence of `from` replaced by `to` (JS `replace(/x/g, y)` with a one-character pattern). */
  function ReplaceChar(s: string, from: char, to: char): (r: string)
    ensures |r| == |s|
    ensures forall i :: 0 <= i < |s| ==> r[i] == (if s[i] == from then to else s[i])
    ensures from != to ==> from !in r
  {
    seq(|s|, i requires 0 <= i < |s| => if s[i] == from then to else s[i])
  }

  /** JavaScript whitespace as used by `String.prototype.trim` and regex `\s`:
      WhiteSpace (incl. U+FEFF and category Zs) plus LineTerminator. */
  predicate IsJsSpace(c: char) {
    c == '\t' || c == '\n' || c == '\U{000B}' || c == '\U{000C}' || c == '\r' || c == ' '
    || c == '\U{00A0}' || c == '\U{1680}' || ('\U{2000}' <= c <= '\U{200A}')
    || c == '\U{2028}' || c == '\U{2029}' || c == '\U{202F}' || c == '\U{205F}'
    || c == '\U{3000}' || c == '\U{FEFF}'
  }

  /** Go `unicode.IsSpace`, used by `strings.TrimSpace`: like JavaScript's
      set, but with U+0085 and without U+FEFF. */
  predicate IsGoSpace(c: char) {
    c == '\t' || c == '\n' || c == '\U{000B}' || c == '\U{000C}' || c == '\r' || c == ' '
    || c == '\U{0085}' || c == '\U{00A0}' || c == '\U{1680}' || ('\U{2000}' <= c <= '\U{200A}')
    || c == '\U{2028}' || c == '\U{2029}' || c == '\U{202F}' || c == '\U{205F}'
    || c == '\U{3000}'
  }

  function TrimStart(s: string, isSpace: char -> bool): (r: string)
    ensures |r| <= |s| && r == s[|s| - |r|..]
    ensures forall i :: 0 <= i < |s| - |r| ==> isSpace(s[i])
    ensures |r| > 0 ==> !isSpace(r[0])
    decreases |s|
  {
    if |s| > 0 && isSpace(s[0]) then TrimStart(s[1..], isSpace) else s
  }

  function TrimEnd(s: string, isSpace: char -> bool): (r: string)
    ensures |r| <= |s| && r == s[..|r|]
    ensures forall i :: |r| <= i < |s| ==> isSpace(s[i])
    ensures |r| > 0 ==> !isSpace(r[|r| - 1])
    decreases |s|
  {
    if |s| > 0 && isSpace(s[|s| - 1]) then TrimEnd(s[..|s| - 1], isSpace) else s
  }

  /** `r` sits in `s` starting at index `a`. */
  predicate SliceAt(s: string, r: string, a: int) {
    0 <= a <= a + |r| <= |s| && r == s[a..a + |r|]
  }

  /** Both ends trimmed: the result is a slice of `s` whose cut-off ends are
      all whitespace and whose own ends are not. */
  function Trim(s: string, isSpace: char -> bool): (r: string)
    ensures exists a :: SliceAt(s, r, a)
                        && (forall i :: 0 <= i < a ==> isSpace(s[i]))
                        && (forall i :: a + |r| <= i < |s| ==> isSpace(s[i]))
    ensures |r| > 0 ==> !isSpace(r[0]) && !isSpace(r[|r| - 1])
  {
    var t := TrimStart(s, isSpace);
    var r := TrimEnd(t, isSpace);
    var a := |s| - |t|;
    assert SliceAt(s, r, a);
    r
  }

  /** The trimmed string is empty exactly when every character is whitespace. */
  lemma TrimEmptyIffBlank(s: string, isSpace: char -> bool)
    ensures Trim(s, isSpace) == "" <==> forall i :: 0 <= i < |s| ==> isSpace(s[i])
  {
    if Trim(s, isSpace) != "" {
      var r := Trim(s, isSpace);
      var a :| SliceAt(s, r, a) && (forall i :: 0 <= i < a ==> isSpace(s[i]));
      assert s[a] == r[0];
    }
  }

  /** Trimming removes exactly the whitespace padding around a text whose
      own ends are not whitespace. */
  lemma TrimPadded(p1: string, b: string, p2: string, isSpace: char -> bool)
    requires forall i :: 0 <= i < |p1| ==> isSpace(p1[i])
    requires forall i :: 0 <= i < |p2| ==> isSpace(p2[i])
    requires |b| > 0 ==> !isSpace(b[0]) && !isSpace(b[|b| - 1])
    ensures Trim(p1 + b + p2, isSpace) == b
  {
    if |b| == 0 {
      TrimBlankPadding(p1, p2, isSpace);
      assert p1 + b + p2 == p1 + p2;
    } else {
      TrimPaddedText(p1, b, p2, isSpace);
    }
  }

  lemma TrimBlankPadding(p1: string, p2: string, isSpace: char -> bool)
    requires forall i :: 0 <= i < |p1| ==> isSpace(p1[i])
    requires forall i :: 0 <= i < |p2| ==> isSpace(p2[i])
    ensures Trim(p1 + p2, isSpace) == ""
  {
    var s := p1 + p2;
    forall i | 0 <= i < |s|
      ensures isSpace(s[i])
    {
      if i < |p1| { assert s[i] == p1[i]; } else { assert s[i] == p2[i - |p1|]; }
    }
    TrimEmptyIffBlank(s, isSpace);
  }

  lemma TrimPaddedText(p1: string, b: string, p2: string, isSpace: char -> bool)
    requires forall i :: 0 <= i < |p1| ==> isSpace(p1[i])
    requires forall i :: 0 <= i < |p2| ==> isSpace(p2[i])
    requires |b| > 0 && !isSpace(b[0]) && !isSpace(b[|b| - 1])
    ensures Trim(p1 + b + p2, isSpace) == b
  {
    assert p1 + b + p2 == p1 + (b + p2);
    TrimStartPadded(p1, b + p2, isSpace);
    TrimEndPadded(b, p2, isSpace);
  }

  lemma {:induction false} TrimStartPadded(p: string, rest: string, isSpace: char -> bool)
    requires forall i :: 0 <= i < |p| ==> isSpace(p[i])
    requires |rest| > 0 && !isSpace(rest[0])
    ensures TrimStart(p + rest, isSpace) == rest
    decreases |p|
  {
    if |p| == 0 {
      assert p + rest == rest;
    } else {
      assert (p + rest)[0] == p[0];
      assert (p + rest)[1..] == p[1..] + rest;
      TrimStartPadded(p[1..], rest, isSpace);
    }
  }

  lemma {:induction false} TrimEndPadded(rest: string, p: string, isSpace: char -> bool)
    requires forall i :: 0 <= i < |p| ==> isSpace(p[i])
    requires |rest| > 0 && !isSpace(rest[|rest| - 1])
    ensures TrimEnd(rest + p, isSpace) == rest
    decreases |p|
  {
    var s := rest + p;
    if |p| == 0 {
      assert s == rest;
    } else {
      assert s[|s| - 1] == p[|p| - 1];
      assert s[..|s| - 1] == rest + p[..|p| - 1];
      TrimEndPadded(rest, p[..|p| - 1], isSpace);
    }
  }

  /** Go `strings.TrimPrefix`: drop one leading `p` when present. */
  function TrimPrefix(s: string, p: string): (r: string)
    ensures StartsWith(s, p) ==> s == p + r
    ensures !StartsWith(s, p) ==> r == s
  {
    if StartsWith(s, p) then s[|p|..] else s
  }

  /** Go `strings.TrimSuffix`: drop one trailing `p` when present. */
  function TrimSuffix(s: string, p: string): (r: string)
    ensures EndsWith(s, p) ==> s == r + p
    ensures !EndsWith(s, p) ==> r == s
  {
    if EndsWith(s, p) then s[..|s| - |p|] else s
  }

  /** Bytes in the UTF-8 encoding of `c`. */
  function Utf8Width(c: char): nat {
    if c as int < 0x80 then 1 else if c as int < 0x800 then 2 else if c as int < 0x10000 then 3 else 4
  }

  /** Go `len(s)`: the number of UTF-8 bytes. */
  function Utf8Length(s: string): (n: nat)
    ensures |s| <= n <= 4 * |s|
  {
    if |s| == 0 then 0 else Utf8Width(s[0]) + Utf8Length(s[1..])
  }

  /** JavaScript `s.length`: the number of UTF-16 code units. */
  function Utf16Length(s: string): (n: nat)
    ensures |s| <= n <= 2 * |s|
  {
    if |s| == 0 then 0 else (if s[0] as int >= 0x10000 then 2 else 1) + Utf16Length(s[1..])
  }

  /** A string never has more UTF-16 code units than UTF-8 bytes. */
  lemma {:induction false} Utf16AtMostUtf8(s: string)
    ensures Utf16Length(s) <= Utf8Length(s)
    decreases |s|
  {
    if |s| > 0 {
      Utf16AtMostUtf8(s[1..]);
    }
  }

  /** On ASCII text all three measures agree. */
  lemma {:induction false} AsciiLengths(s: string)
    requires forall i :: 0 <= i < |s| ==> s[i] as int < 0x80
    ensures Utf8Length(s) == |s| && Utf16Length(s) == |s|
    decreases |s|
  {
    if |s| > 0 {
      AsciiLengths(s[1..]);
    }
  }
}

=== FILE: trade_calculations.dfy ===
/** The browser-side position-sizing and risk engine: a ladder of take-profit
    or stop-loss rungs is collapsed into one weighted distance (percent of
    entry), and the trade metrics are derived from it. Money is `real`. */
module TradeCalculations {

  datatype Side = Long | Short

  /** One rung of a take-profit or stop-loss ladder; `percent` is its weight. */
  datatype Level = Level(id: string, price: real, percent: real)

  datatype TradeInputs = TradeInputs(
    portfolio: real,
    entryPrice: real,
    riskPercent: real,
    leverage: real,
    side: Side,
    tpLevels: seq<Level>,
    slLevels: seq<Level>,
    feePercent: real)

  /** What the engine reports besides the numbers. The engine renders these
      as fixed messages; the margin message embeds the capped margin. */
  datatype Diagnostic = NoError | MissingInputs | InvalidStopLoss | MarginExceeded(margin: real)

  datatype TradeMetrics = TradeMetrics(
    riskAmount: real,
    weightedSLDistance: real,
    weightedTPDistance: real,
    calculatedPositionSize: real,
    requiredMargin: real,
    quantity: real,
    grossWin: real,
    grossLoss: real,
    totalFee: real,
    netMaxWin: real,
    netMaxLoss: real,
    riskRewardRatio: real,
    isValid: bool,
    marginExceedsPortfolio: bool,
    diagnostic: Diagnostic)

  /** The all-zero record returned by the guards. */
  const InvalidResult := TradeMetrics(0.0, 0.0, 0.0, 0.0, 0.0, 0.0, 0.0, 0.0, 0.0, 0.0, 0.0, 0.0,
                                      false, false, NoError)

  // ---------------------------------------------------------------------
  // Weighted distance of a ladder

  /** Distance from entry to `price`, in percent of entry, signed so that a
      target beyond entry in the profitable direction, or a stop beyond it in
      the losing direction, is positive. */
  function Distance(price: real, entry: real, side: Side, isTP: bool): real
    requires entry > 0.0
  {
    match side
    case Long => if isTP then (price - entry) / entry * 100.0 else (entry - price) / entry * 100.0
    case Short => if isTP then (entry - price) / entry * 100.0 else (price - entry) / entry * 100.0
  }

  /** A rung is counted when its price is set and positive, its weight is
      non-zero and its side-adjusted distance is positive. */
  predicate Counts(l: Level, entry: real, side: Side, isTP: bool)
    requires entry > 0.0
  {
    l.price > 0.0 && l.percent != 0.0 && Distance(l.price, entry, side, isTP) > 0.0
  }

  function Contribution(l: Level, entry: real, side: Side, isTP: bool): real
    requires entry > 0.0
  {
    if Counts(l, entry, side, isTP) then Distance(l.price, entry, side, isTP) * (l.percent / 100.0) else 0.0
  }

  /** Σ distance × weight/100 over the counted rungs. */
  function WeightedSum(levels: seq<Level>, entry: real, side: Side, isTP: bool): real
    requires entry > 0.0
    decreases |levels|
  {
    if |levels| == 0 then 0.0
    else WeightedSum(levels[..|levels| - 1], entry, side, isTP) + Contribution(levels[|levels| - 1], entry, side, isTP)
  }

  /** Σ weight over the counted rungs. */
  function CountedWeight(levels: seq<Level>, entry: real, side: Side, isTP: bool): real
    requires entry > 0.0
    decreases |levels|
  {
    if |levels| == 0 then 0.0
    else
      var l := levels[|levels| - 1];
      CountedWeight(levels[..|levels| - 1], entry, side, isTP) + (if Counts(l, entry, side, isTP) then l.percent else 0.0)
  }

  /** Reference definition of the weighted distance: the raw weighted sum of
      the counted rungs, with no renormalisation by their total weight, or 0
      when that total weight is not positive. */
  function WeightedDistance(levels: seq<Level>, entry: real, side: Side, isTP: bool): (d: real)
    ensures entry <= 0.0 || |levels| == 0 ==> d == 0.0
    ensures entry > 0.0 && CountedWeight(levels, entry, side, isTP) <= 0.0 ==> d == 0.0
  {
    if entry <= 0.0 || |levels| == 0 then 0.0
    else if CountedWeight(levels, entry, side, isTP) > 0.0 then WeightedSum(levels, entry, side, isTP)
    else 0.0
  }

  /** The ladder loop as written: skip unusable rungs, accumulate the
      weighted distance and the weight of the rungs with positive distance. */
  method CalculateWeightedDistance(levels: seq<Level>, entry: real, side: Side, isTP: bool) returns (d: real)
    ensures d == WeightedDistance(levels, entry, side, isTP)
  {
    if entry <= 0.0 || |levels| == 0 {
      return 0.0;
    }
    var totalWeightedDistance := 0.0;
    var totalWeight := 0.0;
    var i := 0;
    while i < |levels|
      invariant 0 <= i <= |levels|
      invariant totalWeightedDistance == WeightedSum(levels[..i], entry, side, isTP)
      invariant totalWeight == CountedWeight(levels[..i], entry, side, isTP)
    {
      SumsStep(levels, i, entry, side, isTP);
      totalWeightedDistance, totalWeight := AddLevel(levels[i], entry, side, isTP, totalWeightedDistance, totalWeight);
      i := i + 1;
    }
    assert levels[..i] == levels;
    d := if totalWeight > 0.0 then totalWeightedDistance else 0.0;
  }

  /** The loop body: an unusable rung is skipped; a rung with positive
      distance adds distance × weight/100 and its weight. */
  method AddLevel(level: Level, entry: real, side: Side, isTP: bool, weightedDistance: real, weight: real)
    returns (weightedDistance': real, weight': real)
    requires entry > 0.0
    ensures weightedDistance' == weightedDistance + Contribution(level, entry, side, isTP)
    ensures weight' == weight + (if Counts(level, entry, side, isTP) then level.percent else 0.0)
  {
    weightedDistance', weight' := weightedDistance, weight;
    if level.price <= 0.0 || level.percent == 0.0 {
      return;
    }
    var distance := LevelDistance(level.price, entry, side, isTP);
    if distance > 0.0 {
      weightedDistance' := weightedDistance + distance * (level.percent / 100.0);
      weight' := weight + level.percent;
    }
  }

  /** The distance computation of the loop body, branch by branch. */
  method LevelDistance(price: real, entry: real, side: Side, isTP: bool) returns (distance: real)
    requires entry > 0.0
    ensures distance == Distance(price, entry, side, isTP)
    ensures distance > 0.0 <==> (if (side == Long) == isTP then price > entry else price < entry)
  {
    if side == Long {
      distance := if isTP then (price - entry) / entry * 100.0 else (entry - price) / entry * 100.0;
    } else {
      distance := if isTP then (entry - price) / entry * 100.0 else (price - entry) / entry * 100.0;
    }
    DistanceSign(price, entry, side, isTP);
  }

  /** A rung's distance is positive exactly when it lies beyond entry on
      its side: above entry for a long target or a short stop, below it
      otherwise. */
  lemma DistanceSign(price: real, entry: real, side: Side, isTP: bool)
    requires entry > 0.0
    ensures Distance(price, entry, side, isTP) > 0.0 <==> (if (side == Long) == isTP then price > entry else price < entry)
  {
    PercentSign(price - entry, entry);
    PercentSign(entry - price, entry);
  }

  lemma PercentSign(x: real, entry: real)
    requires entry > 0.0
    ensures x / entry * 100.0 > 0.0 <==> x > 0.0
  {
    var q := x / entry;
    assert q * entry == x;
    if q > 0.0 {
      assert x > 0.0;
    }
    if x > 0.0 {
      assert q > 0.0;
    }
  }

  /** One more rung of the prefix adds its contribution and, if counted, its weight. */
  lemma SumsStep(levels: seq<Level>, i: nat, entry: real, side: Side, isTP: bool)
    requires entry > 0.0 && i < |levels|
    ensures WeightedSum(levels[..i + 1], entry, side, isTP)
            == WeightedSum(levels[..i], entry, side, isTP) + Contribution(levels[i], entry, side, isTP)
    ensures CountedWeight(levels[..i + 1], entry, side, isTP)
            == CountedWeight(levels[..i], entry, side, isTP) + (if Counts(levels[i], entry, side, isTP) then levels[i].percent else 0.0)
  {
    assert levels[..i + 1][..i] == levels[..i];
  }

  lemma {:induction false} WeightedSumAppend(a: seq<Level>, b: seq<Level>, entry: real, side: Side, isTP: bool)
    requires entry > 0.0
    ensures WeightedSum(a + b, entry, side, isTP) == WeightedSum(a, entry, side, isTP) + WeightedSum(b, entry, side, isTP)
    ensures CountedWeight(a + b, entry, side, isTP) == CountedWeight(a, entry, side, isTP) + CountedWeight(b, entry, side, isTP)
    decreases |b|
  {
    if |b| == 0 {
      assert a + b == a;
    } else {
      var b' := b[..|b| - 1];
      assert (a + b)[..|a + b| - 1] == a + b';
      assert (a + b)[|a + b| - 1] == b[|b| - 1];
      WeightedSumAppend(a, b', entry, side, isTP);
    }
  }

  /** A rung that is not counted (price unset or non-positive, weight 0, or
      distance not positive) can be removed from anywhere in the ladder
      without changing the result, as long as the ladder stays non-empty. */
  lemma SkippedRungContributesNothing(a: seq<Level>, l: Level, b: seq<Level>, entry: real, side: Side, isTP: bool)
    requires entry > 0.0 && |a + b| > 0
    requires !Counts(l, entry, side, isTP)
    ensures WeightedDistance(a + [l] + b, entry, side, isTP) == WeightedDistance(a + b, entry, side, isTP)
  {
    WeightedSumAppend(a, [l], entry, side, isTP);
    WeightedSumAppend(a + [l], b, entry, side, isTP);
    WeightedSumAppend(a, b, entry, side, isTP);
    assert WeightedSum([l], entry, side, isTP) == 0.0 by {
      assert [l][..0] == [];
    }
    assert CountedWeight([l], entry, side, isTP) == 0.0 by {
      assert [l][..0] == [];
    }
  }

  /** A lone counted rung of positive weight w at distance δ gives δ·w/100:
      the weight is not divided out again. */
  lemma LoneRung(l: Level, entry: real, side: Side, isTP: bool)
    requires entry > 0.0 && Counts(l, entry, side, isTP) && l.percent > 0.0
    ensures WeightedDistance([l], entry, side, isTP) == Distance(l.price, entry, side, isTP) * l.percent / 100.0
  {
    assert [l][..0] == [];
    assert WeightedSum([l], entry, side, isTP) == Contribution(l, entry, side, isTP);
    assert CountedWeight([l], entry, side, isTP) == l.percent;
    var dist := Distance(l.price, entry, side, isTP);
    assert dist * (l.percent / 100.0) == dist * l.percent / 100.0;
  }

  /** Concrete instance of the missing renormalisation: a single long stop 2%
      below entry carrying half the weight yields 1%, not 2%. */
  lemma NoRenormalisation()
    ensures WeightedDistance([Level("a", 98.0, 50.0)], 100.0, Long, false) == 1.0
  {
    LoneRung(Level("a", 98.0, 50.0), 100.0, Long, false);
  }

  /** Long targets and short stops measure the same distance, as do long stops
      and short targets. */
  lemma DistanceSideSymmetry(price: real, entry: real)
    requires entry > 0.0
    ensures Distance(price, entry, Long, true) == Distance(price, entry, Short, false) == (price - entry) / entry * 100.0
    ensures Distance(price, entry, Long, false) == Distance(price, entry, Short, true) == (entry - price) / entry * 100.0
  {
  }

  lemma {:induction false} WeightedSideSymmetry(levels: seq<Level>, entry: real, isTP: bool)
    ensures WeightedDistance(levels, entry, Long, isTP) == WeightedDistance(levels, entry, Short, !isTP)
  {
    if entry > 0.0 {
      SumsSideSymmetry(levels, entry, isTP);
    }
  }

  lemma {:induction false} SumsSideSymmetry(levels: seq<Level>, entry: real, isTP: bool)
    requires entry > 0.0
    ensures WeightedSum(levels, entry, Long, isTP) == WeightedSum(levels, entry, Short, !isTP)
    ensures CountedWeight(levels, entry, Long, isTP) == CountedWeight(levels, entry, Short, !isTP)
    decreases |levels|
  {
    if |levels| > 0 {
      SumsSideSymmetry(levels[..|levels| - 1], entry, isTP);
      DistanceSideSymmetry(levels[|levels| - 1].price, entry);
    }
  }

  predicate SomeRungCounts(levels: seq<Level>, entry: real, side: Side, isTP: bool)
    requires entry > 0.0
  {
    exists k :: 0 <= k < |levels| && Counts(levels[k], entry, side, isTP)
  }

  lemma {:induction false} NonNegativeWeightsSums(levels: seq<Level>, entry: real, side: Side, isTP: bool)
    requires entry > 0.0
    requires forall k :: 0 <= k < |levels| ==> levels[k].percent >= 0.0
    ensures WeightedSum(levels, entry, side, isTP) >= 0.0 && CountedWeight(levels, entry, side, isTP) >= 0.0
    ensures SomeRungCounts(levels, entry, side, isTP) <==> WeightedSum(levels, entry, side, isTP) > 0.0
    ensures SomeRungCounts(levels, entry, side, isTP) <==> CountedWeight(levels, entry, side, isTP) > 0.0
    decreases |levels|
  {
    if |levels| > 0 {
      var init := levels[..|levels| - 1];
      var l := levels[|levels| - 1];
      NonNegativeWeightsSums(init, entry, side, isTP);
      if Counts(l, entry, side, isTP) {
        assert l.percent > 0.0;
        assert Distance(l.price, entry, side, isTP) * (l.percent / 100.0) > 0.0;
        assert SomeRungCounts(levels, entry, side, isTP) by {
          assert Counts(levels[|levels| - 1], entry, side, isTP);
        }
      } else {
        if SomeRungCounts(levels, entry, side, isTP) {
          var k :| 0 <= k < |levels| && Counts(levels[k], entry, side, isTP);
          assert k < |levels| - 1;
          assert init[k] == levels[k];
        }
        if SomeRungCounts(init, entry, side, isTP) {
          var k :| 0 <= k < |init| && Counts(init[k], entry, side, isTP);
          assert levels[k] == init[k];
        }
      }
    }
  }

  /** With non-negative weights, a ladder yields a positive distance exactly
      when entry is positive and at least one rung is counted. */
  lemma PositiveIffSomeRungCounts(levels: seq<Level>, entry: real, side: Side, isTP: bool)
    requires forall k :: 0 <= k < |levels| ==> levels[k].percent >= 0.0
    ensures WeightedDistance(levels, entry, side, isTP) >= 0.0
    ensures WeightedDistance(levels, entry, side, isTP) > 0.0 <==> entry > 0.0 && SomeRungCounts(levels, entry, side, isTP)
  {
    if entry > 0.0 {
      NonNegativeWeightsSums(levels, entry, side, isTP);
    }
  }

  // ---------------------------------------------------------------------
  // Trade metrics

  function StopDistance(inp: TradeInputs): real {
    WeightedDistance(inp.slLevels, inp.entryPrice, inp.side, false)
  }

  function TargetDistance(inp: TradeInputs): real {
    WeightedDistance(inp.tpLevels, inp.entryPrice, inp.side, true)
  }

  function RiskAmount(inp: TradeInputs): real {
    inp.portfolio * (inp.riskPercent / 100.0)
  }

  /** The inputs on which the engine stays within finite arithmetic: leverage
      is non-zero, and a negative fee does not exactly cancel the stop
      fraction in the sizing denominator. */
  predicate Computable(inp: TradeInputs) {
    inp.leverage != 0.0
    && (StopDistance(inp) <= 0.0 || StopDistance(inp) / 100.0 + inp.feePercent * 2.0 / 100.0 != 0.0)
  }

  /** The position size that loses exactly the risk amount, fees included,
      when the weighted stop is hit. */
  function UncappedSize(inp: TradeInputs): (size: real)
    requires StopDistance(inp) > 0.0 && Computable(inp)
    ensures size * (StopDistance(inp) / 100.0 + inp.feePercent * 2.0 / 100.0) == RiskAmount(inp)
  {
    RiskAmount(inp) / (StopDistance(inp) / 100.0 + inp.feePercent * 2.0 / 100.0)
  }

  lemma FactorSum(s: real, a: real, f: real)
    ensures s * a + s * f == s * (a + f)
  {
  }

  lemma DivExceeds(size: real, leverage: real, portfolio: real)
    requires leverage > 0.0
    ensures size / leverage > portfolio <==> size > portfolio * leverage
  {
    assert size == (size / leverage) * leverage;
    if size / leverage > portfolio {
      assert (size / leverage) * leverage > portfolio * leverage;
    } else {
      assert (size / leverage) * leverage <= portfolio * leverage;
    }
  }

  lemma DivExceedsWhenPositive(size: real, leverage: real, portfolio: real)
    requires leverage != 0.0
    ensures leverage > 0.0 ==> (size / leverage > portfolio <==> size > portfolio * leverage)
  {
    if leverage > 0.0 {
      DivExceeds(size, leverage, portfolio);
    }
  }

  /** The margin needed for the uncapped position exceeds the portfolio. */
  predicate MarginExceeds(inp: TradeInputs)
    requires StopDistance(inp) > 0.0 && Computable(inp)
  {
    UncappedSize(inp) / inp.leverage > inp.portfolio
  }

  /** Position size after the cap: portfolio × leverage when capped. */
  function FinalSize(inp: TradeInputs): real
    requires StopDistance(inp) > 0.0 && Computable(inp)
  {
    if MarginExceeds(inp) then inp.portfolio * inp.leverage else UncappedSize(inp)
  }

  /** Steps C to G for inputs that passed the guards: size, margin cap, P&L
      and ratio. */
  function SizedMetrics(inp: TradeInputs): (m: TradeMetrics)
    requires inp.portfolio > 0.0 && inp.entryPrice > 0.0 && StopDistance(inp) > 0.0 && Computable(inp)
    ensures m.riskAmount == inp.portfolio * inp.riskPercent / 100.0
    ensures m.weightedSLDistance == StopDistance(inp) && m.weightedTPDistance == TargetDistance(inp)
    ensures m.marginExceedsPortfolio == MarginExceeds(inp) && m.calculatedPositionSize == FinalSize(inp)
    ensures m.marginExceedsPortfolio ==>
              !m.isValid && m.requiredMargin == inp.portfolio && m.diagnostic == MarginExceeded(inp.portfolio)
    ensures !m.marginExceedsPortfolio ==> m.diagnostic == NoError
    ensures m.requiredMargin <= inp.portfolio
    ensures m.isValid <==> !m.marginExceedsPortfolio && TargetDistance(inp) > 0.0
    ensures m.netMaxWin == m.grossWin - m.totalFee && m.netMaxLoss == m.grossLoss + m.totalFee
    ensures var o := Outcome(FinalSize(inp), inp.entryPrice, TargetDistance(inp), StopDistance(inp), inp.feePercent);
            m.quantity == o.quantity && m.grossWin == o.grossWin && m.grossLoss == o.grossLoss
            && m.totalFee == o.totalFee && m.riskRewardRatio == o.riskRewardRatio
  {
    var riskAmount := inp.portfolio * (inp.riskPercent / 100.0);
    var requiredMargin := UncappedSize(inp) / inp.leverage;
    var finalPositionSize := FinalSize(inp);
    var finalMargin := if MarginExceeds(inp) then inp.portfolio else requiredMargin;
    var p := Outcome(finalPositionSize, inp.entryPrice, TargetDistance(inp), StopDistance(inp), inp.feePercent);
    TradeMetrics(
      riskAmount, StopDistance(inp), TargetDistance(inp),
      finalPositionSize, finalMargin, p.quantity,
      p.grossWin, p.grossLoss, p.totalFee, p.netMaxWin, p.netMaxLoss, p.riskRewardRatio,
      !MarginExceeds(inp) && StopDistance(inp) > 0.0 && TargetDistance(inp) > 0.0,
      MarginExceeds(inp),
      if MarginExceeds(inp) then MarginExceeded(finalMargin) else NoError)
  }

  /** What a sized position wins and loses. */
  datatype PositionOutcome = PositionOutcome(quantity: real, grossWin: real, grossLoss: real, totalFee: real,
                                             netMaxWin: real, netMaxLoss: real, riskRewardRatio: real)

  /** Steps E to G: the quantity, the gross win and loss at the weighted
      target and stop, the round-trip fee, the net figures and their ratio. */
  function Outcome(size: real, entryPrice: real, targetDistance: real, stopDistance: real, feePercent: real)
    : (o: PositionOutcome)
    requires entryPrice > 0.0
    ensures o.quantity * entryPrice == size
    ensures o.grossWin == size * targetDistance / 100.0 && o.grossLoss == size * stopDistance / 100.0
    ensures o.totalFee == size * feePercent * 2.0 / 100.0
    ensures o.netMaxWin == o.grossWin - o.totalFee && o.netMaxLoss == o.grossLoss + o.totalFee
    ensures o.netMaxLoss > 0.0 ==> o.riskRewardRatio * o.netMaxLoss == o.netMaxWin
    ensures o.netMaxLoss <= 0.0 ==> o.riskRewardRatio == 0.0
  {
    var avgSLDecimal := stopDistance / 100.0;
    var roundtripFee := (feePercent * 2.0) / 100.0;
    var grossWin := size * (targetDistance / 100.0);
    var grossLoss := size * avgSLDecimal;
    var totalFee := size * roundtripFee;
    var netMaxWin := grossWin - totalFee;
    var netMaxLoss := grossLoss + totalFee;
    var riskRewardRatio := if netMaxLoss > 0.0 then netMaxWin / netMaxLoss else 0.0;
    QuotientTimes(size, entryPrice);
    QuotientTimesIfPositive(netMaxWin, netMaxLoss);
    PositionOutcome(size / entryPrice, grossWin, grossLoss, totalFee, netMaxWin, netMaxLoss, riskRewardRatio)
  }

  /** (x / d) · d = x for a non-zero divisor. */
  lemma QuotientTimes(x: real, d: real)
    requires d != 0.0
    ensures (x / d) * d == x
  {
  }

  lemma QuotientTimesIfPositive(x: real, d: real)
    ensures d > 0.0 ==> (x / d) * d == x
  {
    if d > 0.0 {
      QuotientTimes(x, d);
    }
  }

  /** Loss at the stop plus the round-trip fee equals the risk budget
      exactly, unless the position was capped. */
  lemma RiskContainment(inp: TradeInputs)
    requires inp.portfolio > 0.0 && inp.entryPrice > 0.0 && StopDistance(inp) > 0.0 && Computable(inp)
    requires !CalculateTradeMetrics(inp).marginExceedsPortfolio
    ensures CalculateTradeMetrics(inp).grossLoss + CalculateTradeMetrics(inp).totalFee == CalculateTradeMetrics(inp).riskAmount
  {
    var m := SizedMetrics(inp);
    FactorSum(m.calculatedPositionSize, StopDistance(inp) / 100.0, inp.feePercent * 2.0 / 100.0);
  }

  /** With positive leverage, the cap fires exactly when the uncapped size
      exceeds portfolio × leverage, and the final size is the smaller of the
      two. */
  lemma MarginCap(inp: TradeInputs)
    requires inp.portfolio > 0.0 && inp.entryPrice > 0.0 && StopDistance(inp) > 0.0 && Computable(inp)
    requires inp.leverage > 0.0
    ensures CalculateTradeMetrics(inp).marginExceedsPortfolio <==> UncappedSize(inp) > inp.portfolio * inp.leverage
    ensures CalculateTradeMetrics(inp).calculatedPositionSize
            == if UncappedSize(inp) <= inp.portfolio * inp.leverage then UncappedSize(inp) else inp.portfolio * inp.leverage
  {
    DivExceeds(UncappedSize(inp), inp.leverage, inp.portfolio);
  }

  /** The whole pipeline: the two guards, then the sized metrics. */
  function CalculateTradeMetrics(inp: TradeInputs): (m: TradeMetrics)
    requires Computable(inp)
    ensures inp.portfolio <= 0.0 || inp.entryPrice <= 0.0 ==> m == InvalidResult.(diagnostic := MissingInputs)
    ensures inp.portfolio > 0.0 && inp.entryPrice > 0.0 && StopDistance(inp) <= 0.0 ==>
              m == InvalidResult.(riskAmount := inp.portfolio * inp.riskPercent / 100.0, diagnostic := InvalidStopLoss)
    ensures inp.portfolio > 0.0 && inp.entryPrice > 0.0 && StopDistance(inp) > 0.0 ==> m == SizedMetrics(inp)
    ensures m.isValid ==> m.diagnostic == NoError && m.weightedSLDistance > 0.0 && m.weightedTPDistance > 0.0
  {
    if inp.portfolio <= 0.0 || inp.entryPrice <= 0.0 then
      InvalidResult.(diagnostic := MissingInputs)
    else if StopDistance(inp) <= 0.0 then
      InvalidResult.(riskAmount := inp.portfolio * (inp.riskPercent / 100.0), diagnostic := InvalidStopLoss)
    else
      SizedMetrics(inp)
  }

  /** A capped trade: 100 of equity at 50 % risk, stop 2 % and target 4 %
      away, fee 0.1 %, leverage 1. The uncapped size 50 / 0.022 needs more
      margin than the portfolio holds, so the size is cut to 100 and the loss
      at the stop, 2.2, no longer equals the risk budget of 50. */
  lemma CappedScenario()
    ensures var inp := TradeInputs(100.0, 50000.0, 50.0, 1.0, Long,
                                   [Level("t", 52000.0, 100.0)], [Level("s", 49000.0, 100.0)], 0.1);
            Computable(inp)
            && var m := CalculateTradeMetrics(inp);
            m.marginExceedsPortfolio && !m.isValid && m.calculatedPositionSize == 100.0
            && m.requiredMargin == 100.0 && m.grossLoss == 2.0 && m.netMaxLoss == 2.2 && m.riskAmount == 50.0
  {
    var inp := TradeInputs(100.0, 50000.0, 50.0, 1.0, Long,
                           [Level("t", 52000.0, 100.0)], [Level("s", 49000.0, 100.0)], 0.1);
    LoneRung(Level("t", 52000.0, 100.0), 50000.0, Long, true);
    LoneRung(Level("s", 49000.0, 100.0), 50000.0, Long, false);
    assert StopDistance(inp) == 2.0;
    assert TargetDistance(inp) == 4.0;
    assert UncappedSize(inp) == 50.0 / 0.022;
  }

  /** Raising the risk percentage never shrinks an uncapped position. */
  lemma UncappedSizeMonotoneInRisk(inp: TradeInputs, riskPercent: real)
    requires inp.portfolio > 0.0 && StopDistance(inp) > 0.0 && Computable(inp)
    requires inp.feePercent >= 0.0 && riskPercent >= inp.riskPercent
    ensures UncappedSize(inp) <= UncappedSize(inp.(riskPercent := riskPercent))
  {
    var inp' := inp.(riskPercent := riskPercent);
    assert StopDistance(inp') == StopDistance(inp);
    var den := StopDistance(inp) / 100.0 + inp.feePercent * 2.0 / 100.0;
    assert den > 0.0;
    assert RiskAmount(inp) <= RiskAmount(inp');
  }

  /** Rendering of the ratio: "0:0" for a non-positive ratio, otherwise "1:"
      followed by the ratio printed to two decimals by `toFixed`. */
  function FormatRR(ratio: real, toFixed2: real -> string): (s: string)
    ensures s == "0:0" <==> ratio <= 0.0
    ensures ratio > 0.0 ==> |s| >= 2 && s[..2] == "1:" && s[2..] == toFixed2(ratio)
  {
    if ratio <= 0.0 then "0:0"
    else
      var s := "1:" + toFixed2(ratio);
      assert s[0] == '1';
      s
  }
}

=== FILE: trade_handlers.dfy ===
/** The journal's trade endpoints: the server-side star score, the checks
    and defaults applied when a trade is created, the partial update used to
    close or annotate a trade, and the defaults of the list filter. Times
    are instants in seconds; the database itself is not modelled. */
module TradeHandlers {
  import opened Wrappers
  import Text

  // ---------------------------------------------------------------------
  // Server-side setup score

  /** Stars from the reward-to-risk ratio (5/4/3 at 3/2/1.5, else 2), less
      two stars above 10 % risk or one star above 5 %, kept within 1 to 5. */
  function SetupScore(rr: real, riskPercent: real): (score: int)
    ensures 1 <= score <= 5
    ensures riskPercent <= 5.0 ==> score == RatioStars(rr)
    ensures riskPercent > 5.0 ==> score == if RatioStars(rr) - RiskPenalty(riskPercent) < 1 then 1
                                          else RatioStars(rr) - RiskPenalty(riskPercent)
  {
    var base := if rr >= 3.0 then 5 else if rr >= 2.0 then 4 else if rr >= 1.5 then 3 else 2;
    var penalised := if riskPercent > 10.0 then base - 2 else if riskPercent > 5.0 then base - 1 else base;
    var low := if penalised < 1 then 1 else penalised;
    if low > 5 then 5 else low
  }

  /** Reference buckets for the ratio. */
  function RatioStars(rr: real): int {
    if rr >= 3.0 then 5 else if rr >= 2.0 then 4 else if rr >= 1.5 then 3 else 2
  }

  /** Reference penalty for the risk percentage. */
  function RiskPenalty(riskPercent: real): int {
    if riskPercent > 10.0 then 2 else if riskPercent > 5.0 then 1 else 0
  }

  /** A better ratio never lowers the score and a higher risk never raises
      it. */
  lemma SetupScoreMonotone(rr1: real, rr2: real, risk1: real, risk2: real)
    requires rr1 <= rr2 && risk1 >= risk2
    ensures SetupScore(rr1, risk1) <= SetupScore(rr2, risk2)
  {
  }

  /** The floor of 1 is reached only by a ratio under 2 with risk above
      10 %, or a ratio under 1.5 with risk above 5 %. */
  lemma SetupScoreFloor(rr: real, riskPercent: real)
    ensures SetupScore(rr, riskPercent) == 1 <==>
              (rr < 2.0 && riskPercent > 10.0) || (rr < 1.5 && riskPercent > 5.0)
  {
  }

  // ---------------------------------------------------------------------
  // Trades and creation

  datatype Trade = Trade(
    userId: nat,
    pair: string,
    side: string,
    entryPrice: real,
    exitPrice: real,
    stopLoss: real,
    takeProfit: real,
    positionSize: real,
    quantity: real,
    leverage: int,
    riskPercent: real,
    maxWin: real,
    maxLoss: real,
    riskRewardRatio: real,
    fee: real,
    entryReason: string,
    setupScore: int,
    pnl: real,
    pnlPercent: real,
    status: string,
    notes: string,
    tags: string,
    entryTime: Option<int>,
    exitTime: Option<int>,
    openedAt: Option<int>,
    closedAt: Option<int>)

  /** The body of a create request once decoded. */
  datatype CreateRequest = CreateRequest(
    pair: string,
    side: string,
    entryPrice: real,
    stopLoss: real,
    takeProfit: real,
    positionSize: real,
    quantity: real,
    leverage: int,
    riskPercent: real,
    maxWin: real,
    maxLoss: real,
    riskRewardRatio: real,
    fee: real,
    entryReason: string,
    setupScore: int,
    notes: string,
    tags: string,
    entryTime: Option<int>,
    openedAt: Option<int>)

  /** Why a create request is refused; each maps to one HTTP status. */
  datatype CreateError =
    | NoUser            // 401
    | MissingFields     // 400
    | PairTooLong       // 400
    | PairWithoutSlash  // 400
    | InvalidSide       // 400

  function CreateErrorStatus(e: CreateError): int {
    if e == NoUser then 401 else 400
  }

  const MaxPairBytes := 50

  /** The first check a create request fails, in the handler's order. */
  function CreateCheck(userId: nat, req: CreateRequest): (e: Option<CreateError>)
    ensures userId == 0 ==> e == Some(NoUser)
    ensures e == Some(MissingFields) <==>
              userId != 0 && (req.pair == "" || req.side == "" || req.entryPrice <= 0.0 || req.positionSize <= 0.0)
    ensures e == Some(PairTooLong) <==>
              userId != 0 && req.pair != "" && req.side != "" && req.entryPrice > 0.0 && req.positionSize > 0.0
              && Text.Utf8Length(req.pair) > MaxPairBytes
    ensures e == None <==>
              userId != 0 && req.pair != "" && req.entryPrice > 0.0 && req.positionSize > 0.0
              && Text.Utf8Length(req.pair) <= MaxPairBytes && Text.Contains(req.pair, "/")
              && (req.side == "LONG" || req.side == "SHORT")
  {
    if userId == 0 then Some(NoUser)
    else if req.pair == "" || req.side == "" || req.entryPrice <= 0.0 || req.positionSize <= 0.0 then Some(MissingFields)
    else if Text.Utf8Length(req.pair) > MaxPairBytes then Some(PairTooLong)
    else if !Text.Contains(req.pair, "/") then Some(PairWithoutSlash)
    else if req.side != "LONG" && req.side != "SHORT" then Some(InvalidSide)
    else None
  }

  /** Creates the trade for `userId` at time `now`: leverage defaults to 1,
      missing entry and open times to `now`, a missing score is computed
      when the ratio is positive, and the trade always starts OPEN. */
  function CreateTrade(userId: nat, req: CreateRequest, now: int): (r: Result<Trade, CreateError>)
    ensures r.Err? <==> CreateCheck(userId, req).Some?
    ensures r.Err? ==> r.error == CreateCheck(userId, req).value
    ensures r.Ok? ==>
              var t := r.value;
              t.userId == userId && t.pair == req.pair && t.side == req.side
              && t.status == "OPEN" && t.leverage >= 1
              && (req.leverage > 0 ==> t.leverage == req.leverage)
              && t.entryTime == Some(req.entryTime.GetOr(now)) && t.openedAt == Some(req.openedAt.GetOr(now))
              && t.exitTime.None? && t.closedAt.None?
              && (req.setupScore == 0 && req.riskRewardRatio > 0.0 ==>
                    t.setupScore == SetupScore(req.riskRewardRatio, req.riskPercent))
              && (req.setupScore != 0 || req.riskRewardRatio <= 0.0 ==> t.setupScore == req.setupScore)
  {
    match CreateCheck(userId, req)
    case Some(e) => Err(e)
    case None =>
      var leverage := if req.leverage <= 0 then 1 else req.leverage;
      var score := if req.setupScore == 0 && req.riskRewardRatio > 0.0
                   then SetupScore(req.riskRewardRatio, req.riskPercent) else req.setupScore;
      Ok(Trade(userId, req.pair, req.side, req.entryPrice, 0.0, req.stopLoss, req.takeProfit,
               req.positionSize, req.quantity, leverage, req.riskPercent, req.maxWin, req.maxLoss,
               req.riskRewardRatio, req.fee, req.entryReason, score, 0.0, 0.0, "OPEN",
               req.notes, req.tags, Some(req.entryTime.GetOr(now)), None,
               Some(req.openedAt.GetOr(now)), None))
  }

  /** The pair check only asks for a '/', so a lower-case or oddly shaped
      pair such as "btc/" is stored, unlike in the browser form. */
  lemma LoosePairAccepted(userId: nat, now: int)
    requires userId != 0
    ensures CreateTrade(userId, CreateRequest("btc/", "LONG", 1.0, 0.0, 0.0, 1.0, 0.0, 0, 0.0, 0.0, 0.0,
                                              0.0, 0.0, "", 0, "", "", None, None), now).Ok?
  {
    var p := "btc/";
    assert p[3..3 + |"/"|] == "/";
    Text.ContainsAt(p, "/", 3);
  }

  // ---------------------------------------------------------------------
  // Updating a trade

  datatype UpdateRequest = UpdateRequest(
    exitPrice: real,
    pnl: real,
    pnlPercent: real,
    status: string,
    notes: string,
    exitTime: Option<int>,
    closedAt: Option<int>)

  /** The columns an update writes; an absent entry leaves the column as
      stored. */
  datatype Patch = Patch(
    exitPrice: Option<real>,
    pnl: Option<real>,
    pnlPercent: Option<real>,
    status: Option<string>,
    notes: Option<string>,
    exitTime: Option<int>,
    closedAt: Option<int>)

  /** A status that closes the trade. */
  predicate IsClosing(status: string) {
    status == "WIN" || status == "LOSS" || status == "BREAK_EVEN"
  }

  /** The columns selected from an update request at time `now`: only a
      positive exit price, non-zero P&L figures and non-empty texts are
      written, and a closing status stamps the exit and close times with
      `now` unless the request carries them. */
  function BuildPatch(req: UpdateRequest, now: int): (p: Patch)
    ensures p.exitPrice.Some? <==> req.exitPrice > 0.0
    ensures p.pnl.Some? <==> req.pnl != 0.0
    ensures p.pnlPercent.Some? <==> req.pnlPercent != 0.0
    ensures p.status.Some? <==> req.status != ""
    ensures p.notes.Some? <==> req.notes != ""
    ensures p.closedAt == if req.closedAt.Some? then req.closedAt
                          else if IsClosing(req.status) then Some(now) else None
    ensures p.exitTime == if req.exitTime.Some? then req.exitTime
                          else if IsClosing(req.status) then Some(now) else None
  {
    Patch(
      if req.exitPrice > 0.0 then Some(req.exitPrice) else None,
      if req.pnl != 0.0 then Some(req.pnl) else None,
      if req.pnlPercent != 0.0 then Some(req.pnlPercent) else None,
      if req.status != "" then Some(req.status) else None,
      if req.notes != "" then Some(req.notes) else None,
      if IsClosing(req.status) && req.exitTime.None? then Some(now) else req.exitTime,
      if IsClosing(req.status) && req.closedAt.None? then Some(now) else req.closedAt)
  }

  function Write<T>(stored: T, update: Option<T>): T {
    if update.Some? then update.value else stored
  }

  /** Writes the selected columns and nothing else. */
  function ApplyPatch(t: Trade, p: Patch): (r: Trade)
    ensures p.pnl.None? ==> r.pnl == t.pnl
    ensures p.status.Some? ==> r.status == p.status.value
    ensures r.(exitPrice := t.exitPrice, pnl := t.pnl, pnlPercent := t.pnlPercent, status := t.status,
               notes := t.notes, exitTime := t.exitTime, closedAt := t.closedAt) == t
  {
    t.(exitPrice := Write(t.exitPrice, p.exitPrice),
       pnl := Write(t.pnl, p.pnl),
       pnlPercent := Write(t.pnlPercent, p.pnlPercent),
       status := Write(t.status, p.status),
       notes := Write(t.notes, p.notes),
       exitTime := if p.exitTime.Some? then p.exitTime else t.exitTime,
       closedAt := if p.closedAt.Some? then p.closedAt else t.closedAt)
  }

  function UpdateTrade(t: Trade, req: UpdateRequest, now: int): (r: Trade)
    ensures r.pair == t.pair && r.side == t.side && r.entryPrice == t.entryPrice && r.userId == t.userId
    ensures req.pnl == 0.0 ==> r.pnl == t.pnl
    ensures req.pnl != 0.0 ==> r.pnl == req.pnl
    ensures IsClosing(req.status) ==> r.status == req.status && r.closedAt.Some? && r.exitTime.Some?
    ensures !IsClosing(req.status) && req.closedAt.None? ==> r.closedAt == t.closedAt
  {
    ApplyPatch(t, BuildPatch(req, now))
  }

  /** Closing a trade twice restamps it: a second WIN without explicit times
      moves the close time to the second call's `now`. */
  lemma ReclosingRestamps(t: Trade, now1: int, now2: int)
    ensures var req := UpdateRequest(0.0, 0.0, 0.0, "WIN", "", None, None);
            UpdateTrade(UpdateTrade(t, req, now1), req, now2).closedAt == Some(now2)
  {
  }

  /** The handler cannot set the P&L to exactly zero: a request with pnl 0
      on a trade whose stored pnl is 5 keeps 5. */
  lemma ZeroPnlCannotBeWritten(t: Trade, now: int)
    requires t.pnl == 5.0
    ensures UpdateTrade(t, UpdateRequest(100.0, 0.0, 0.0, "BREAK_EVEN", "", None, None), now).pnl == 5.0
  {
  }

  // ---------------------------------------------------------------------
  // Listing

  datatype TradeFilter = TradeFilter(
    status: string,
    pair: string,
    side: string,
    limit: int,
    offset: int,
    sortBy: string,
    sortDir: string)

  const DefaultLimit := 50
  const MaxLimit := 100

  /** Limit outside 1..100 becomes 50; empty sort column and direction
      become created_at and DESC; everything else is kept. */
  function WithDefaults(f: TradeFilter): (g: TradeFilter)
    ensures 1 <= g.limit <= MaxLimit
    ensures 1 <= f.limit <= MaxLimit ==> g.limit == f.limit
    ensures g.sortBy != "" && g.sortDir != ""
    ensures f.sortBy != "" ==> g.sortBy == f.sortBy
    ensures f.sortDir != "" ==> g.sortDir == f.sortDir
    ensures g.status == f.status && g.pair == f.pair && g.side == f.side && g.offset == f.offset
  {
    f.(limit := if f.limit <= 0 || f.limit > MaxLimit then DefaultLimit else f.limit,
       sortBy := if f.sortBy == "" then "created_at" else f.sortBy,
       sortDir := if f.sortDir == "" then "DESC" else f.sortDir)
  }

  /** Applying the defaults twice changes nothing more. */
  lemma WithDefaultsIdempotent(f: TradeFilter)
    ensures WithDefaults(WithDefaults(f)) == WithDefaults(f)
  {
  }

  // ---------------------------------------------------------------------
  // The pair filter: a case-insensitive LIKE pattern

  /** SQL `LIKE`: '%' matches any run of characters, '_' any one
      character, and a backslash makes the next character literal. */
  function LikeMatch(s: string, p: string): (ok: bool)
    ensures Literal(p) ==> (ok <==> s == p)
    decreases |s| + |p|
  {
    if |p| == 0 then |s| == 0
    else if p[0] == '%' then LikeMatch(s, p[1..]) || (|s| > 0 && LikeMatch(s[1..], p))
    else if p[0] == '\\' && |p| >= 2 then |s| > 0 && s[0] == p[1] && LikeMatch(s[1..], p[2..])
    else if p[0] == '_' then |s| > 0 && LikeMatch(s[1..], p[1..])
    else |s| > 0 && s[0] == p[0] && LikeMatch(s[1..], p[1..])
  }

  /** Text without any of LIKE's special characters. */
  predicate Literal(q: string) {
    forall i :: 0 <= i < |q| ==> q[i] != '%' && q[i] != '_' && q[i] != '\\'
  }

  /** A lone '%' matches everything. */
  lemma {:induction false} PercentMatchesAll(s: string)
    ensures LikeMatch(s, "%")
    decreases |s|
  {
    if |s| > 0 {
      PercentMatchesAll(s[1..]);
    }
  }

  /** A literal head must be a prefix of the text, and the rest of the
      pattern matches the rest of the text. */
  lemma {:induction false} LiteralHead(s: string, q: string, r: string)
    requires Literal(q)
    ensures LikeMatch(s, q + r) <==> Text.StartsWith(s, q) && LikeMatch(s[|q|..], r)
    decreases |q|
  {
    if |q| == 0 {
      assert q + r == r;
    } else {
      assert (q + r)[0] == q[0];
      assert (q + r)[1..] == q[1..] + r;
      if |s| > 0 {
        LiteralHead(s[1..], q[1..], r);
        if s[0] == q[0] && Text.StartsWith(s[1..], q[1..]) {
          assert s[1..][|q| - 1..] == s[|q|..];
          assert q == [q[0]] + q[1..] && s == [s[0]] + s[1..];
        }
        if Text.StartsWith(s, q) {
          assert q[1..] <= s[1..];
          assert s[1..][|q| - 1..] == s[|q|..];
        }
      }
    }
  }

  /** `%q%` with a literal `q` is a substring test. */
  lemma {:induction false} SurroundedLiteralIsContains(s: string, q: string)
    requires Literal(q)
    ensures LikeMatch(s, "%" + q + "%") <==> Text.Contains(s, q)
    decreases |s|
  {
    var p := "%" + q + "%";
    assert p[0] == '%' && p[1..] == q + "%";
    LiteralHead(s, q, "%");
    if Text.StartsWith(s, q) {
      PercentMatchesAll(s[|q|..]);
    }
    if |s| > 0 {
      SurroundedLiteralIsContains(s[1..], q);
    }
  }

  /** Row selection of the list query. `fold` is the database's case
      folding, applied to the pair and to the filter text, which ILIKE
      wraps in '%' on both sides. A status of "" or "all" selects every
      status. */
  function Selected(t: Trade, userId: nat, f: TradeFilter, fold: string -> string): (ok: bool)
    ensures ok ==> t.userId == userId
    ensures ok && f.side != "" ==> t.side == f.side
    ensures ok && f.status != "" && f.status != "all" ==> t.status == f.status
  {
    t.userId == userId
    && (f.status == "" || f.status == "all" || t.status == f.status)
    && (f.pair == "" || LikeMatch(fold(t.pair), "%" + fold(f.pair) + "%"))
    && (f.side == "" || t.side == f.side)
  }

  /** With no status, pair or side given, every trade of the user is
      selected and no other user's trade is. */
  lemma EmptyFilterSelectsOwnTrades(t: Trade, userId: nat, f: TradeFilter, fold: string -> string)
    requires f.status == "" && f.pair == "" && f.side == ""
    ensures Selected(t, userId, f, fold) <==> t.userId == userId
  {
  }

  /** A pair filter free of wildcards selects the pairs that contain it,
      case folded. */
  lemma LiteralPairFilterIsContains(t: Trade, userId: nat, f: TradeFilter, fold: string -> string)
    requires f.pair != "" && Literal(fold(f.pair))
    ensures Selected(t, userId, f, fold) <==>
              t.userId == userId
              && (f.status == "" || f.status == "all" || t.status == f.status)
              && Text.Contains(fold(t.pair), fold(f.pair))
              && (f.side == "" || t.side == f.side)
  {
    SurroundedLiteralIsContains(fold(t.pair), fold(f.pair));
  }

  /** The filter text is not escaped: a '%' selects every trade of the
      user, whatever its pair. */
  lemma PercentPairSelectsAll(t: Trade, f: TradeFilter, fold: string -> string)
    requires f.status == "" && f.side == "" && fold("%") == "%"
    ensures Selected(t, t.userId, f.(pair := "%"), fold)
  {
    PercentMatchesAll(fold(t.pair));
    assert LikeMatch(fold(t.pair), "%%");
  }

  /** An '_' matches any one character: "BTC_USDT" selects "BTC/USDT". */
  lemma UnderscoreMatchesSlash()
    ensures LikeMatch("BTC/USDT", "%BTC_USDT%")
  {
    PercentMatchesAll("");
    assert "USDT%" == "USDT" + "%";
    LiteralHead("USDT", "USDT", "%");
    assert LikeMatch("/USDT", "_USDT%");
    assert "BTC_USDT%" == "BTC" + "_USDT%";
    LiteralHead("BTC/USDT", "BTC", "_USDT%");
    assert LikeMatch("BTC/USDT", "BTC_USDT%");
  }
}

=== FILE: wrappers.dfy ===
/** Optional values and success/failure results, used in place of Go's
    `nil` references and `(value, error)` pairs and JavaScript's `undefined`. */
module Wrappers {

  datatype Option<+T> = None | Some(value: T) {

    /** The wrapped value, or `default` when absent. */
    function GetOr(default: T): T {
      match this
      case Some(v) => v
      case None => default
    }
  }

  datatype Result<+R, +E> = Ok(value: R) | Err(error: E)
}
